=== FILE: README.md ===
# OAuthClient in Dafny

This is a model of the two pure parts of the OAuthClient library.

**The OAuth 1.0 signature toolkit** (`OAuthTools`) covers:
- the strict encoder (`UrlEncodeStrict`, with `PercentEncode`) and the relaxed encoder (`UrlEncodeRelaxed`) of section 5.1 of OAuth Core 1.0;
- parameter normalization (`SortParametersExcludingSignature`, `Concatenate`, `NormalizeRequestParameters`) of section 9.1.1;
- request-URL construction of section 9.1.2;
- the signature base string of section 9.1.3;
- HMAC-SHA1 key assembly and signature treatment in the `GetSignature` overloads, section 9.2.

**The token-exchange client** (`OAuthClient`) covers:
- the positional `key=value&key=value` parser `GetTokenValues`;
- building the request-token and access-token records from its values;
- the URL handed to the HTTP fetch.

The modules follow the program:

| module | what it holds |
|---|---|
| `Wrappers` | `Option` and `Result`. A thrown exception is a `Failure`. |
| `Strings` | `string.Split` / join, ordinal order, ASCII case, `Trim`, decimal formatting |
| `Encoding` | UTF-8, `PercentEncode`, `UrlEncodeStrict`, `UrlEncodeRelaxed`. Also an RFC 3986 escaper (`EscapeDataString3986`) and a percent-decoder, used as the reference and inverse of the encoders. |
| `Parameters` | `WebParameter`, the name-then-value order, sorting, `SortParametersExcludingSignature`, `Concatenate`, `NormalizeRequestParameters` |
| `Signing` | the parsed `Uri` record, `ConstructRequestUrl`, `ConcatenateRequestElements`, `IsNullOrBlank`, the `GetSignature` overloads |
| `Client` | `GetTokenValues`, the record builders, `GetRequestTokenInfo`, `GetAccessToken` |
| `Vectors` | the test suite's response bodies and expected records, port and encoder vectors, and the normalization and base-string example of Appendix A.5.1 of OAuth Core 1.0 |

Library services are function-typed parameters rather than definitions:
- `Uri.EscapeDataString`, HMAC-SHA1 and Base64 are the fields of `Signing.Platform`;
- the HTTP fetch is a `string -> Result<string, string>`;
- the authorization query of `OAuthRequest` is an opaque string.

The escaper may be instantiated with `Encoding.EscapeDataString3986`, the RFC 3986 section 2.3 escaper. The round-trip lemmas are stated for that instance.

Where the code and its documentation differ, the model follows the code:
- `ConstructRequestUrl` does not lower-case, although its comment says the result must be lower case (`.ToLower()` is commented out).
- `UrlEncodeStrict` copies `%` through literally. It writes bytes below 0x10 other than 8, 9, 10 and 13 with a single hex digit, so `\x01` gives `%1`. It is not injective: `Vectors.StrictDigitCollision` and `Vectors.StrictEscapeCollision`.
- The test suite calls `GetRequestToken` and mocks `IOauthClientTools`. The client shown has `GetRequestTokenInfo` and fetches through `GetStringResponse`. The model follows the client and takes the fetch as a parameter.

## Model

| member | source | states |
|---|---|---|
| Strings.Split | OAuthClient/OAuthClient.cs:78 | `string.Split(c)` gives one more piece than there are separators; no piece contains the separator; joining the pieces with the separator restores the input |
| Strings.SplitJoin | OAuthClient/OAuth/OAuthTools.cs:171-192 | splitting a separator-free join recovers the pieces exactly: the inverse used for `Concatenate` and for the parser |
| Strings.SplitAtFirst | OAuthClient/OAuthClient.cs:82 | the first piece of a split is the text before the first separator, and the rest is the split of the text after it |
| Strings.SplitAppend | OAuthClient/OAuthClient.cs:78 | splitting `a + c + b` on `c` splits `a` and `b` separately and concatenates the pieces |
| Strings.JoinAppend | OAuthClient/OAuth/OAuthTools.cs:178-189 | joining two non-empty lists is joining each and putting one separator between |
| Strings.JoinEnds | OAuthClient/OAuth/OAuthTools.cs:184-188 | a join starts with its first piece and ends with its last one: no leading or trailing spacer |
| Strings.StrLeTotal | OAuthClient/OAuth/OAuthTools.cs:211 | the ordinal string comparison used by the sort is total |
| Strings.StrLeAntisymmetric | OAuthClient/OAuth/OAuthTools.cs:211 | two strings each ordered before the other are equal |
| Strings.StrLeTransitive | OAuthClient/OAuth/OAuthTools.cs:211 | the ordinal comparison is transitive |
| Strings.StrLeCommonPrefix | OAuthClient/OAuth/OAuthTools.cs:211 | putting the same prefix in front of two ordered strings keeps them ordered |
| Strings.ToUpperAscii | OAuthClient/OAuth/OAuthTools.cs:264 | upper-casing keeps the length, leaves no lower-case ASCII letter, maps each lower-case letter to its capital and keeps every other character |
| Strings.EqualsIgnoreCase | OAuthClient/OAuth/OAuthTools.cs:215-218 | two strings are equal ignoring case iff their upper-cased forms are equal; every string equals itself |
| Strings.TrimStart | OAuthClient/OAuth/OAuthTools.cs:382 | the result is a suffix of the input, everything removed is white space, and it does not start with white space |
| Strings.TrimEnd | OAuthClient/OAuth/OAuthTools.cs:382 | the result is a prefix of the input, everything removed is white space, and it does not end with white space |
| Strings.TrimEmptyIffWhiteSpace | OAuthClient/OAuth/OAuthTools.cs:380-383 | `Trim()` gives the empty string exactly when every character is white space |
| Strings.DecimalRoundTrip | OAuthClient/OAuth/OAuthTools.cs:238 | the decimal text of a port reads back as that port |
| Strings.IntToDecimalInjective | OAuthClient/OAuth/OAuthTools.cs:238 | different port numbers have different decimal texts |
| Encoding.HexDigit | OAuthClient/OAuth/OAuthTools.cs:112-116 | a hex digit of `{0:X}` is an upper-case unreserved digit whose value is the nibble |
| Encoding.Utf8Char | OAuthClient/OAuth/OAuthTools.cs:105 | UTF-8 takes one to four bytes; ASCII characters are their own byte; other characters use only bytes of 0x80 or more |
| Encoding.AsciiUtf8 | OAuthClient/OAuth/OAuthTools.cs:105 | ASCII text encodes as one byte per character, each byte the character's code |
| Encoding.UnitBytes | OAuthClient/OAuth/OAuthTools.cs:141-145 | a character of the Basic Multilingual Plane is its UTF-8; a character above it is two lone UTF-16 surrogates, each encoded as the replacement character |
| Encoding.PercentEncodeByte | OAuthClient/OAuth/OAuthTools.cs:110-117 | each byte is `%` and upper-case hex; there are two digits exactly for bytes 8, 9, 10, 13 and 16 or more; the digits read back as the byte |
| Encoding.HexRoundTrip | OAuthClient/OAuth/OAuthTools.cs:112-116 | the unpadded hex of a byte, and the zero-padded form below 16, read back as the byte |
| Encoding.PercentEncode | OAuthClient/OAuth/OAuthTools.cs:103-120 | the escape of a string is unreserved characters and `%`, every `%` is followed by a hex digit, it is at least twice as long as the string, and a non-empty string's escape starts with `%` |
| Encoding.PercentEncodeBytes | OAuthClient/OAuth/OAuthTools.cs:103-120 | `PercentEncode` output is unreserved characters and `%`, at least two characters per byte, and every `%` is followed by a hex digit |
| Encoding.PercentEncodeBytesAppend | OAuthClient/OAuth/OAuthTools.cs:107-118 | encoding bytes one at a time: the encoding of a concatenation is the concatenation of the encodings |
| Encoding.PercentEncodeBytesTwoDigit | OAuthClient/OAuth/OAuthTools.cs:110-117 | on bytes that get two digits, `PercentEncode` is exactly the RFC 3986 `%XY` form |
| Encoding.EncodeChar | OAuthClient/OAuth/OAuthTools.cs:141-151 | a character is copied if and only if it is unreserved or `%`; otherwise it becomes percent escapes starting with `%`, and for an ASCII character exactly the one-byte escape of `PercentEncodeByte`; the output is unreserved characters and `%` |
| Encoding.EncodeChars | OAuthClient/OAuth/OAuthTools.cs:140-151 | the per-character loop never shortens its input, emits only unreserved characters and `%`, and returns an unreserved-only input unchanged |
| Encoding.EncodeCharsAppend | OAuthClient/OAuth/OAuthTools.cs:141-151 | the loop treats characters independently: it distributes over concatenation |
| Encoding.ReplaceDoublePercent | OAuthClient/OAuth/OAuthTools.cs:153 | the `%%` to `%25%` rewrite never shortens, keeps the first character and the alphabet, and is the identity when there is no `%%`; what it writes in place of a `%%` is `Encoding.ReplaceDoublePercentAt` |
| Encoding.ReplaceDoublePercentAt | OAuthClient/OAuth/OAuthTools.cs:153 | the first `%%` of a text, found left to right, becomes `%25%`: text before it is copied, and the rewrite goes on after the pair |
| Encoding.StrictRewritesDoublePercent | OAuthClient/OAuth/OAuthTools.cs:140-153 | a literal `%%` after `%`-free text comes out of the strict encoder as `%25%`, the text before it encoded and the text after it encoded and rewritten |
| Encoding.ReplaceRemovesDoublePercent | OAuthClient/OAuth/OAuthTools.cs:153 | when the text has no `%%%`, the left-to-right rewrite leaves no `%%` |
| Encoding.UrlEncodeStrict | OAuthClient/OAuth/OAuthTools.cs:129-154 | the output is unreserved characters and `%` only, is never shorter than the input, and equals an unreserved-only input; the `%%` rewrite at its end is `Encoding.StrictRewritesDoublePercent` |
| Encoding.StrictWithoutPercent | OAuthClient/OAuth/OAuthTools.cs:143-153 | without `%` in the input, the final rewrite changes nothing |
| Encoding.EscapeDataString3986 | OAuthClient/OAuth/OAuthTools.cs:94 | the RFC 3986 escaper emits only unreserved characters and `%`, and leaves an unreserved-only string alone |
| Encoding.EscapeDataString3986Append | OAuthClient/OAuth/OAuthTools.cs:94 | the RFC 3986 escaper distributes over concatenation |
| Encoding.DecodePct2All | OAuthClient/OAuth/OAuthTools.cs:110-117 | percent-decoding reads back the bytes of a run of `%XY` escapes |
| Encoding.EscapeDataString3986RoundTrip | OAuthClient/OAuth/OAuthTools.cs:94 | percent-decoding the RFC 3986 escape of a string gives the string's UTF-8 bytes |
| Encoding.StrictAgreesWithRfc3986 | OAuthClient/OAuth/OAuthTools.cs:129-154 | on text without `%`, short control bytes or characters above the Basic Multilingual Plane, the strict encoder is the RFC 3986 escaper and decodes back to the text's UTF-8 |
| Encoding.EncodeCharsAgree | OAuthClient/OAuth/OAuthTools.cs:140-151 | on that text the per-character loop already equals the RFC 3986 escaper |
| Encoding.ReplaceChar | OAuthClient/OAuth/OAuthTools.cs:97-98 | `string.Replace` of a character leaves no occurrence of it when the replacement has none, is the identity when it is absent, and introduces no new characters; what it writes in place of each occurrence is `Encoding.ReplaceCharIsSplitJoin` |
| Encoding.ReplaceCharIsSplitJoin | OAuthClient/OAuth/OAuthTools.cs:97-98 | replacing a character is splitting on it and joining the pieces with the replacement: each occurrence becomes exactly the replacement and nothing else changes |
| Encoding.ReplaceCharLength | OAuthClient/OAuth/OAuthTools.cs:97-98 | the replaced text is the input's length plus, for each occurrence, the replacement's length minus one |
| Encoding.ReplaceCharAppend | OAuthClient/OAuth/OAuthTools.cs:97-98 | replacing distributes over concatenation |
| Encoding.UrlEncodeRelaxed | OAuthClient/OAuth/OAuthTools.cs:92-101 | for any escaper, the output has no `(` or `)`, equals the escaper's output when that has none, and adds only unreserved characters and `%`; what replaces the parentheses is `Encoding.RelaxedReplacesParentheses` |
| Encoding.RelaxedReplacesParentheses | OAuthClient/OAuth/OAuthTools.cs:92-101 | for any escaper, the output is the escaper's output with each `(` replaced by `%28`, then each `)` by `%29` |
| Encoding.RelaxedWithRfc3986 | OAuthClient/OAuth/OAuthTools.cs:92-101 | with the RFC 3986 escaper the parenthesis rewrite changes nothing |
| Encoding.ParenthesisEscapes | OAuthClient/OAuth/OAuthTools.cs:97-98 | `PercentEncode("(")` is `%28` and `PercentEncode(")")` is `%29` |
| Parameters.ParamLeTotal | OAuthClient/OAuth/OAuthTools.cs:211 | the comparer (name, then value when names are equal) orders any two parameters |
| Parameters.ParamLeAntisymmetric | OAuthClient/OAuth/OAuthTools.cs:211 | parameters the comparer puts each before the other are equal, so the sorted order is unique |
| Parameters.ParamLeTransitive | OAuthClient/OAuth/OAuthTools.cs:211 | the comparer is transitive |
| Parameters.Insert | OAuthClient/OAuth/OAuthTools.cs:211 | inserting adds exactly the one parameter to the multiset |
| Parameters.InsertSorted | OAuthClient/OAuth/OAuthTools.cs:211 | inserting into a sorted list keeps it sorted |
| Parameters.Sort | OAuthClient/OAuth/OAuthTools.cs:211 | the sort returns a sorted permutation of its input |
| Parameters.SortedFromAdjacent | OAuthClient/OAuth/OAuthTools.cs:211 | a list whose neighbours are in comparer order is sorted throughout, because the comparer is transitive |
| Parameters.SortedPermutationUnique | OAuthClient/OAuth/OAuthTools.cs:211 | two sorted permutations of the same parameters are equal, so any correct sort gives this result |
| Parameters.SameMembers | OAuthClient/OAuth/OAuthTools.cs:201-211 | a permutation has the same members |
| Parameters.Prepare | OAuthClient/OAuth/OAuthTools.cs:201-209 | the filtered copy has no `oauth_signature` parameter under any ASCII case; a parameter is in it iff it is the strict encoding of a non-signature input parameter; nothing is dropped when there is no signature; how many copies survive is fixed by `Parameters.PrepareAppend` with `Parameters.PrepareSingle` |
| Parameters.PrepareAppend | OAuthClient/OAuth/OAuthTools.cs:201-209 | filtering works element by element: the filtered copy of a concatenation is the concatenation of the filtered copies, so a kept parameter survives as often as it occurs, duplicates included |
| Parameters.PrepareSingle | OAuthClient/OAuth/OAuthTools.cs:202-209 | one parameter is dropped if it is a signature parameter and otherwise kept with its value strict-encoded |
| Parameters.SortParametersExcludingSignature | OAuthClient/OAuth/OAuthTools.cs:199-213 | the result is sorted by name, then value; it is a permutation of the filtered, strict-encoded input; it holds no signature parameter and exactly the encoded non-signature parameters |
| Parameters.SortParametersCharacterized | OAuthClient/OAuth/OAuthTools.cs:199-213 | any sorted permutation of the filtered, encoded parameters is the function's result |
| Parameters.Pairs | OAuthClient/OAuth/OAuthTools.cs:180-182 | one `name + separator + value` text per parameter, in order |
| Parameters.Concatenate | OAuthClient/OAuth/OAuthTools.cs:171-192 | an empty collection gives the empty string; otherwise the text starts with the first pair and ends with the last one (the full sequence of pairs is recovered in `Parameters.ConcatenateSplits`) |
| Parameters.ConcatenateCons | OAuthClient/OAuth/OAuthTools.cs:171-192 | a parameter in front of a non-empty rest contributes `name + separator + value` and exactly one spacer before the concatenation of the rest |
| Parameters.ConcatenateSplits | OAuthClient/OAuth/OAuthTools.cs:171-192 | when no pair contains the spacer, splitting the result on the spacer gives back exactly the pairs |
| Parameters.NormalizeRequestParameters | OAuthClient/OAuth/OAuthTools.cs:164-169 | the normalized text is empty iff every parameter is a signature parameter |
| Parameters.NormalizeSplits | OAuthClient/OAuth/OAuthTools.cs:164-169 | when names have no `&`, splitting the normalized text on `&` gives the sorted, encoded `name=value` pairs |
| Parameters.PrepareUnchanged | OAuthClient/OAuth/OAuthTools.cs:201-209 | when no name is `oauth_signature` in any case and every value is unreserved text, the filtered, encoded copy equals the input |
| Parameters.PreparedFree | OAuthClient/OAuth/OAuthTools.cs:206-209 | a character the strict encoder never emits is absent from every prepared value, and from names when absent from the input names |
| Signing.ConstructRequestUrl | OAuthClient/OAuth/OAuthTools.cs:228-247 | a null URL is `ArgumentNullException`; otherwise the result starts with `scheme://host` and ends with the absolute path; between them is nothing when the port is the scheme's default, and otherwise `:` followed by the port's decimal digits (so distinct ports give distinct URLs, `Signing.RequestUrlDeterminesPort`) |
| Signing.RequestUrlDeterminesPort | OAuthClient/OAuth/OAuthTools.cs:237-244 | with scheme, host and path fixed, the request URL determines the port |
| Signing.ConcatenateRequestElements | OAuthClient/OAuth/OAuthTools.cs:259-273 | the base string starts with the upper-cased method and an unencoded `&` |
| Signing.SignatureBaseHasNoParentheses | OAuthClient/OAuth/OAuthTools.cs:259-273 | whatever the escaper, a method without parentheses gives a base string without `(` or `)` |
| Signing.SignatureBaseFields | OAuthClient/OAuth/OAuthTools.cs:259-273 | with the RFC 3986 escaper and a method without `&`, the base string is exactly three `&`-separated fields, and the second and third decode back to the request URL and the normalized parameters |
| Signing.ThreeFields | OAuthClient/OAuth/OAuthTools.cs:264-270 | three separator-free fields joined by the separator split back into those fields |
| Signing.Rfc3986HasNoAmpersand | OAuthClient/OAuth/OAuthTools.cs:263 | the RFC 3986 escape never contains `&`, so the two separating `&` stay unique |
| Signing.IsNullOrBlank | OAuthClient/OAuth/OAuthTools.cs:380-383 | true exactly for null or for text that is all white space, including the empty string |
| Signing.RawSignature | OAuthClient/OAuth/OAuthTools.cs:373-378 | `HashWith` is the Base64 of the HMAC-SHA1 of the base's UTF-8 bytes, under a key whose bytes, for ASCII key text, are its character codes |
| Signing.GetSignature | OAuthClient/OAuth/OAuthTools.cs:336-371 | fails with `NotImplementedException` iff the method is not HMAC-SHA1; otherwise it signs the base under the key `relaxed(consumer secret) & relaxed(token secret or "")`, and relaxed-encodes the result iff the treatment is `Escaped` |
| Signing.BlankTokenSecretIsEmpty | OAuthClient/OAuth/OAuthTools.cs:342-345 | a null, empty or blank token secret signs exactly as no token secret |
| Signing.EscapedIsRelaxedUnescaped | OAuthClient/OAuth/OAuthTools.cs:366-368 | the escaped signature is the relaxed encoding of the unescaped one |
| Signing.SigningKeyFields | OAuthClient/OAuth/OAuthTools.cs:347-355 | with the RFC 3986 escaper the key has exactly two `&`-separated fields, decoding back to the consumer secret and the effective token secret |
| Signing.GetSignatureForConsumer | OAuthClient/OAuth/OAuthTools.cs:284-289 | fails iff the method is not HMAC-SHA1, and then with `NotImplementedException`; otherwise the escaped signature under the key `relaxed(consumer secret) &` |
| Signing.GetSignatureWithTreatment | OAuthClient/OAuth/OAuthTools.cs:301-307 | fails with `NotImplementedException` iff the method is not HMAC-SHA1; otherwise as above, with the treatment deciding whether the signature is relaxed-encoded |
| Signing.GetSignatureWithTokenAsWritten | OAuthClient/OAuth/OAuthTools.cs:318-324 | as written, a null token secret raises `ArgumentNullException`, because it reaches the escaper as the consumer secret; otherwise it fails with `NotImplementedException` iff the method is not HMAC-SHA1, and succeeds with the escaped signature of the consumer secret under the key `relaxed(token secret) &` |
| Signing.AsWrittenIgnoresSignatureBase | OAuthClient/OAuth/OAuthTools.cs:318-324 | as written, the result is the consumer secret signed under a key made from the token secret, whatever the signature base |
| Signing.AsWrittenDiscrepancy | OAuthClient/OAuth/OAuthTools.cs:318-324 | there is a platform on which the as-written overload signs bases `a` and `ab` alike while the corrected one tells them apart |
| Signing.GetSignatureWithToken | OAuthClient/OAuth/OAuthTools.cs:309-317 | corrected overload: fails with `NotImplementedException` iff the method is not HMAC-SHA1; otherwise the escaped signature of the given base under the consumer and token secrets |
| Signing.CorrectedOverloadAgrees | OAuthClient/OAuth/OAuthTools.cs:284-289 | with no token secret, the corrected overload and the consumer-only overload agree |
| Client.ValueField | OAuthClient/OAuthClient.cs:82 | the value read from a segment with `=` contains no `=` |
| Client.ValueFieldIsSecondPiece | OAuthClient/OAuthClient.cs:82 | `Split('=')[1]` exists iff the segment has `=`, and it is the text between the first and second `=` |
| Client.SegmentValues | OAuthClient/OAuthClient.cs:80-83 | succeeds iff every segment has `=`, giving each segment's value in order; otherwise it names the first segment without `=` |
| Client.GetTokenValues | OAuthClient/OAuthClient.cs:74-86 | succeeds iff every `&`-segment has `=`; then there is one value per segment, in textual order, each the text between the segment's first and second `=`; otherwise the first segment without `=` is named |
| Client.TokenValuesAreSecondPieces | OAuthClient/OAuthClient.cs:82 | on success each value is its segment's `Split('=')[1]`, a piece that then exists |
| Client.TokenValuesOfSegments | OAuthClient/OAuthClient.cs:78-83 | a body whose segments all have `=` gives their values |
| Client.TokenValuesFailure | OAuthClient/OAuthClient.cs:78-83 | a body with a segment lacking `=` fails at the first one |
| Client.EmptyBodyFails | OAuthClient/OAuthClient.cs:82 | the empty body has one empty segment, so it fails |
| Client.TokenValuesOfConcatenate | OAuthClient/OAuthClient.cs:74-86 | parsing a `name=value&...` text written by `Concatenate` gives back the values: the parser inverts the writer |
| Client.PairValue | OAuthClient/OAuthClient.cs:82 | the value of `name=value` is `value` when neither has `=` |
| Client.SegmentCount | OAuthClient/OAuthClient.cs:78 | the number of segments is the number of `&` plus one |
| Client.RequestTokenFromResponse | OAuthClient/OAuthClient.cs:37-46 | a parse failure propagates; a parsed body succeeds iff it has at least three segments, otherwise it fails at the missing index; the record holds segment values 0, 1 and 2, no verifier, the configured callback URL, and the access URL `authorize URL ?oauth_token= token` |
| Client.RequestTokenFromValues | OAuthClient/OAuthClient.cs:39-46 | with at least three values, the record holds values 0, 1 and 2; otherwise it fails at the index equal to the number of values |
| Client.AccessTokenFromResponse | OAuthClient/OAuthClient.cs:64-71 | a parse failure propagates; a parsed body succeeds iff it has at least two segments, and the record holds segment values 0 and 1 |
| Client.AccessTokenFromValues | OAuthClient/OAuthClient.cs:66-71 | with at least two values, the record holds values 0 and 1; otherwise it fails at the index equal to the number of values |
| Client.RecordsFromValues | OAuthClient/OAuthClient.cs:37-71 | once the body parses, both records are built from its values alone |
| Client.ExtraSegmentsIgnored | OAuthClient/OAuthClient.cs:41-43 | appending further well-formed segments does not change a record built from a long-enough body |
| Client.TokenValuesAppend | OAuthClient/OAuthClient.cs:78-83 | the values of `body & extra` are the values of body followed by those of extra |
| Client.SegmentValuesAppend | OAuthClient/OAuthClient.cs:80-83 | per-segment parsing distributes over concatenation of segment lists |
| Client.RecordsOfConcatenate | OAuthClient/OAuthClient.cs:37-71 | a body written from two or three plain pairs gives records holding exactly those values |
| Client.FetchUrl | OAuthClient/OAuthClient.cs:32-35 | the fetched URL is the endpoint, then `?`, then the authorization query |
| Client.GetRequestTokenInfo | OAuthClient/OAuthClient.cs:25-49 | fetches the request-token endpoint with the query; a fetch failure is a transport error; otherwise the record is the one built from the body |
| Client.GetAccessToken | OAuthClient/OAuthClient.cs:51-72 | fetches the access-token endpoint with the query; a fetch failure is a transport error; otherwise the record is the one built from the body |
| Vectors.TwoValues | OAuthClient.Test/OAuthClientTests.cs:48 | a body of two plain pairs parses to its two values |
| Vectors.ThreeValues | OAuthClient.Test/OAuthClientTests.cs:32 | a body of three plain pairs parses to its three values |
| Vectors.RequestTokenVector | OAuthClient.Test/OAuthClientTests.cs:14-41 | with the test's configuration and a fetch answering the test's body, the record is the test's expected record, access URL `http://authorize/url?oauth_token=request_token` included |
| Vectors.AccessTokenVector | OAuthClient.Test/OAuthClientTests.cs:43-58 | with the test's access-token body, the record is (`request_token`, `request_secret`) |
| Vectors.ShortBodyVector | OAuthClient/OAuthClient.cs:41-43 | the two-pair body is too short for a request-token record and fails at index 2 |
| Vectors.TransportFailureVector | OAuthClient/OAuthClient.cs:62 | a failed fetch surfaces as a transport error |
| Vectors.MissingEqualsVector | OAuthClient/OAuthClient.cs:82 | `a=1&b` fails at segment 1 |
| Vectors.TrailingAmpersandVector | OAuthClient/OAuthClient.cs:78-82 | `a=1&` has an empty last segment and fails at it |
| Vectors.HttpDefaultPortVector | OAuthClient/OAuth/OAuthTools.cs:239-243 | `http` on port 80 leaves the port out |
| Vectors.HttpsDefaultPortVector | OAuthClient/OAuth/OAuthTools.cs:239-243 | `https` on port 443 leaves the port out |
| Vectors.OtherPortVector | OAuthClient/OAuth/OAuthTools.cs:238-243 | `http` on port 8080 keeps `:8080` |
| Vectors.CrossSchemePortVector | OAuthClient/OAuth/OAuthTools.cs:238-243 | `https` on port 80 keeps `:80`: only each scheme's own default is dropped |
| Vectors.StrictPaddedVectors | OAuthClient/OAuth/OAuthTools.cs:110-117 | the padded control bytes: `\n` gives `%0A`, `\x08` `%08`, `\r` `%0D` |
| Vectors.StrictUnpaddedVectors | OAuthClient/OAuth/OAuthTools.cs:110-117 | other bytes below 0x10 get one digit: `\x01` gives `%1`, `\x0B` `%B` |
| Vectors.StrictPercentSpaceVector | OAuthClient/OAuth/OAuthTools.cs:143-153 | `% ` gives `%25%20` |
| Vectors.StrictTriplePercentVector | OAuthClient/OAuth/OAuthTools.cs:153 | `%%%` gives `%25%%`: the rewrite is left to right and non-overlapping |
| Vectors.StrictEscapedInputVector | OAuthClient/OAuth/OAuthTools.cs:143-149 | an escape already in the input, `%41`, passes through |
| Vectors.StrictDigitCollision | OAuthClient/OAuth/OAuthTools.cs:110-117 | `\x01` followed by `0` and `\x10` both give `%10` |
| Vectors.StrictEscapeCollision | OAuthClient/OAuth/OAuthTools.cs:143-153 | `%20` and a space both give `%20` |
| Vectors.PhotoNormalizedVector | OAuthClient/OAuth/OAuthTools.cs:164-211 | the request parameters of Appendix A.5.1 of OAuth Core 1.0, listed out of order, normalize to `file=vacation.jpg&oauth_consumer_key=dpf43f3p2l4k3l03&oauth_nonce=kllo9940pd9333jh&oauth_signature_method=HMAC-SHA1&oauth_timestamp=1191242096&oauth_token=nnch734d00sl2jdk&oauth_version=1.0&size=original` |
| Vectors.PhotoBaseStringVector | OAuthClient/OAuth/OAuthTools.cs:259-273 | with the RFC 3986 escaper, the signature base string of Appendix A.5.1 of OAuth Core 1.0 is `GET&http%3A%2F%2Fphotos.example.net%2Fphotos&file%3Dvacation.jpg%26oauth_consumer_key%3Ddpf43f3p2l4k3l03%26oauth_nonce%3Dkllo9940pd9333jh%26oauth_signature_method%3DHMAC-SHA1%26oauth_timestamp%3D1191242096%26oauth_token%3Dnnch734d00sl2jdk%26oauth_version%3D1.0%26size%3Doriginal` |
| Vectors.RelaxedParenthesesVector | OAuthClient/OAuth/OAuthTools.cs:92-101 | under an escaper that leaves `a(b)` unchanged, the relaxed encoding is `a%28b%29` |
| Vectors.StrictSupplementaryVector | OAuthClient/OAuth/OAuthTools.cs:141-145 | a character above the Basic Multilingual Plane gives two escaped replacement characters, `%EF%BF%BD%EF%BF%BD` |

## Left out

- `GetNonce` (OAuthTools.cs:40-53): it draws from `System.Random` under a lock, which is randomness and concurrency.
- `GetTimestamp` and `ToUnixTime` (OAuthTools.cs:60-83): they read the clock and truncate a floating-point number of seconds.
- HMAC-SHA1 and Base64 (`HashWith`): these are the `hmacSha1` and `toBase64` parameters of `Signing.Platform`. SHA-1 is not modelled.
- `Uri.EscapeDataString`: this is the `escapeDataString` parameter. `Encoding.EscapeDataString3986` is one instance, and the round-trip lemmas are stated for it.
- `new Uri(url)` in `ConcatenateRequestElements`: URL parsing is not modelled. The request URL arrives as a parsed `Signing.Uri` record, so a malformed URL (`UriFormatException`) is not represented.
- Culture-sensitive `CompareTo`, `ToUpper` and `CurrentCultureIgnoreCase` are modelled as ordinal comparison on Unicode scalar values and ASCII case mapping. .NET's ordinal order compares UTF-16 units instead, which differs only for characters above the Basic Multilingual Plane.
- `WebParameterCollection`: that class is not part of this model. `SortParametersExcludingSignature` is a pure function of a sequence of `(name, value)` records. Whether the copy shares `WebParameter` objects with the caller's collection, so that encoding values in place also changes the caller's parameters, is not modelled.
- `String.Trim` white space is the ASCII white space plus U+0085, U+00A0 and the Unicode space separators listed in `Strings.IsWhiteSpace`.
- Null strings are not modelled, except for the URL of `ConstructRequestUrl` and the token secret of the `GetSignature` overloads. A null method, consumer secret, parameter value or response body (`NullReferenceException` or `ArgumentNullException`) is outside the model.
- `Signing.ConcatenateRequestElements`: its own ensures states only the method prefix. The three fields, their decoding and the absence of parentheses are proved in `Signing.SignatureBaseFields` and `Signing.SignatureBaseHasNoParentheses`, and `SignatureBaseFields` holds only for the RFC 3986 escaper.
- The HTTP fetch (`GetStringResponse`, `OauthClientTools`, `OauthTools`) is network I/O. It is a function parameter, and its failure is a `Client.ClientError.Transport` value.
- `OAuthRequest.ForRequestToken`, `ForAccessToken` and `GetAuthorizationQuery` are not part of this model. The authorization query is an opaque string parameter, so `GetAccessToken` does not read the request-token record it is given.
- The `async` and `Task` plumbing is left out, because the model is sequential.
- The 500px client and its resources (JSON through Newtonsoft, hard-coded URLs) are outside the named core.
- The interfaces `IOAuthClient`, `IOAuthResources` and `IOAuth500px*` are declarations only. `Client.ResourceConfig` carries the six resource values.

## Findings

| source | as written | input that shows it | evidently intended | confidence | as-written member | corrected member |
|---|---|---|---|---|---|---|
| OAuthClient/OAuth/OAuthTools.cs:318-324 | The four-argument `GetSignature(method, base, consumerSecret, tokenSecret)` calls `GetSignature(method, Escaped, consumerSecret, tokenSecret)`. That call binds to the (method, treatment, base, consumer secret) overload, so the consumer secret is signed as the base under a key built from the token secret, and the real base is dropped. | Any two bases sign alike, e.g. `a` and `ab` with consumer secret `cs` and token secret `ts`. A null token secret raises `ArgumentNullException` instead of being treated as empty. | The escaped signature of `signatureBase` under `consumerSecret & tokenSecret`, i.e. `GetSignature(method, Escaped, signatureBase, consumerSecret, tokenSecret)` | high; not executed | Signing.GetSignatureWithTokenAsWritten | Signing.GetSignatureWithToken |

=== FILE: client.dfy ===
/** The token-exchange side of the client: the positional `k=v&k=v` response
    parser and the request-token and access-token records built from it.
    The HTTP fetch is a function parameter, and the authorization query that
    `OAuthRequest` produces arrives as an opaque string. */
module Client {
  import opened Wrappers
  import opened Strings
  import opened Parameters

  /** The configured endpoints and consumer credentials (`IOAuthResources`). */
  datatype ResourceConfig = ResourceConfig(
    consumerKey: string,
    consumerSecret: string,
    callbackUrl: string,
    requestTokenUrl: string,
    authorizeUrl: string,
    accessTokenUrl: string)

  /** `RequestTokenInfo`; the verifier is a nullable string the client never sets. */
  datatype RequestTokenInfo = RequestTokenInfo(
    requestToken: string,
    requestSecret: string,
    verifier: Option<string>,
    callbackConfirmed: string,
    callbackUrl: string,
    accessUrl: string)

  datatype AccessTokenInfo = AccessTokenInfo(accessToken: string, accessTokenSecret: string)

  /** What can go wrong: the fetch fails, a segment has no `=` (so
      `Split('=')[1]` is out of range), or the response has fewer values than
      the record needs (so `tokenValues[index]` is out of range). */
  datatype ClientError =
    | Transport(reason: string)
    | MissingEquals(segment: nat)
    | MissingValue(index: nat)

  /* ---------------------------------------------------------------------- */
  /* GetTokenValues                                                          */
  /* ---------------------------------------------------------------------- */

  /** The text between the first and the second `=` of a segment (to the end
      when there is no second one). */
  function ValueField(segment: string): (v: string)
    requires '=' in segment
    ensures '=' !in v
  {
    Before(After(segment, '='), '=')
  }

  /** `ValueField` is the second piece of the segment split at `=`, the piece
      `item.Split('=')[1]` reads; a segment has a second piece exactly when it
      holds an `=`. */
  lemma ValueFieldIsSecondPiece(segment: string)
    ensures |Split(segment, '=')| >= 2 <==> '=' in segment
    ensures '=' in segment ==> Split(segment, '=')[1] == ValueField(segment)
  {
    if '=' in segment {
      SplitAtFirst(segment, '=');
      FirstPieceIsBefore(After(segment, '='), '=');
    } else {
      SplitWithoutSeparator(segment, '=');
    }
  }

  /** The first piece of a split is the text before the first separator. */
  lemma FirstPieceIsBefore(s: string, c: char)
    ensures Split(s, c)[0] == Before(s, c)
  {
    if c in s {
      SplitAtFirst(s, c);
    } else {
      SplitWithoutSeparator(s, c);
    }
  }

  /** The value of each segment in order, or the index of the first segment
      without an `=`. */
  function SegmentValues(segments: seq<string>): (r: Result<seq<string>, nat>)
    ensures r.Success? <==> forall i :: 0 <= i < |segments| ==> '=' in segments[i]
    ensures r.Success? ==>
      && |r.value| == |segments|
      && forall i :: 0 <= i < |segments| ==> '=' in segments[i] && r.value[i] == ValueField(segments[i])
    ensures r.Failure? ==>
      && r.error < |segments|
      && '=' !in segments[r.error]
      && forall i :: 0 <= i < r.error ==> '=' in segments[i]
  {
    if |segments| == 0 then Success([])
    else if '=' !in segments[0] then Failure(0)
    else
      var rest := SegmentValues(segments[1..]);
      SegmentStep(segments, rest);
      PushValue(ValueField(segments[0]), rest)
  }

  /** The outcome for a segment list from the outcome for its tail: a value is
      prepended, a failing index moves up by one. */
  function PushValue(v: string, rest: Result<seq<string>, nat>): Result<seq<string>, nat> {
    match rest
    case Success(vs) => Success([v] + vs)
    case Failure(k) => Failure(k + 1)
  }

  /** The contract of `SegmentValues` carries over one step of `PushValue`. */
  lemma SegmentStep(segments: seq<string>, rest: Result<seq<string>, nat>)
    requires |segments| > 0 && '=' in segments[0]
    requires rest.Success? <==> forall i :: 0 <= i < |segments[1..]| ==> '=' in segments[1..][i]
    requires rest.Success? ==>
      && |rest.value| == |segments[1..]|
      && forall i :: 0 <= i < |segments[1..]| ==> '=' in segments[1..][i] && rest.value[i] == ValueField(segments[1..][i])
    requires rest.Failure? ==>
      && rest.error < |segments[1..]|
      && '=' !in segments[1..][rest.error]
      && forall i :: 0 <= i < rest.error ==> '=' in segments[1..][i]
    ensures var r := PushValue(ValueField(segments[0]), rest);
      && (r.Success? <==> forall i :: 0 <= i < |segments| ==> '=' in segments[i])
      && (r.Success? ==>
            && |r.value| == |segments|
            && forall i :: 0 <= i < |segments| ==> '=' in segments[i] && r.value[i] == ValueField(segments[i]))
      && (r.Failure? ==>
            && r.error < |segments|
            && '=' !in segments[r.error]
            && forall i :: 0 <= i < r.error ==> '=' in segments[i])
  {
    var tail := segments[1..];
    assert forall i :: 0 <= i < |tail| ==> tail[i] == segments[i + 1];
    var r := PushValue(ValueField(segments[0]), rest);
    if rest.Success? {
      forall i | 0 <= i < |segments| ensures '=' in segments[i] && r.value[i] == ValueField(segments[i]) {
        if i > 0 {
          assert r.value[i] == rest.value[i - 1];
        }
      }
    } else {
      forall i | 0 <= i < r.error ensures '=' in segments[i] {
        if i > 0 {
          assert segments[i] == tail[i - 1];
        }
      }
    }
  }

  /** `GetTokenValues`: one value per `&`-separated segment of the body, in
      order, key names unread. The first segment without an `=` is an error. */
  function GetTokenValues(body: string): (r: Result<seq<string>, ClientError>)
    ensures r.Success? <==> forall i :: 0 <= i < |Split(body, '&')| ==> '=' in Split(body, '&')[i]
    ensures r.Success? ==>
      && |r.value| == multiset(body)['&'] + 1
      && forall i :: 0 <= i < |Split(body, '&')| ==>
           '=' in Split(body, '&')[i] && r.value[i] == ValueField(Split(body, '&')[i])
    ensures r.Failure? ==>
      && r.error.MissingEquals?
      && r.error.segment < |Split(body, '&')|
      && '=' !in Split(body, '&')[r.error.segment]
      && forall i :: 0 <= i < r.error.segment ==> '=' in Split(body, '&')[i]
  {
    var segments := Split(body, '&');
    match SegmentValues(segments)
    case Success(vs) => Success(vs)
    case Failure(k) => Failure(MissingEquals(k))
  }

  /** Each value `GetTokenValues` reads is its segment's `Split('=')[1]`: the
      piece after the first `=`, which exists exactly when the segment has one. */
  lemma TokenValuesAreSecondPieces(body: string)
    requires GetTokenValues(body).Success?
    ensures var segments := Split(body, '&');
      forall i :: 0 <= i < |segments| ==>
        |Split(segments[i], '=')| >= 2 && GetTokenValues(body).value[i] == Split(segments[i], '=')[1]
  {
    forall i | 0 <= i < |Split(body, '&')| {
      SecondPieceAt(body, i);
    }
  }

  lemma SecondPieceAt(body: string, i: nat)
    requires GetTokenValues(body).Success?
    requires i < |Split(body, '&')|
    ensures |Split(Split(body, '&')[i], '=')| >= 2
    ensures GetTokenValues(body).value[i] == Split(Split(body, '&')[i], '=')[1]
  {
    ValueFieldIsSecondPiece(Split(body, '&')[i]);
  }

  /** On success, the values are those of the segments. */
  lemma TokenValuesOfSegments(body: string, segments: seq<string>)
    requires Split(body, '&') == segments
    requires SegmentValues(segments).Success?
    ensures GetTokenValues(body) == Success(SegmentValues(segments).value)
  {
  }

  /** On failure, the error names the first segment without `=`. */
  lemma TokenValuesFailure(body: string, segments: seq<string>)
    requires Split(body, '&') == segments
    requires SegmentValues(segments).Failure?
    ensures GetTokenValues(body) == Failure(MissingEquals(SegmentValues(segments).error))
  {
  }

  /** An empty body is a single empty segment, so it has no value. */
  lemma EmptyBodyFails()
    ensures GetTokenValues("") == Failure(MissingEquals(0))
  {
    assert Split("", '&') == [""];
  }

  /** Parsing inverts `Concatenate(ps, "=", "&")`: the values come back in
      order when no name or value holds `&` or `=`. */
  lemma TokenValuesOfConcatenate(ps: seq<WebParameter>)
    requires |ps| > 0
    requires forall i :: 0 <= i < |ps| ==>
      '&' !in ps[i].name && '&' !in ps[i].value && '=' !in ps[i].name && '=' !in ps[i].value
    ensures var r := GetTokenValues(Concatenate(ps, "=", "&"));
      && r.Success?
      && |r.value| == |ps|
      && forall i :: 0 <= i < |ps| ==> r.value[i] == ps[i].value
  {
    var body := Concatenate(ps, "=", "&");
    ConcatenateSplits(ps, "=", '&');
    var segments := Split(body, '&');
    assert segments == Pairs(ps, "=");
    forall i | 0 <= i < |ps|
      ensures '=' in segments[i] && ValueField(segments[i]) == ps[i].value
    {
      assert segments[i] == ps[i].name + "=" + ps[i].value;
      PairValue(ps[i].name, ps[i].value);
    }
    var sv := SegmentValues(segments);
    assert sv.Success?;
    TokenValuesOfSegments(body, segments);
  }

  /** The value of `name=value` is `value` when neither holds an `=`. */
  lemma PairValue(name: string, value: string)
    requires '=' !in name && '=' !in value
    ensures '=' in name + "=" + value
    ensures ValueField(name + "=" + value) == value
  {
    var s := name + "=" + value;
    assert s[|name|] == '=';
    FirstIndexIs(s, '=', |name|);
    assert After(s, '=') == value;
    assert FirstIndex(value, '=') == |value|;
  }

  /* ---------------------------------------------------------------------- */
  /* The token records                                                       */
  /* ---------------------------------------------------------------------- */

  /** The number of `&`-separated segments of a body. */
  function SegmentCount(body: string): (n: nat)
    ensures n == |Split(body, '&')| && n >= 1
  {
    multiset(body)['&'] + 1
  }

  /** The value of the `i`-th segment: `Split('&')[i].Split('=')[1]`, as
      `ValueFieldIsSecondPiece` shows. */
  function SegmentValue(body: string, i: nat): string
    requires i < SegmentCount(body)
    requires '=' in Split(body, '&')[i]
  {
    ValueField(Split(body, '&')[i])
  }

  /** The request-token record from a response body: token, secret and
      callback confirmation are the first three values; the callback URL is the
      configured one and the access URL sends the token to the authorize
      endpoint. A body with fewer than three segments fails at the first missing
      index; segments past the third are ignored. */
  function RequestTokenFromResponse(config: ResourceConfig, body: string): (r: Result<RequestTokenInfo, ClientError>)
    ensures GetTokenValues(body).Failure? ==> r == Failure(GetTokenValues(body).error)
    ensures GetTokenValues(body).Success? ==>
      (r.Success? <==> SegmentCount(body) >= 3)
    ensures GetTokenValues(body).Success? && SegmentCount(body) < 3 ==>
      r == Failure(MissingValue(SegmentCount(body)))
    ensures r.Success? ==>
      && SegmentCount(body) >= 3
      && r.value.requestToken == SegmentValue(body, 0)
      && r.value.requestSecret == SegmentValue(body, 1)
      && r.value.callbackConfirmed == SegmentValue(body, 2)
      && r.value.verifier == None
      && r.value.callbackUrl == config.callbackUrl
      && r.value.accessUrl == config.authorizeUrl + "?oauth_token=" + SegmentValue(body, 0)
  {
    var values :- GetTokenValues(body);
    RequestTokenFromValues(config, values)
  }

  /** The request-token record from the parsed values, reading indices 0 to 2. */
  function RequestTokenFromValues(config: ResourceConfig, values: seq<string>): (r: Result<RequestTokenInfo, ClientError>)
    ensures r.Success? <==> |values| >= 3
    ensures r.Failure? ==> r.error == MissingValue(|values|)
    ensures r.Success? ==>
      r.value == RequestTokenInfo(values[0], values[1], None, values[2], config.callbackUrl,
                                  config.authorizeUrl + "?oauth_token=" + values[0])
  {
    if |values| < 3 then Failure(MissingValue(|values|))
    else
      var token := values[0];
      Success(RequestTokenInfo(
        requestToken := token,
        requestSecret := values[1],
        verifier := None,
        callbackConfirmed := values[2],
        callbackUrl := config.callbackUrl,
        accessUrl := config.authorizeUrl + "?oauth_token=" + token))
  }

  /** The access-token record from a response body: token and secret are the
      first two values. A single segment fails at index 1. */
  function AccessTokenFromResponse(body: string): (r: Result<AccessTokenInfo, ClientError>)
    ensures GetTokenValues(body).Failure? ==> r == Failure(GetTokenValues(body).error)
    ensures GetTokenValues(body).Success? ==>
      (r.Success? <==> SegmentCount(body) >= 2)
    ensures GetTokenValues(body).Success? && SegmentCount(body) < 2 ==>
      r == Failure(MissingValue(1))
    ensures r.Success? ==>
      && SegmentCount(body) >= 2
      && r.value.accessToken == SegmentValue(body, 0)
      && r.value.accessTokenSecret == SegmentValue(body, 1)
  {
    var values :- GetTokenValues(body);
    AccessTokenFromValues(values)
  }

  /** The access-token record from the parsed values, reading indices 0 and 1. */
  function AccessTokenFromValues(values: seq<string>): (r: Result<AccessTokenInfo, ClientError>)
    ensures r.Success? <==> |values| >= 2
    ensures r.Failure? ==> r.error == MissingValue(|values|)
    ensures r.Success? ==> r.value == AccessTokenInfo(values[0], values[1])
  {
    if |values| < 2 then Failure(MissingValue(|values|))
    else Success(AccessTokenInfo(values[0], values[1]))
  }

  /** Once the body parses, each record is built from its values alone. */
  lemma RecordsFromValues(config: ResourceConfig, body: string, values: seq<string>)
    requires GetTokenValues(body) == Success(values)
    ensures RequestTokenFromResponse(config, body) == RequestTokenFromValues(config, values)
    ensures AccessTokenFromResponse(body) == AccessTokenFromValues(values)
  {
  }

  /** Appending further `k=v` segments to a well-formed body changes neither
      record. */
  lemma ExtraSegmentsIgnored(config: ResourceConfig, body: string, extra: string)
    requires GetTokenValues(body).Success?
    requires GetTokenValues(extra).Success?
    ensures SegmentCount(body) >= 3 ==>
      RequestTokenFromResponse(config, body + "&" + extra) == RequestTokenFromResponse(config, body)
    ensures SegmentCount(body) >= 2 ==>
      AccessTokenFromResponse(body + "&" + extra) == AccessTokenFromResponse(body)
  {
    TokenValuesAppend(body, extra);
    var v := GetTokenValues(body).value;
    var w := GetTokenValues(extra).value;
    RecordsFromValues(config, body, v);
    RecordsFromValues(config, body + "&" + extra, v + w);
    FromValuesPrefix(config, v, w);
  }

  /** The record builders read only the leading values. */
  lemma FromValuesPrefix(config: ResourceConfig, v: seq<string>, w: seq<string>)
    ensures |v| >= 3 ==> RequestTokenFromValues(config, v + w) == RequestTokenFromValues(config, v)
    ensures |v| >= 2 ==> AccessTokenFromValues(v + w) == AccessTokenFromValues(v)
  {
    if |v| >= 2 {
      assert (v + w)[0] == v[0] && (v + w)[1] == v[1];
    }
    if |v| >= 3 {
      assert (v + w)[2] == v[2];
    }
  }


  /** The values of `body & extra` are those of `body` followed by those of `extra`. */
  lemma TokenValuesAppend(body: string, extra: string)
    requires GetTokenValues(body).Success?
    requires GetTokenValues(extra).Success?
    ensures GetTokenValues(body + "&" + extra)
         == Success(GetTokenValues(body).value + GetTokenValues(extra).value)
  {
    var xs := Split(body, '&');
    var ys := Split(extra, '&');
    SplitAppend(body, extra, '&');
    SegmentValuesAppend(xs, ys);
  }

  lemma SegmentValuesAppend(xs: seq<string>, ys: seq<string>)
    requires SegmentValues(xs).Success? && SegmentValues(ys).Success?
    ensures SegmentValues(xs + ys) == Success(SegmentValues(xs).value + SegmentValues(ys).value)
  {
    var zs := xs + ys;
    forall i | 0 <= i < |zs| ensures '=' in zs[i] {
      if i < |xs| { assert zs[i] == xs[i]; } else { assert zs[i] == ys[i - |xs|]; }
    }
    var expected := SegmentValues(xs).value + SegmentValues(ys).value;
    var r := SegmentValues(zs);
    assert |r.value| == |zs| == |expected|;
    forall i | 0 <= i < |zs| ensures r.value[i] == expected[i] {
      AppendedValue(xs, ys, i);
    }
    assert r.value == expected;
  }

  lemma SegmentValuesCons(x: string, xs: seq<string>)
    requires '=' in x && SegmentValues(xs).Success?
    ensures SegmentValues([x] + xs) == Success([ValueField(x)] + SegmentValues(xs).value)
  {
    assert ([x] + xs)[1..] == xs;
  }

  lemma AppendedValue(xs: seq<string>, ys: seq<string>, i: nat)
    requires SegmentValues(xs).Success? && SegmentValues(ys).Success?
    requires SegmentValues(xs + ys).Success?
    requires i < |xs| + |ys|
    ensures SegmentValues(xs + ys).value[i] == (SegmentValues(xs).value + SegmentValues(ys).value)[i]
  {
    var zs := xs + ys;
    assert SegmentValues(zs).value[i] == ValueField(zs[i]);
    if i < |xs| {
      assert zs[i] == xs[i];
      assert SegmentValues(xs).value[i] == ValueField(xs[i]);
    } else {
      assert zs[i] == ys[i - |xs|];
      assert SegmentValues(ys).value[i - |xs|] == ValueField(ys[i - |xs|]);
    }
  }

  /** The records read the values of a body built by `Concatenate`. */
  lemma RecordsOfConcatenate(config: ResourceConfig, ps: seq<WebParameter>)
    requires |ps| >= 2
    requires forall i :: 0 <= i < |ps| ==>
      '&' !in ps[i].name && '&' !in ps[i].value && '=' !in ps[i].name && '=' !in ps[i].value
    ensures AccessTokenFromResponse(Concatenate(ps, "=", "&"))
         == Success(AccessTokenInfo(ps[0].value, ps[1].value))
    ensures |ps| >= 3 ==>
      RequestTokenFromResponse(config, Concatenate(ps, "=", "&"))
        == Success(RequestTokenInfo(ps[0].value, ps[1].value, None, ps[2].value, config.callbackUrl,
                                    config.authorizeUrl + "?oauth_token=" + ps[0].value))
  {
    TokenValuesOfConcatenate(ps);
  }

  /* ---------------------------------------------------------------------- */
  /* The exchanges                                                           */
  /* ---------------------------------------------------------------------- */

  /** The URL the client fetches: the endpoint, `?`, then the authorization
      query. */
  function FetchUrl(endpoint: string, authorizationQuery: string): (url: string)
    ensures |url| == |endpoint| + 1 + |authorizationQuery|
    ensures url[..|endpoint|] == endpoint
    ensures url[|endpoint|] == '?'
    ensures url[|endpoint| + 1..] == authorizationQuery
  {
    endpoint + "?" + authorizationQuery
  }

  /** `GetRequestTokenInfo`: fetch the request-token endpoint with the
      authorization query and build the record from the body. A failed fetch
      fails the exchange with its reason. */
  function GetRequestTokenInfo(config: ResourceConfig, authorizationQuery: string,
                               fetch: string -> Result<string, string>): (r: Result<RequestTokenInfo, ClientError>)
    ensures var response := fetch(FetchUrl(config.requestTokenUrl, authorizationQuery));
      && (response.Failure? ==> r == Failure(Transport(response.error)))
      && (response.Success? ==> r == RequestTokenFromResponse(config, response.value))
  {
    var body :- fetch(FetchUrl(config.requestTokenUrl, authorizationQuery)).MapFailure(reason => Transport(reason));
    RequestTokenFromResponse(config, body)
  }

  /** `GetAccessToken`: fetch the access-token endpoint with the authorization
      query (built from the request-token record) and read the record. */
  function GetAccessToken(config: ResourceConfig, authorizationQuery: string,
                          fetch: string -> Result<string, string>): (r: Result<AccessTokenInfo, ClientError>)
    ensures var response := fetch(FetchUrl(config.accessTokenUrl, authorizationQuery));
      && (response.Failure? ==> r == Failure(Transport(response.error)))
      && (response.Success? ==> r == AccessTokenFromResponse(response.value))
  {
    var body :- fetch(FetchUrl(config.accessTokenUrl, authorizationQuery)).MapFailure(reason => Transport(reason));
    AccessTokenFromResponse(body)
  }
}

=== FILE: encoding.dfy ===
/** Percent-encoding as the toolkit performs it (section 5.1 of OAuth Core 1.0):
    the UTF-8 bytes of text, the byte-level `PercentEncode` with its padding
    quirk, the character-by-character strict encoder with its `%%` rewrite, and
    the relaxed encoder that post-processes the platform's escaper.
    `Uri.EscapeDataString` is a platform call; it appears here as a parameter,
    and `EscapeDataString3986` is the RFC 3986 behaviour usable in its place. */
module Encoding {
  import opened Wrappers
  import opened Strings

  type Byte = b: int | 0 <= b < 256

  /* ---------------------------------------------------------------------- */
  /* Character classes and hexadecimal digits                                */
  /* ---------------------------------------------------------------------- */

  /** The toolkit's `Unreserved` set: ASCII letters, digits and `-._~`
      (section 2.3 of RFC 3986). */
  predicate IsUnreserved(c: char) {
    || 'A' <= c <= 'Z' || 'a' <= c <= 'z' || '0' <= c <= '9'
    || c == '-' || c == '.' || c == '_' || c == '~'
  }

  predicate IsHexDigit(c: char) {
    '0' <= c <= '9' || 'A' <= c <= 'F' || 'a' <= c <= 'f'
  }

  function HexValue(c: char): (v: nat)
    requires IsHexDigit(c)
    ensures v < 16
  {
    if '0' <= c <= '9' then c as int - '0' as int
    else if 'A' <= c <= 'F' then c as int - 'A' as int + 10
    else c as int - 'a' as int + 10
  }

  /** The upper-case hexadecimal digit of `d`, as `{0:X}` writes it. */
  function HexDigit(d: nat): (c: char)
    requires d < 16
    ensures IsHexDigit(c) && IsUnreserved(c) && HexValue(c) == d
    ensures !('a' <= c <= 'z')
  {
    if d < 10 then ('0' as int + d) as char else ('A' as int + d - 10) as char
  }

  /** The number a string of hexadecimal digits denotes. */
  function HexNumber(s: string): nat
    requires forall i :: 0 <= i < |s| ==> IsHexDigit(s[i])
  {
    if |s| == 0 then 0 else HexNumber(s[..|s| - 1]) * 16 + HexValue(s[|s| - 1])
  }

  /* ---------------------------------------------------------------------- */
  /* UTF-8                                                                   */
  /* ---------------------------------------------------------------------- */

  /** The UTF-8 encoding of one Unicode scalar value. */
  function Utf8Char(c: char): (r: seq<Byte>)
    ensures 1 <= |r| <= 4
    ensures c as int < 0x80 ==> r == [c as int]
    ensures c as int >= 0x80 ==> forall i :: 0 <= i < |r| ==> r[i] >= 0x80
  {
    var n := c as int;
    if n < 0x80 then [n]
    else if n < 0x800 then [0xC0 + n / 64, 0x80 + n % 64]
    else if n < 0x1_0000 then [0xE0 + n / 4096, 0x80 + (n / 64) % 64, 0x80 + n % 64]
    else [0xF0 + n / 0x4_0000, 0x80 + (n / 4096) % 64, 0x80 + (n / 64) % 64, 0x80 + n % 64]
  }

  /** `Encoding.UTF8.GetBytes(s)`. */
  function Utf8(s: string): seq<Byte> {
    if |s| == 0 then [] else Utf8Char(s[0]) + Utf8(s[1..])
  }

  /** ASCII text is one byte per character, each byte the character's code. */
  lemma {:induction false} AsciiUtf8(s: string)
    requires forall i :: 0 <= i < |s| ==> s[i] as int < 0x80
    ensures |Utf8(s)| == |s|
    ensures forall i :: 0 <= i < |s| ==> Utf8(s)[i] == s[i] as int
    decreases |s|
  {
    if |s| > 0 {
      AsciiUtf8(s[1..]);
    }
  }

  /** The character codes of ASCII text, one byte each. */
  function AsciiCodes(s: string): seq<Byte>
    requires forall i :: 0 <= i < |s| ==> s[i] as int < 0x80
  {
    seq(|s|, i requires 0 <= i < |s| => s[i] as int)
  }

  /** U+FFFD, which .NET's UTF-8 encoder writes for a lone surrogate. */
  const ReplacementBytes: seq<Byte> := [0xEF, 0xBF, 0xBD]

  /** What `Encoding.UTF8.GetBytes(c.ToString())` yields when the strict encoder
      visits the UTF-16 code units of `c` one at a time: the UTF-8 of `c` inside
      the Basic Multilingual Plane, and otherwise two lone surrogates, each of
      which becomes U+FFFD. */
  function UnitBytes(c: char): (r: seq<Byte>)
    ensures 1 <= |r|
    ensures c as int < 0x1_0000 ==> r == Utf8Char(c)
    ensures c as int >= 0x1_0000 ==> r == ReplacementBytes + ReplacementBytes
    ensures c as int >= 0x80 ==> forall i :: 0 <= i < |r| ==> r[i] >= 0x80
  {
    if c as int < 0x1_0000 then Utf8Char(c) else ReplacementBytes + ReplacementBytes
  }

  /* ---------------------------------------------------------------------- */
  /* PercentEncode                                                           */
  /* ---------------------------------------------------------------------- */

  /** Bytes that `PercentEncode` writes with two hexadecimal digits: every byte
      from 0x10 up, and the four control bytes 8, 9, 10 and 13 that it pads. */
  predicate IsTwoDigit(b: Byte) {
    b >= 16 || b == 8 || b == 9 || b == 10 || b == 13
  }

  /** `string.Format("{0:X}", b)`: upper-case hexadecimal, no padding. */
  function Hex(b: Byte): string {
    if b < 16 then [HexDigit(b)] else [HexDigit(b / 16), HexDigit(b % 16)]
  }

  /** Reading `Hex(b)` back as a hexadecimal numeral gives `b`, with or
      without one leading zero. */
  lemma HexRoundTrip(b: Byte)
    ensures HexNumber(Hex(b)) == b
    ensures b < 16 ==> HexNumber("0" + Hex(b)) == b
  {
    var h := Hex(b);
    if b < 16 {
      assert h[..|h| - 1] == [];
      var z := "0" + h;
      assert z[..|z| - 1] == "0";
      assert "0"[..0] == [];
    } else {
      var hi := [HexDigit(b / 16)];
      assert h[..|h| - 1] == hi;
      assert hi[..0] == [];
      assert HexNumber(hi) == b / 16;
      assert HexNumber(h) == (b / 16) * 16 + b % 16;
    }
  }

  /** The escape `PercentEncode` writes for one byte: `%0X` for bytes 8, 9, 10
      and 13, `%X` or `%XY` otherwise. */
  function PercentEncodeByte(b: Byte): (r: string)
    ensures |r| == 2 || |r| == 3
    ensures r[0] == '%'
    ensures forall i :: 1 <= i < |r| ==> IsHexDigit(r[i]) && IsUnreserved(r[i]) && !('a' <= r[i] <= 'z')
    ensures |r| == 3 <==> IsTwoDigit(b)
    ensures HexNumber(r[1..]) == b
  {
    var padded := (b > 7 && b < 11) || b == 13;
    var r := if padded then "%0" + Hex(b) else "%" + Hex(b);
    assert r[1..] == if padded then "0" + Hex(b) else Hex(b);
    HexRoundTrip(b);
    r
  }

  /** The escape of every byte of `bs`, in order. */
  function PercentEncodeBytes(bs: seq<Byte>): (r: string)
    ensures forall i :: 0 <= i < |r| ==> IsUnreserved(r[i]) || r[i] == '%'
    ensures |r| >= 2 * |bs|
    ensures |bs| > 0 ==> r[0] == '%'
    ensures PercentsFollowed(r)
  {
    if |bs| == 0 then ""
    else
      PercentsFollowedConcat(PercentEncodeByte(bs[0]), PercentEncodeBytes(bs[1..]));
      PercentEncodeByte(bs[0]) + PercentEncodeBytes(bs[1..])
  }

  /** `PercentEncode(s)`: the escapes of the UTF-8 bytes of `s`. Every
      character gives at least one byte, so at least two output characters. */
  function PercentEncode(s: string): (r: string)
    ensures forall i :: 0 <= i < |r| ==> IsUnreserved(r[i]) || r[i] == '%'
    ensures PercentsFollowed(r)
    ensures |r| >= 2 * |s|
    ensures |s| > 0 ==> r[0] == '%'
  {
    Utf8Length(s);
    PercentEncodeBytes(Utf8(s))
  }

  /** UTF-8 takes at least one byte per character. */
  lemma {:induction false} Utf8Length(s: string)
    ensures |Utf8(s)| >= |s|
    decreases |s|
  {
    if |s| > 0 {
      Utf8Length(s[1..]);
    }
  }

  /** Every `%` in `t` is followed by a hex digit (so never by another `%`). */
  predicate PercentsFollowed(t: string) {
    forall i :: 0 <= i < |t| && t[i] == '%' ==> i + 1 < |t| && IsHexDigit(t[i + 1])
  }

  lemma PercentsFollowedConcat(a: string, b: string)
    requires PercentsFollowed(a) && PercentsFollowed(b)
    ensures PercentsFollowed(a + b)
  {
    forall i | 0 <= i < |a + b| && (a + b)[i] == '%'
      ensures i + 1 < |a + b| && IsHexDigit((a + b)[i + 1])
    {
      if i < |a| {
        assert a[i] == '%';
      } else {
        assert b[i - |a|] == '%';
      }
    }
  }

  /** Three characters `%XY` for a byte: the two-digit escape of RFC 3986. */
  function Pct2(b: Byte): string {
    ['%', HexDigit(b / 16), HexDigit(b % 16)]
  }

  function Pct2All(bs: seq<Byte>): (r: string)
    ensures |r| == 3 * |bs|
    ensures forall i :: 0 <= i < |r| ==> IsUnreserved(r[i]) || r[i] == '%'
  {
    if |bs| == 0 then "" else Pct2(bs[0]) + Pct2All(bs[1..])
  }

  /** On bytes it writes with two digits, `PercentEncode` agrees with RFC 3986. */
  lemma {:induction false} PercentEncodeBytesTwoDigit(bs: seq<Byte>)
    requires forall i :: 0 <= i < |bs| ==> IsTwoDigit(bs[i])
    ensures PercentEncodeBytes(bs) == Pct2All(bs)
    decreases |bs|
  {
    if |bs| > 0 {
      var b := bs[0];
      assert IsTwoDigit(b);
      assert PercentEncodeByte(b) == Pct2(b);
      PercentEncodeBytesTwoDigit(bs[1..]);
    }
  }

  /* ---------------------------------------------------------------------- */
  /* UrlEncodeStrict                                                         */
  /* ---------------------------------------------------------------------- */

  /** The strict encoder's treatment of one character: unreserved characters
      and `%` are copied, every other one is replaced by `PercentEncode`. */
  function EncodeChar(c: char): (r: string)
    ensures |r| >= 1
    ensures forall i :: 0 <= i < |r| ==> IsUnreserved(r[i]) || r[i] == '%'
    ensures IsUnreserved(c) || c == '%' <==> r == [c]
    ensures !(IsUnreserved(c) || c == '%') ==> r[0] == '%' && |r| >= 2
    ensures c as int < 0x80 && !(IsUnreserved(c) || c == '%') ==> r == PercentEncodeByte(c as int)
    ensures c != '%' ==> PercentsFollowed(r)
  {
    if IsUnreserved(c) || c == '%' then [c]
    else
      var bs := UnitBytes(c);
      assert c as int < 0x80 ==> PercentEncodeBytes(bs) == PercentEncodeByte(c as int) by {
        if c as int < 0x80 {
          assert bs == [c as int];
          assert bs[1..] == [];
        }
      }
      PercentEncodeBytes(bs)
  }

  /** The loop of `UrlEncodeStrict`, before the `%%` rewrite. */
  function EncodeChars(s: string): (r: string)
    ensures |r| >= |s|
    ensures forall i :: 0 <= i < |r| ==> IsUnreserved(r[i]) || r[i] == '%'
    ensures (forall i :: 0 <= i < |s| ==> IsUnreserved(s[i])) ==> r == s
    ensures '%' !in s ==> PercentsFollowed(r)
  {
    if |s| == 0 then ""
    else
      assert s == [s[0]] + s[1..];
      assert '%' !in s ==> PercentsFollowed(EncodeChar(s[0]) + EncodeChars(s[1..])) by {
        if '%' !in s {
          PercentsFollowedConcat(EncodeChar(s[0]), EncodeChars(s[1..]));
        }
      }
      EncodeChar(s[0]) + EncodeChars(s[1..])
  }

  /** No `%` directly followed by another `%`. */
  predicate NoDoublePercent(s: string) {
    forall i :: 0 <= i < |s| - 1 ==> !(s[i] == '%' && s[i + 1] == '%')
  }

  /** No run of three `%`. */
  predicate NoTriplePercent(s: string) {
    forall i :: 0 <= i < |s| - 2 ==> !(s[i] == '%' && s[i + 1] == '%' && s[i + 2] == '%')
  }

  /** .NET `s.Replace("%%", "%25%")`: one left-to-right pass that rewrites each
      non-overlapping `%%` and resumes after it. */
  function ReplaceDoublePercent(s: string): (r: string)
    ensures |r| >= |s|
    ensures |s| > 0 ==> |r| > 0 && r[0] == s[0]
    ensures (forall i :: 0 <= i < |s| ==> IsUnreserved(s[i]) || s[i] == '%') ==>
              forall i :: 0 <= i < |r| ==> IsUnreserved(r[i]) || r[i] == '%'
    ensures NoDoublePercent(s) ==> r == s
  {
    if |s| < 2 then s
    else if s[0] == '%' && s[1] == '%' then
      assert !NoDoublePercent(s) by { assert 0 < |s| - 1; }
      "%25%" + ReplaceDoublePercent(s[2..])
    else
      assert NoDoublePercent(s) ==> NoDoublePercent(s[1..]) by {
        if NoDoublePercent(s) {
          forall i | 0 <= i < |s[1..]| - 1 ensures !(s[1..][i] == '%' && s[1..][i + 1] == '%') {
            assert s[1..][i] == s[i + 1] && s[1..][i + 1] == s[i + 2];
          }
        }
      }
      assert s == [s[0]] + s[1..];
      [s[0]] + ReplaceDoublePercent(s[1..])
  }

  /** Where the input has no `%%%`, the rewrite leaves no `%%` behind. */
  lemma {:induction false} ReplaceRemovesDoublePercent(s: string)
    requires NoTriplePercent(s)
    ensures NoDoublePercent(ReplaceDoublePercent(s))
    decreases |s|
  {
    if |s| >= 2 {
      if s[0] == '%' && s[1] == '%' {
        NoTripleSuffix(s, 2);
        ReplaceRemovesDoublePercent(s[2..]);
        RewriteStep(s);
      } else {
        NoTripleSuffix(s, 1);
        ReplaceRemovesDoublePercent(s[1..]);
        CopyStep(s);
      }
    }
  }

  lemma NoTripleSuffix(s: string, k: nat)
    requires NoTriplePercent(s) && k <= |s|
    ensures NoTriplePercent(s[k..])
  {
    var t := s[k..];
    forall i | 0 <= i < |t| - 2
      ensures !(t[i] == '%' && t[i + 1] == '%' && t[i + 2] == '%')
    {
      assert t[i] == s[i + k] && t[i + 1] == s[i + k + 1] && t[i + 2] == s[i + k + 2];
    }
  }

  /** Two `%%`-free strings joined where `%` does not meet `%` stay `%%`-free. */
  lemma NoDoublePercentConcat(a: string, t: string)
    requires NoDoublePercent(a) && NoDoublePercent(t)
    requires |a| > 0 && |t| > 0 ==> !(a[|a| - 1] == '%' && t[0] == '%')
    ensures NoDoublePercent(a + t)
  {
    var r := a + t;
    forall i | 0 <= i < |r| - 1 ensures !(r[i] == '%' && r[i + 1] == '%') {
      if i + 1 < |a| {
        assert r[i] == a[i] && r[i + 1] == a[i + 1];
      } else if i >= |a| {
        assert r[i] == t[i - |a|] && r[i + 1] == t[i + 1 - |a|];
      } else {
        assert r[i] == a[|a| - 1] && r[i + 1] == t[0];
      }
    }
  }

  /** A rewritten `%%` is followed by a character other than `%`. */
  lemma RewriteStep(s: string)
    requires |s| >= 2 && s[0] == '%' && s[1] == '%' && NoTriplePercent(s)
    requires NoDoublePercent(ReplaceDoublePercent(s[2..]))
    ensures NoDoublePercent(ReplaceDoublePercent(s))
  {
    var rt := ReplaceDoublePercent(s[2..]);
    assert ReplaceDoublePercent(s) == "%25%" + rt;
    if |s| > 2 {
      assert s[2] != '%' by { assert !(s[0] == '%' && s[1] == '%' && s[2] == '%'); }
      assert rt[0] == s[2..][0] == s[2];
    }
    assert NoDoublePercent("%25%");
    NoDoublePercentConcat("%25%", rt);
  }

  /** A copied first character does not start a `%%`. */
  lemma CopyStep(s: string)
    requires |s| >= 2 && !(s[0] == '%' && s[1] == '%')
    requires NoDoublePercent(ReplaceDoublePercent(s[1..]))
    ensures NoDoublePercent(ReplaceDoublePercent(s))
  {
    var rt := ReplaceDoublePercent(s[1..]);
    assert ReplaceDoublePercent(s) == [s[0]] + rt;
    assert rt[0] == s[1..][0] == s[1];
    NoDoublePercentConcat([s[0]], rt);
  }

  /** Where `a` has no `%%` and does not end in `%`, a `%%` right after it is
      the first one the rewrite meets: it becomes `%25%`, and the rewrite
      resumes after it. */
  lemma {:induction false} ReplaceDoublePercentAt(a: string, b: string)
    requires NoDoublePercent(a) && (|a| == 0 || a[|a| - 1] != '%')
    ensures ReplaceDoublePercent(a + "%%" + b) == a + "%25%" + ReplaceDoublePercent(b)
    decreases |a|
  {
    if |a| == 0 {
      assert a + "%%" + b == "%%" + b;
      ReplaceDoublePercentPair(b);
    } else {
      var t := a[1..];
      NoDoublePercentTail(a);
      ReplaceDoublePercentAt(t, b);
      var s := a + "%%" + b;
      assert s[0] == a[0];
      assert |a| >= 2 ==> s[1] == a[1];
      assert |a| == 1 ==> a[0] == a[|a| - 1];
      ReplaceDoublePercentCopies(s);
      ConsShape(a, "%%", b);
      ConsShape(a, "%25%", ReplaceDoublePercent(b));
    }
  }

  /** One more factor adds one more summand. */
  lemma MulSucc(m: int, k: int)
    ensures (m + 1) * k == m * k + k
  {
  }

  /** Splitting off the first character of a three-part concatenation. */
  lemma ConsShape(a: string, m: string, x: string)
    requires |a| > 0
    ensures (a + m + x)[1..] == a[1..] + m + x
    ensures a + m + x == [a[0]] + (a[1..] + m + x)
  {
  }

  /** A leading `%%` is rewritten to `%25%`. */
  lemma ReplaceDoublePercentPair(b: string)
    ensures ReplaceDoublePercent("%%" + b) == "%25%" + ReplaceDoublePercent(b)
  {
    assert ("%%" + b)[2..] == b;
  }

  /** A first character that does not open a `%%` is copied. */
  lemma ReplaceDoublePercentCopies(s: string)
    requires |s| > 0
    requires |s| >= 2 ==> !(s[0] == '%' && s[1] == '%')
    ensures ReplaceDoublePercent(s) == [s[0]] + ReplaceDoublePercent(s[1..])
  {
    if |s| == 1 {
      assert s == [s[0]] + s[1..];
    }
  }

  /** The tail of text without `%%` has none either, and keeps its last character. */
  lemma NoDoublePercentTail(a: string)
    requires |a| > 0 && NoDoublePercent(a)
    ensures NoDoublePercent(a[1..])
    ensures |a| > 1 ==> a[1..][|a| - 2] == a[|a| - 1]
  {
    var t := a[1..];
    forall i | 0 <= i < |t| - 1 ensures !(t[i] == '%' && t[i + 1] == '%') {
      assert t[i] == a[i + 1] && t[i + 1] == a[i + 2];
    }
  }

  /** Text in which every `%` is followed by a hex digit has no `%%` and does
      not end in `%`. */
  lemma PercentsFollowedEnds(t: string)
    requires PercentsFollowed(t)
    ensures NoDoublePercent(t)
    ensures |t| == 0 || t[|t| - 1] != '%'
  {
    forall i | 0 <= i < |t| - 1 ensures !(t[i] == '%' && t[i + 1] == '%') {
      if t[i] == '%' { assert IsHexDigit(t[i + 1]); }
    }
  }

  /** `UrlEncodeStrict`: the per-character encoding followed by the `%%` rewrite.
      Its output is made of unreserved characters and `%` only, is never shorter
      than its input, and leaves a string of unreserved characters unchanged. */
  function UrlEncodeStrict(s: string): (r: string)
    ensures forall i :: 0 <= i < |r| ==> IsUnreserved(r[i]) || r[i] == '%'
    ensures |r| >= |s|
    ensures (forall i :: 0 <= i < |s| ==> IsUnreserved(s[i])) ==> r == s
  {
    var e := EncodeChars(s);
    assert (forall i :: 0 <= i < |s| ==> IsUnreserved(s[i])) ==> NoDoublePercent(e);
    ReplaceDoublePercent(e)
  }

  /** A `%`-free input never triggers the `%%` rewrite. */
  lemma StrictWithoutPercent(s: string)
    requires '%' !in s
    ensures UrlEncodeStrict(s) == EncodeChars(s)
  {
    var e := EncodeChars(s);
    assert NoDoublePercent(e) by {
      forall i | 0 <= i < |e| - 1 ensures !(e[i] == '%' && e[i + 1] == '%') {
      }
    }
  }

  /** The first `%%` of the input, after a `%`-free prefix, comes out as
      `%25%`: the prefix is encoded, and the rewrite resumes after the pair. */
  lemma StrictRewritesDoublePercent(a: string, b: string)
    requires '%' !in a
    ensures UrlEncodeStrict(a + "%%" + b) == EncodeChars(a) + "%25%" + ReplaceDoublePercent(EncodeChars(b))
  {
    var e, f := EncodeChars(a), EncodeChars(b);
    EncodeAroundDoublePercent(a, b);
    PercentsFollowedEnds(e);
    ReplaceDoublePercentAt(e, f);
  }

  /** A `%%` between two texts is encoded as itself. */
  lemma EncodeAroundDoublePercent(a: string, b: string)
    ensures EncodeChars(a + "%%" + b) == EncodeChars(a) + "%%" + EncodeChars(b)
  {
    EncodeCharsAppend(a + "%%", b);
    EncodeCharsAppend(a, "%%");
    EncodeDoublePercent();
  }

  lemma EncodeDoublePercent()
    ensures EncodeChars("%%") == "%%"
  {
    assert "%%"[1..] == "%";
    assert "%"[1..] == "";
  }

  /** The loop of `UrlEncodeStrict` encodes each character on its own. */
  lemma {:induction false} EncodeCharsAppend(a: string, b: string)
    ensures EncodeChars(a + b) == EncodeChars(a) + EncodeChars(b)
    decreases |a|
  {
    if |a| == 0 {
      assert a + b == b;
    } else {
      assert (a + b)[0] == a[0];
      assert (a + b)[1..] == a[1..] + b;
      EncodeCharsAppend(a[1..], b);
    }
  }

  /** `PercentEncode` escapes each byte on its own. */
  lemma {:induction false} PercentEncodeBytesAppend(a: seq<Byte>, b: seq<Byte>)
    ensures PercentEncodeBytes(a + b) == PercentEncodeBytes(a) + PercentEncodeBytes(b)
    decreases |a|
  {
    if |a| == 0 {
      assert a + b == b;
    } else {
      assert (a + b)[0] == a[0];
      assert (a + b)[1..] == a[1..] + b;
      PercentEncodeBytesAppend(a[1..], b);
    }
  }

  /* ---------------------------------------------------------------------- */
  /* The RFC 3986 escaper and percent-decoding                               */
  /* ---------------------------------------------------------------------- */

  /** `Uri.EscapeDataString` as RFC 3986 defines it: every UTF-8 byte of a
      character outside the unreserved set becomes `%XY`. */
  function EscapeDataString3986(s: string): (r: string)
    ensures forall i :: 0 <= i < |r| ==> IsUnreserved(r[i]) || r[i] == '%'
    ensures (forall i :: 0 <= i < |s| ==> IsUnreserved(s[i])) ==> r == s
  {
    if |s| == 0 then ""
    else
      assert s == [s[0]] + s[1..];
      (if IsUnreserved(s[0]) then [s[0]] else Pct2All(Utf8Char(s[0]))) + EscapeDataString3986(s[1..])
  }

  /** The RFC 3986 escaper works character by character, so it distributes
      over concatenation. */
  lemma {:induction false} EscapeDataString3986Append(a: string, b: string)
    ensures EscapeDataString3986(a + b) == EscapeDataString3986(a) + EscapeDataString3986(b)
    decreases |a|
  {
    if |a| == 0 {
      assert a + b == b;
    } else {
      assert (a + b)[0] == a[0];
      assert (a + b)[1..] == a[1..] + b;
      EscapeDataString3986Append(a[1..], b);
    }
  }

  function Prepend(bs: seq<Byte>, o: Option<seq<Byte>>): Option<seq<Byte>> {
    match o
    case None => None
    case Some(rest) => Some(bs + rest)
  }

  /** Percent-decoding to bytes: `%XY` is the byte `XY`, any other character
      stands for its UTF-8 bytes, and a `%` without two hexadecimal digits after
      it is malformed. */
  function PercentDecode(s: string): Option<seq<Byte>> {
    if |s| == 0 then Some([])
    else if s[0] == '%' then
      if |s| >= 3 && IsHexDigit(s[1]) && IsHexDigit(s[2]) then
        Prepend([HexValue(s[1]) * 16 + HexValue(s[2])], PercentDecode(s[3..]))
      else None
    else Prepend(Utf8Char(s[0]), PercentDecode(s[1..]))
  }

  lemma {:induction false} DecodePct2All(bs: seq<Byte>, t: string)
    ensures PercentDecode(Pct2All(bs) + t) == Prepend(bs, PercentDecode(t))
    decreases |bs|
  {
    if |bs| > 0 {
      var b := bs[0];
      var rest := Pct2All(bs[1..]) + t;
      assert Pct2All(bs) + t == Pct2(b) + rest;
      DecodePct2(b, rest);
      DecodePct2All(bs[1..], t);
      assert bs == [b] + bs[1..];
      PrependTwice([b], bs[1..], PercentDecode(t));
    } else {
      assert Pct2All(bs) + t == t;
      match PercentDecode(t) {
        case None =>
        case Some(x) => assert bs + x == x;
      }
    }
  }

  /** Decoding one `%XY` escape. */
  lemma DecodePct2(b: Byte, rest: string)
    ensures PercentDecode(Pct2(b) + rest) == Prepend([b], PercentDecode(rest))
  {
    var s := Pct2(b) + rest;
    assert s[0] == '%' && s[1] == HexDigit(b / 16) && s[2] == HexDigit(b % 16);
    assert s[3..] == rest;
    assert HexValue(s[1]) * 16 + HexValue(s[2]) == b;
  }

  lemma PrependTwice(xs: seq<Byte>, ys: seq<Byte>, o: Option<seq<Byte>>)
    ensures Prepend(xs, Prepend(ys, o)) == Prepend(xs + ys, o)
  {
    match o {
      case None =>
      case Some(z) => assert xs + (ys + z) == (xs + ys) + z;
    }
  }

  /** Round trip: decoding the RFC 3986 escape of `s` gives the UTF-8 bytes of `s`. */
  lemma {:induction false} EscapeDataString3986RoundTrip(s: string)
    ensures PercentDecode(EscapeDataString3986(s)) == Some(Utf8(s))
    decreases |s|
  {
    if |s| > 0 {
      var c := s[0];
      var tail := EscapeDataString3986(s[1..]);
      EscapeDataString3986RoundTrip(s[1..]);
      if IsUnreserved(c) {
        var e := [c] + tail;
        assert e[1..] == tail;
      } else {
        DecodePct2All(Utf8Char(c), tail);
      }
    }
  }

  /** Characters that `PercentEncode` writes with a single hexadecimal digit:
      the control characters below U+0010 other than U+0008..U+000A and U+000D. */
  predicate IsShortControl(c: char) {
    c as int < 16 && !IsTwoDigit(c as int)
  }

  /** Text the strict encoder handles exactly as RFC 3986 does: no `%`, no
      short control character, nothing outside the Basic Multilingual Plane. */
  predicate StrictCompatible(s: string) {
    forall i :: 0 <= i < |s| ==> s[i] != '%' && !IsShortControl(s[i]) && s[i] as int < 0x1_0000
  }

  /** On `StrictCompatible` text the strict encoder agrees with the RFC 3986
      escaper, so its output decodes back to the UTF-8 bytes of the input. */
  lemma {:induction false} StrictAgreesWithRfc3986(s: string)
    requires StrictCompatible(s)
    ensures UrlEncodeStrict(s) == EscapeDataString3986(s)
    ensures PercentDecode(UrlEncodeStrict(s)) == Some(Utf8(s))
  {
    StrictWithoutPercent(s);
    EncodeCharsAgree(s);
    EscapeDataString3986RoundTrip(s);
  }

  lemma {:induction false} EncodeCharsAgree(s: string)
    requires StrictCompatible(s)
    ensures EncodeChars(s) == EscapeDataString3986(s)
    decreases |s|
  {
    if |s| > 0 {
      var c := s[0];
      if !IsUnreserved(c) {
        assert c != '%' && !IsShortControl(c);
        var bs := UnitBytes(c);
        assert bs == Utf8Char(c);
        PercentEncodeBytesTwoDigit(bs);
      }
      assert StrictCompatible(s[1..]) by {
        forall i | 0 <= i < |s[1..]| ensures s[1..][i] == s[i + 1] { }
      }
      EncodeCharsAgree(s[1..]);
    }
  }

  /* ---------------------------------------------------------------------- */
  /* UrlEncodeRelaxed                                                        */
  /* ---------------------------------------------------------------------- */

  /** Every `c` in `s` replaced by `rep`. */
  function ReplaceChar(s: string, c: char, rep: string): (r: string)
    ensures c !in rep ==> c !in r
    ensures c !in s ==> r == s
    ensures forall x :: x != c && x !in s && x !in rep ==> x !in r
  {
    if |s| == 0 then ""
    else
      assert s == [s[0]] + s[1..];
      (if s[0] == c then rep else [s[0]]) + ReplaceChar(s[1..], c, rep)
  }

  /** Replacing in a string one character longer: that character's piece first. */
  lemma ReplaceCharCons(x: char, t: string, c: char, rep: string)
    ensures ReplaceChar([x] + t, c, rep) == (if x == c then rep else [x]) + ReplaceChar(t, c, rep)
  {
    assert ([x] + t)[1..] == t;
  }

  /** Replacing distributes over concatenation. */
  lemma {:induction false} ReplaceCharAppend(u: string, v: string, c: char, rep: string)
    ensures ReplaceChar(u + v, c, rep) == ReplaceChar(u, c, rep) + ReplaceChar(v, c, rep)
    decreases |u|
  {
    if |u| > 0 {
      ReplaceCharAppend(u[1..], v, c, rep);
      assert (u + v)[1..] == u[1..] + v;
    } else {
      assert u + v == v;
    }
  }

  /** .NET `Replace` of a character: the pieces of `s` between occurrences of
      `c`, joined by `rep`, so each occurrence becomes exactly `rep`. */
  lemma {:induction false} ReplaceCharIsSplitJoin(s: string, c: char, rep: string)
    ensures ReplaceChar(s, c, rep) == Join(Split(s, c), rep)
    decreases |s|
  {
    if |s| > 0 {
      var rest := Split(s[1..], c);
      ReplaceCharIsSplitJoin(s[1..], c, rep);
      assert Split(s, c) == PushChar(s[0], c, rest);
      if s[0] == c {
        JoinEmptyHead(rest, rep);
      } else {
        JoinExtendHead(s[0], rest, rep);
      }
    }
  }

  /** Each occurrence of `c` grows or shrinks the text from one character to
      `|rep|`: nothing else is added or removed. */
  lemma {:induction false} ReplaceCharLength(s: string, c: char, rep: string)
    ensures |ReplaceChar(s, c, rep)| == |s| + multiset(s)[c] * (|rep| - 1)
    decreases |s|
  {
    if |s| > 0 {
      ReplaceCharLength(s[1..], c, rep);
      assert s == [s[0]] + s[1..];
      assert multiset(s) == multiset{s[0]} + multiset(s[1..]);
      var m := multiset(s[1..])[c];
      if s[0] == c {
        assert multiset(s)[c] == m + 1;
        MulSucc(m, |rep| - 1);
      } else {
        assert multiset(s)[c] == m;
      }
    }
  }

  /** `PercentEncode("(")` and `PercentEncode(")")`, as `ParenthesisEscapes` shows. */
  const OpenParenEscape: string := "%28"
  const CloseParenEscape: string := "%29"

  /** `UrlEncodeRelaxed`: the platform's `Uri.EscapeDataString`, then every
      literal parenthesis that escaper leaves is replaced by its percent escape.
      Whatever the escaper, the result holds no literal parenthesis; where the
      escaper leaves none, the result is the escaper's output. */
  function UrlEncodeRelaxed(escape: string -> string, s: string): (r: string)
    ensures '(' !in r && ')' !in r
    ensures '(' !in escape(s) && ')' !in escape(s) ==> r == escape(s)
    ensures forall x :: x !in escape(s) && !(IsUnreserved(x) || x == '%') ==> x !in r
  {
    ReplaceChar(ReplaceChar(escape(s), '(', OpenParenEscape), ')', CloseParenEscape)
  }

  /** Whatever the escaper, the relaxed encoder is its output with each `(`
      replaced by `%28` and then each `)` by `%29`. */
  lemma RelaxedReplacesParentheses(escape: string -> string, s: string)
    ensures UrlEncodeRelaxed(escape, s)
            == Join(Split(Join(Split(escape(s), '('), OpenParenEscape), ')'), CloseParenEscape)
  {
    var e := escape(s);
    ReplaceCharIsSplitJoin(e, '(', OpenParenEscape);
    ReplaceCharIsSplitJoin(ReplaceChar(e, '(', OpenParenEscape), ')', CloseParenEscape);
  }

  /** With the RFC 3986 escaper the parenthesis fix-up never fires. */
  lemma RelaxedWithRfc3986(s: string)
    ensures UrlEncodeRelaxed(EscapeDataString3986, s) == EscapeDataString3986(s)
  {
    var e := EscapeDataString3986(s);
    forall i | 0 <= i < |e| ensures e[i] != '(' && e[i] != ')' {
      assert IsUnreserved(e[i]) || e[i] == '%';
    }
  }

  /** The replacements the relaxed encoder uses are `%28` and `%29`. */
  lemma ParenthesisEscapes()
    ensures PercentEncode("(") == OpenParenEscape
    ensures PercentEncode(")") == CloseParenEscape
  {
    assert Utf8("(") == [0x28];
    assert Utf8(")") == [0x29];
  }
}

=== FILE: parameters.dfy ===
/** Request parameters and their normalization (section 9.1.1 of OAuth Core
    1.0): drop `oauth_signature`, strict-encode every remaining value, sort by
    name and then value, and join as `name=value` pairs separated by `&`. */
module Parameters {
  import opened Strings
  import opened Encoding

  /** One name/value pair of a request. */
  datatype WebParameter = WebParameter(name: string, value: string)

  const SignatureName: string := "oauth_signature"

  /** The parameter carries the signature itself, whatever the case of its name. */
  predicate IsSignatureParameter(p: WebParameter) {
    EqualsIgnoreCase(p.name, SignatureName)
  }

  /* ---------------------------------------------------------------------- */
  /* Ordering                                                                */
  /* ---------------------------------------------------------------------- */

  /** The comparer of the sort: by value when the names are equal, otherwise
      by name. Both comparisons are the ordinal `StrLe`, standing in for the
      culture-sensitive `string.CompareTo` of .NET. */
  predicate ParamLe(x: WebParameter, y: WebParameter) {
    if x.name == y.name then StrLe(x.value, y.value) else StrLe(x.name, y.name)
  }

  lemma ParamLeReflexive(x: WebParameter)
    ensures ParamLe(x, x)
  {
    StrLeReflexive(x.value);
  }

  lemma ParamLeTotal(x: WebParameter, y: WebParameter)
    ensures ParamLe(x, y) || ParamLe(y, x)
  {
    StrLeTotal(x.name, y.name);
    StrLeTotal(x.value, y.value);
  }

  lemma ParamLeAntisymmetric(x: WebParameter, y: WebParameter)
    requires ParamLe(x, y) && ParamLe(y, x)
    ensures x == y
  {
    if x.name == y.name {
      StrLeAntisymmetric(x.value, y.value);
    } else {
      StrLeAntisymmetric(x.name, y.name);
    }
  }

  lemma ParamLeTransitive(x: WebParameter, y: WebParameter, z: WebParameter)
    requires ParamLe(x, y) && ParamLe(y, z)
    ensures ParamLe(x, z)
  {
    if x.name == y.name && y.name == z.name {
      StrLeTransitive(x.value, y.value, z.value);
    } else if x.name == y.name || y.name == z.name {
    } else {
      StrLeTransitive(x.name, y.name, z.name);
      if x.name == z.name {
        StrLeAntisymmetric(x.name, y.name);
      }
    }
  }

  ghost predicate Sorted(ps: seq<WebParameter>) {
    forall i, j :: 0 <= i < j < |ps| ==> ParamLe(ps[i], ps[j])
  }

  /* ---------------------------------------------------------------------- */
  /* Sorting                                                                 */
  /* ---------------------------------------------------------------------- */

  function Insert(x: WebParameter, ps: seq<WebParameter>): (r: seq<WebParameter>)
    ensures multiset(r) == multiset(ps) + multiset{x}
  {
    if |ps| == 0 then [x]
    else if ParamLe(x, ps[0]) then [x] + ps
    else
      assert ps == [ps[0]] + ps[1..];
      [ps[0]] + Insert(x, ps[1..])
  }

  lemma {:induction false} InsertSorted(x: WebParameter, ps: seq<WebParameter>)
    requires Sorted(ps)
    ensures Sorted(Insert(x, ps))
    decreases |ps|
  {
    if |ps| > 0 {
      if ParamLe(x, ps[0]) {
        forall j | 0 <= j < |ps| ensures ParamLe(x, ps[j]) {
          if j > 0 { ParamLeTransitive(x, ps[0], ps[j]); }
        }
        SortedCons(x, ps);
      } else {
        var tail := ps[1..];
        assert Sorted(tail) by {
          forall i, j | 0 <= i < j < |tail| ensures ParamLe(tail[i], tail[j]) {
            assert tail[i] == ps[i + 1] && tail[j] == ps[j + 1];
          }
        }
        InsertSorted(x, tail);
        var rest := Insert(x, tail);
        forall k | 0 <= k < |rest| ensures ParamLe(ps[0], rest[k]) {
          assert rest[k] in multiset(rest);
          if rest[k] == x {
            ParamLeTotal(x, ps[0]);
          } else {
            assert rest[k] in multiset(tail);
            var j :| 0 <= j < |tail| && tail[j] == rest[k];
            assert ps[j + 1] == rest[k];
          }
        }
        SortedCons(ps[0], rest);
      }
    }
  }

  /** A sequence whose neighbours are in order is sorted. */
  lemma {:induction false} SortedFromAdjacent(ps: seq<WebParameter>)
    requires forall i :: 0 <= i < |ps| - 1 ==> ParamLe(ps[i], ps[i + 1])
    ensures Sorted(ps)
    decreases |ps|
  {
    if |ps| > 0 {
      var tail := ps[1..];
      forall i | 0 <= i < |tail| - 1 ensures ParamLe(tail[i], tail[i + 1]) {
        assert tail[i] == ps[i + 1] && tail[i + 1] == ps[i + 2];
      }
      SortedFromAdjacent(tail);
      forall j | 0 <= j < |tail| ensures ParamLe(ps[0], tail[j]) {
        HeadBelowChain(ps, j + 1);
      }
      SortedCons(ps[0], tail);
      assert ps == [ps[0]] + tail;
    }
  }

  /** Along a chain of ordered neighbours, the head is below every element. */
  lemma {:induction false} HeadBelowChain(ps: seq<WebParameter>, j: nat)
    requires forall i :: 0 <= i < |ps| - 1 ==> ParamLe(ps[i], ps[i + 1])
    requires j < |ps|
    ensures ParamLe(ps[0], ps[j])
    decreases j
  {
    if j == 0 {
      ParamLeReflexive(ps[0]);
    } else {
      HeadBelowChain(ps, j - 1);
      ParamLeTransitive(ps[0], ps[j - 1], ps[j]);
    }
  }

  /** A sorted sequence stays sorted when an element no greater than any of
      its elements is put in front. */
  lemma SortedCons(x: WebParameter, ps: seq<WebParameter>)
    requires Sorted(ps)
    requires forall j :: 0 <= j < |ps| ==> ParamLe(x, ps[j])
    ensures Sorted([x] + ps)
  {
    var r := [x] + ps;
    forall i, j | 0 <= i < j < |r| ensures ParamLe(r[i], r[j]) {
      assert r[j] == ps[j - 1];
      if i > 0 { assert r[i] == ps[i - 1]; }
    }
  }

  /** Insertion sort: a sorted permutation of `ps`. */
  function Sort(ps: seq<WebParameter>): (r: seq<WebParameter>)
    ensures Sorted(r)
    ensures multiset(r) == multiset(ps)
  {
    if |ps| == 0 then []
    else
      assert ps == [ps[0]] + ps[1..];
      InsertSorted(ps[0], Sort(ps[1..]));
      Insert(ps[0], Sort(ps[1..]))
  }

  /** The comparer is a total order, so there is exactly one sorted permutation
      of a collection: which sorting algorithm runs, stable or not, does not
      change the result. */
  lemma {:induction false} SortedPermutationUnique(a: seq<WebParameter>, b: seq<WebParameter>)
    requires Sorted(a) && Sorted(b)
    requires multiset(a) == multiset(b)
    ensures a == b
    decreases |a|
  {
    assert |a| == |multiset(a)| == |multiset(b)| == |b|;
    if |a| > 0 {
      assert a[0] in multiset(a) && b[0] in multiset(b);
      SortedHeadIsLeast(a, b[0]);
      SortedHeadIsLeast(b, a[0]);
      ParamLeAntisymmetric(a[0], b[0]);
      assert a == [a[0]] + a[1..];
      assert b == [b[0]] + b[1..];
      assert multiset(a) == multiset{a[0]} + multiset(a[1..]);
      assert multiset(b) == multiset{b[0]} + multiset(b[1..]);
      assert a[0] == b[0];
      assert multiset(a[1..]) == multiset(a) - multiset{a[0]};
      assert multiset(b[1..]) == multiset(b) - multiset{b[0]};
      SortedTail(a);
      SortedTail(b);
      SortedPermutationUnique(a[1..], b[1..]);
    }
  }

  lemma SortedTail(ps: seq<WebParameter>)
    requires Sorted(ps) && |ps| > 0
    ensures Sorted(ps[1..])
  {
    var tail := ps[1..];
    forall i, j | 0 <= i < j < |tail| ensures ParamLe(tail[i], tail[j]) {
      assert tail[i] == ps[i + 1] && tail[j] == ps[j + 1];
    }
  }

  /** The head of a sorted sequence is no greater than any of its elements. */
  lemma SortedHeadIsLeast(ps: seq<WebParameter>, x: WebParameter)
    requires Sorted(ps) && x in multiset(ps)
    ensures ParamLe(ps[0], x)
  {
    var k :| 0 <= k < |ps| && ps[k] == x;
    if k == 0 { ParamLeReflexive(x); }
  }

  /** Equal multisets have the same members. */
  lemma SameMembers(a: seq<WebParameter>, b: seq<WebParameter>)
    requires multiset(a) == multiset(b)
    ensures forall x :: x in a <==> x in b
  {
    forall x ensures x in a <==> x in b {
      assert x in a <==> x in multiset(a);
      assert x in b <==> x in multiset(b);
    }
  }

  /* ---------------------------------------------------------------------- */
  /* SortParametersExcludingSignature                                        */
  /* ---------------------------------------------------------------------- */

  /** The parameter with its value strict-encoded. */
  function WithStrictValue(p: WebParameter): WebParameter {
    WebParameter(p.name, UrlEncodeStrict(p.value))
  }

  /** The non-signature parameters of `ps`, in order, values strict-encoded. */
  function Prepare(ps: seq<WebParameter>): (r: seq<WebParameter>)
    ensures |r| <= |ps|
    ensures forall i :: 0 <= i < |r| ==> !IsSignatureParameter(r[i])
    ensures forall x :: x in r <==>
              exists i :: 0 <= i < |ps| && !IsSignatureParameter(ps[i]) && x == WithStrictValue(ps[i])
    ensures (forall i :: 0 <= i < |ps| ==> !IsSignatureParameter(ps[i])) ==> |r| == |ps|
  {
    if |ps| == 0 then []
    else
      var rest := Prepare(ps[1..]);
      PrepareStep(ps, rest);
      PrepareStepMembers(ps, rest);
      PrepareCons(ps[0], rest)
  }

  /** `RemoveAll` of the signature parameters works element by element: the
      filtered copy of a concatenation is the concatenation of the filtered
      copies, so every kept parameter survives as often as it occurs. */
  lemma {:induction false} PrepareAppend(a: seq<WebParameter>, b: seq<WebParameter>)
    ensures Prepare(a + b) == Prepare(a) + Prepare(b)
    decreases |a|
  {
    if |a| == 0 {
      assert a + b == b;
    } else {
      assert (a + b)[0] == a[0];
      assert (a + b)[1..] == a[1..] + b;
      PrepareAppend(a[1..], b);
    }
  }

  /** One parameter: dropped when it is a signature parameter, otherwise kept
      with its value strict-encoded. With `PrepareAppend` this fixes `Prepare`
      on every input. */
  lemma PrepareSingle(p: WebParameter)
    ensures Prepare([p]) == if IsSignatureParameter(p) then [] else [WithStrictValue(p)]
  {
    assert [p][1..] == [];
  }

  /** One step of `Prepare`: a signature parameter is dropped, any other is
      kept with its value strict-encoded. */
  function PrepareCons(p: WebParameter, rest: seq<WebParameter>): seq<WebParameter> {
    if IsSignatureParameter(p) then rest else [WithStrictValue(p)] + rest
  }

  /** The properties of `Prepare` carry over one step of `PrepareCons`. */
  lemma PrepareStep(ps: seq<WebParameter>, rest: seq<WebParameter>)
    requires |ps| > 0
    requires |rest| <= |ps| - 1
    requires forall i :: 0 <= i < |rest| ==> !IsSignatureParameter(rest[i])
    requires (forall i :: 0 <= i < |ps[1..]| ==> !IsSignatureParameter(ps[1..][i])) ==> |rest| == |ps| - 1
    ensures var r := PrepareCons(ps[0], rest);
      && |r| <= |ps|
      && (forall i :: 0 <= i < |r| ==> !IsSignatureParameter(r[i]))
      && ((forall i :: 0 <= i < |ps| ==> !IsSignatureParameter(ps[i])) ==> |r| == |ps|)
  {
    var r := PrepareCons(ps[0], rest);
    assert (forall i :: 0 <= i < |ps| ==> !IsSignatureParameter(ps[i])) ==> |r| == |ps| by {
      if forall i :: 0 <= i < |ps| ==> !IsSignatureParameter(ps[i]) {
        assert forall i :: 0 <= i < |ps| - 1 ==> ps[1..][i] == ps[i + 1];
        assert !IsSignatureParameter(ps[0]);
      }
    }
    if !IsSignatureParameter(ps[0]) {
      forall i | 0 <= i < |r| ensures !IsSignatureParameter(r[i]) {
        if i > 0 { assert r[i] == rest[i - 1]; }
      }
    }
  }

  /** The membership clause of `Prepare` carries over one step. */
  lemma PrepareStepMembers(ps: seq<WebParameter>, rest: seq<WebParameter>)
    requires |ps| > 0
    requires forall x :: x in rest <==>
               exists i :: 0 <= i < |ps[1..]| && !IsSignatureParameter(ps[1..][i]) && x == WithStrictValue(ps[1..][i])
    ensures forall x :: x in PrepareCons(ps[0], rest) <==>
              exists i :: 0 <= i < |ps| && !IsSignatureParameter(ps[i]) && x == WithStrictValue(ps[i])
  {
    var r := PrepareCons(ps[0], rest);
    forall x ensures x in r <==> exists i :: 0 <= i < |ps| && !IsSignatureParameter(ps[i]) && x == WithStrictValue(ps[i]) {
      if x in r {
        if !IsSignatureParameter(ps[0]) && x == WithStrictValue(ps[0]) {
          assert 0 < |ps|;
        } else {
          assert x in rest;
          var j :| 0 <= j < |ps[1..]| && !IsSignatureParameter(ps[1..][j]) && x == WithStrictValue(ps[1..][j]);
          assert ps[j + 1] == ps[1..][j];
        }
      }
      if exists i :: 0 <= i < |ps| && !IsSignatureParameter(ps[i]) && x == WithStrictValue(ps[i]) {
        var i :| 0 <= i < |ps| && !IsSignatureParameter(ps[i]) && x == WithStrictValue(ps[i]);
        if i > 0 {
          assert ps[1..][i - 1] == ps[i];
          assert x in rest;
        }
      }
    }
  }

  /** Parameters that are not signature parameters and whose values are
      unreserved text pass through `Prepare` unchanged. */
  lemma {:induction false} PrepareUnchanged(ps: seq<WebParameter>)
    requires forall i :: 0 <= i < |ps| ==> !IsSignatureParameter(ps[i])
    requires forall i, k :: 0 <= i < |ps| && 0 <= k < |ps[i].value| ==> IsUnreserved(ps[i].value[k])
    ensures Prepare(ps) == ps
    decreases |ps|
  {
    if |ps| > 0 {
      var tail := ps[1..];
      forall i, k | 0 <= i < |tail| && 0 <= k < |tail[i].value| ensures IsUnreserved(tail[i].value[k]) {
        assert tail[i] == ps[i + 1];
      }
      forall i | 0 <= i < |tail| ensures !IsSignatureParameter(tail[i]) {
        assert tail[i] == ps[i + 1];
      }
      PrepareUnchanged(tail);
      PrepareKeepsHead(ps[0], tail);
      assert ps == [ps[0]] + tail;
    }
  }

  /** A parameter that is not a signature parameter and has an unreserved
      value is kept as it is in front of the rest. */
  lemma PrepareKeepsHead(p: WebParameter, rest: seq<WebParameter>)
    requires !IsSignatureParameter(p)
    requires forall k :: 0 <= k < |p.value| ==> IsUnreserved(p.value[k])
    ensures PrepareCons(p, rest) == [p] + rest
  {
    assert WithStrictValue(p) == p;
  }

  /** `SortParametersExcludingSignature`: every parameter whose name is
      `oauth_signature` in any case is dropped, the others keep their names with
      their values strict-encoded, and the result is sorted by name, then value. */
  function SortParametersExcludingSignature(ps: seq<WebParameter>): (r: seq<WebParameter>)
    ensures Sorted(r)
    ensures multiset(r) == multiset(Prepare(ps))
    ensures forall i :: 0 <= i < |r| ==> !IsSignatureParameter(r[i])
    ensures forall x :: x in r <==>
              exists i :: 0 <= i < |ps| && !IsSignatureParameter(ps[i]) && x == WithStrictValue(ps[i])
    ensures |r| <= |ps|
  {
    var q := Prepare(ps);
    var r := Sort(q);
    PermutationKeeps(r, q);
    r
  }

  /** A permutation of a list free of signature parameters is free of them
      too, has the same members and the same length. */
  lemma PermutationKeeps(r: seq<WebParameter>, q: seq<WebParameter>)
    requires multiset(r) == multiset(q)
    requires forall i :: 0 <= i < |q| ==> !IsSignatureParameter(q[i])
    ensures forall i :: 0 <= i < |r| ==> !IsSignatureParameter(r[i])
    ensures forall x :: x in r <==> x in q
    ensures |r| == |q|
  {
    SameMembers(r, q);
    assert |r| == |multiset(r)| == |multiset(q)| == |q|;
    forall i | 0 <= i < |r| ensures !IsSignatureParameter(r[i]) {
      assert r[i] in q;
    }
  }

  /** Any sorted arrangement of the prepared parameters is the one
      `SortParametersExcludingSignature` returns. */
  lemma SortParametersCharacterized(ps: seq<WebParameter>, r: seq<WebParameter>)
    requires Sorted(r) && multiset(r) == multiset(Prepare(ps))
    ensures r == SortParametersExcludingSignature(ps)
  {
    SortedPermutationUnique(r, SortParametersExcludingSignature(ps));
  }

  /* ---------------------------------------------------------------------- */
  /* Concatenate and NormalizeRequestParameters                              */
  /* ---------------------------------------------------------------------- */

  /** The `name + separator + value` text of each parameter, in order. */
  function Pairs(ps: seq<WebParameter>, separator: string): (r: seq<string>)
    ensures |r| == |ps|
    ensures forall i :: 0 <= i < |ps| ==> r[i] == ps[i].name + separator + ps[i].value
  {
    seq(|ps|, i requires 0 <= i < |ps| => ps[i].name + separator + ps[i].value)
  }

  /** `Concatenate`: the parameters as `name + separator + value`, with `spacer`
      between consecutive pairs and neither before the first nor after the last. */
  function Concatenate(ps: seq<WebParameter>, separator: string, spacer: string): (r: string)
    ensures |ps| == 0 ==> r == ""
    ensures |ps| > 0 ==>
      var first := ps[0].name + separator + ps[0].value;
      var last := ps[|ps| - 1].name + separator + ps[|ps| - 1].value;
      && |r| >= |first| && r[..|first|] == first
      && |r| >= |last| && r[|r| - |last|..] == last
  {
    var parts := Pairs(ps, separator);
    if |ps| > 0 then JoinEnds(parts, spacer); Join(parts, spacer)
    else Join(parts, spacer)
  }

  /** A parameter put in front contributes its pair and exactly one spacer
      before the concatenation of the rest. */
  lemma ConcatenateCons(p: WebParameter, rest: seq<WebParameter>, separator: string, spacer: string)
    requires |rest| > 0
    ensures Concatenate([p] + rest, separator, spacer)
            == p.name + separator + p.value + spacer + Concatenate(rest, separator, spacer)
  {
    var parts := Pairs([p] + rest, separator);
    assert parts == [p.name + separator + p.value] + Pairs(rest, separator);
    assert parts[1..] == Pairs(rest, separator);
  }

  /** Round trip: when the spacer is one character found in no name, value or
      separator, splitting the concatenation at it recovers the pairs. */
  lemma ConcatenateSplits(ps: seq<WebParameter>, separator: string, c: char)
    requires |ps| > 0
    requires c !in separator
    requires forall i :: 0 <= i < |ps| ==> c !in ps[i].name && c !in ps[i].value
    ensures Split(Concatenate(ps, separator, [c]), c) == Pairs(ps, separator)
  {
    var parts := Pairs(ps, separator);
    forall i | 0 <= i < |parts| ensures c !in parts[i] {
      assert parts[i] == ps[i].name + separator + ps[i].value;
    }
    SplitJoin(parts, c);
  }

  /** `NormalizeRequestParameters`: the sorted, signature-free, strict-encoded
      parameters joined as `name=value` pairs separated by `&`. It is empty
      exactly when every parameter is a signature parameter. */
  function NormalizeRequestParameters(ps: seq<WebParameter>): (r: string)
    ensures r == "" <==> forall i :: 0 <= i < |ps| ==> IsSignatureParameter(ps[i])
  {
    var sorted := SortParametersExcludingSignature(ps);
    assert forall i :: 0 <= i < |ps| && !IsSignatureParameter(ps[i]) ==> |sorted| > 0 by {
      forall i | 0 <= i < |ps| && !IsSignatureParameter(ps[i]) ensures |sorted| > 0 {
        assert WithStrictValue(ps[i]) in sorted;
      }
    }
    assert |sorted| > 0 ==> exists i :: 0 <= i < |ps| && !IsSignatureParameter(ps[i]) by {
      if |sorted| > 0 { assert sorted[0] in sorted; }
    }
    Concatenate(sorted, "=", "&")
  }

  /** Splitting the normalized parameters at `&` recovers the sorted
      `name=value` pairs, provided no name contains `&`: strict-encoded values
      never do. */
  lemma NormalizeSplits(ps: seq<WebParameter>)
    requires exists i :: 0 <= i < |ps| && !IsSignatureParameter(ps[i])
    requires forall i :: 0 <= i < |ps| ==> '&' !in ps[i].name
    ensures |SortParametersExcludingSignature(ps)| > 0
    ensures Split(NormalizeRequestParameters(ps), '&') == Pairs(SortParametersExcludingSignature(ps), "=")
  {
    var sorted := SortParametersExcludingSignature(ps);
    assert |sorted| > 0 by {
      var i :| 0 <= i < |ps| && !IsSignatureParameter(ps[i]);
      assert WithStrictValue(ps[i]) in sorted;
    }
    forall k | 0 <= k < |sorted| ensures '&' !in sorted[k].name && '&' !in sorted[k].value {
      PreparedFree(ps, sorted[k], '&');
    }
    assert NormalizeRequestParameters(ps) == Concatenate(sorted, "=", "&");
    ConcatenateSplits(sorted, "=", '&');
  }

  /** A prepared parameter has a name of the input and a strict-encoded value,
      which holds no character outside the unreserved set and `%`. */
  lemma PreparedFree(ps: seq<WebParameter>, x: WebParameter, c: char)
    requires !(IsUnreserved(c) || c == '%')
    requires forall i :: 0 <= i < |ps| ==> c !in ps[i].name
    requires x in SortParametersExcludingSignature(ps)
    ensures c !in x.name && c !in x.value
  {
    var j :| 0 <= j < |ps| && !IsSignatureParameter(ps[j]) && x == WithStrictValue(ps[j]);
    var v := x.value;
    assert forall n :: 0 <= n < |v| ==> v[n] != c;
  }
}

=== FILE: signing.dfy ===
/** The signature base string and the HMAC-SHA1 signature: request-URL
    construction (section 9.1.2 of OAuth Core 1.0), concatenation of the request
    elements (section 9.1.3) and the signing key (section 9.2).
    `Uri` parsing, `Uri.EscapeDataString`, HMAC-SHA1 and Base64 are platform
    services: the URL arrives parsed, the other three arrive in a `Platform`. */
module Signing {
  import opened Wrappers
  import opened Strings
  import opened Encoding
  import opened Parameters

  /** The parts of a parsed `System.Uri` the toolkit reads. */
  datatype Uri = Uri(scheme: string, host: string, port: int, absolutePath: string)

  /** The platform services the toolkit calls but does not define. */
  datatype Platform = Platform(
    escapeDataString: string -> string,                  // Uri.EscapeDataString
    hmacSha1: (seq<Byte>, seq<Byte>) -> seq<Byte>,      // key bytes, data bytes -> hash
    toBase64: seq<Byte> -> string)                        // Convert.ToBase64String

  datatype SignatureMethod = HmacSha1 | PlainText | RsaSha1

  datatype SignatureTreatment = Escaped | Unescaped

  /** The exceptions the toolkit raises: `ArgumentNullException` and
      `NotImplementedException`. */
  datatype ToolError = ArgumentNull | NotImplemented

  /* ---------------------------------------------------------------------- */
  /* ConstructRequestUrl                                                     */
  /* ---------------------------------------------------------------------- */

  /** Port 80 with `http` and port 443 with `https` are left out of the URL. */
  predicate IsDefaultPort(u: Uri) {
    (u.scheme == "http" && u.port == 80) || (u.scheme == "https" && u.port == 443)
  }

  function RequestUrl(u: Uri): string {
    u.scheme + "://" + u.host + (if IsDefaultPort(u) then "" else ":" + IntToDecimal(u.port)) + u.absolutePath
  }

  /** `ConstructRequestUrl`: `scheme://host`, then `:port` unless the port is
      the scheme's default, then the absolute path; no query, no fragment, and
      no change of case. A null URL is an `ArgumentNullException`. */
  function ConstructRequestUrl(url: Option<Uri>): (r: Result<string, ToolError>)
    ensures url.None? <==> r == Failure(ArgumentNull)
    ensures url.Some? ==>
      var u := url.value;
      var prefix := u.scheme + "://" + u.host;
      && r.Success?
      && |r.value| >= |prefix| + |u.absolutePath|
      && r.value[..|prefix|] == prefix
      && r.value[|r.value| - |u.absolutePath|..] == u.absolutePath
      && (|r.value| == |prefix| + |u.absolutePath| <==> IsDefaultPort(u))
      && (IsDefaultPort(u) ==> r.value == prefix + u.absolutePath)
      && (!IsDefaultPort(u) ==>
            r.value[|prefix|..|r.value| - |u.absolutePath|] == ":" + IntToDecimal(u.port))
  {
    match url
    case None => Failure(ArgumentNull)
    case Some(u) =>
      RequestUrlParts(u);
      Success(RequestUrl(u))
  }

  /** The request URL is the prefix, the port text and the path, in that order. */
  lemma RequestUrlParts(u: Uri)
    ensures var prefix := u.scheme + "://" + u.host;
      var port := if IsDefaultPort(u) then "" else ":" + IntToDecimal(u.port);
      var r := RequestUrl(u);
      && r == prefix + port + u.absolutePath
      && (|port| == 0 <==> IsDefaultPort(u))
      && r[..|prefix|] == prefix
      && r[|prefix|..|r| - |u.absolutePath|] == port
      && r[|r| - |u.absolutePath|..] == u.absolutePath
  {
    var prefix := u.scheme + "://" + u.host;
    var port := if IsDefaultPort(u) then "" else ":" + IntToDecimal(u.port);
    var r := RequestUrl(u);
    assert r == prefix + port + u.absolutePath;
    assert r[..|prefix|] == prefix;
    assert r[|prefix|..|r| - |u.absolutePath|] == port;
    assert r[|r| - |u.absolutePath|..] == u.absolutePath;
  }

  /** For a fixed scheme, host and path, the request URL determines the port. */
  lemma RequestUrlDeterminesPort(u: Uri, v: Uri)
    requires u.scheme == v.scheme && u.host == v.host && u.absolutePath == v.absolutePath
    requires RequestUrl(u) == RequestUrl(v)
    ensures u.port == v.port
  {
    var prefix := u.scheme + "://" + u.host;
    if !IsDefaultPort(u) && !IsDefaultPort(v) {
      var pu := ":" + IntToDecimal(u.port);
      var pv := ":" + IntToDecimal(v.port);
      assert |pu| == |pv| by {
        assert |RequestUrl(u)| == |prefix| + |pu| + |u.absolutePath|;
        assert |RequestUrl(v)| == |prefix| + |pv| + |v.absolutePath|;
      }
      assert pu == RequestUrl(u)[|prefix|..|prefix| + |pu|];
      assert pv == RequestUrl(v)[|prefix|..|prefix| + |pv|];
      assert IntToDecimal(u.port) == pu[1..] == pv[1..] == IntToDecimal(v.port);
      IntToDecimalInjective(u.port, v.port);
    }
  }

  /* ---------------------------------------------------------------------- */
  /* ConcatenateRequestElements                                              */
  /* ---------------------------------------------------------------------- */

  /** `ConcatenateRequestElements`: the upper-cased method, the relaxed-encoded
      request URL and the relaxed-encoded normalized parameters, separated by
      two unencoded `&`. */
  function ConcatenateRequestElements(escape: string -> string, httpMethod: string, url: Uri,
                                      parameters: seq<WebParameter>): (r: string)
    ensures var m := ToUpperAscii(httpMethod);
      |r| > |m| && r[..|m| + 1] == m + "&"
  {
    var m := ToUpperAscii(httpMethod);
    var u := UrlEncodeRelaxed(escape, RequestUrl(url));
    var p := UrlEncodeRelaxed(escape, NormalizeRequestParameters(parameters));
    MethodLeads(m, u, p);
    m + "&" + u + "&" + p
  }

  lemma MethodLeads(m: string, u: string, p: string)
    ensures var r := m + "&" + u + "&" + p;
      |r| > |m| && r[..|m| + 1] == m + "&"
  {
    var r := m + "&" + u + "&" + p;
    assert r == (m + "&") + (u + "&" + p);
  }

  /** Whatever the escaper, a method without parentheses gives a base string
      without parentheses. */
  lemma SignatureBaseHasNoParentheses(escape: string -> string, httpMethod: string, url: Uri,
                                      parameters: seq<WebParameter>)
    requires '(' !in httpMethod && ')' !in httpMethod
    ensures var r := ConcatenateRequestElements(escape, httpMethod, url, parameters);
      '(' !in r && ')' !in r
  {
    var m := ToUpperAscii(httpMethod);
    var u := UrlEncodeRelaxed(escape, RequestUrl(url));
    var p := UrlEncodeRelaxed(escape, NormalizeRequestParameters(parameters));
    assert ConcatenateRequestElements(escape, httpMethod, url, parameters) == m + "&" + u + "&" + p;
    assert '(' !in m && ')' !in m by {
      forall i | 0 <= i < |m| ensures m[i] != '(' && m[i] != ')' {
        assert httpMethod[i] != '(' && httpMethod[i] != ')';
      }
    }
    assert '(' !in u && ')' !in u && '(' !in p && ')' !in p;
  }

  /** With the RFC 3986 escaper, a method without `&` gives a base string with
      exactly three `&`-separated fields, and the second and third decode back
      to the request URL and the normalized parameters. */
  lemma SignatureBaseFields(httpMethod: string, url: Uri, parameters: seq<WebParameter>)
    requires '&' !in httpMethod
    ensures var fields := Split(ConcatenateRequestElements(EscapeDataString3986, httpMethod, url, parameters), '&');
      && fields == [ToUpperAscii(httpMethod),
                    EscapeDataString3986(RequestUrl(url)),
                    EscapeDataString3986(NormalizeRequestParameters(parameters))]
      && PercentDecode(fields[1]) == Some(Utf8(RequestUrl(url)))
      && PercentDecode(fields[2]) == Some(Utf8(NormalizeRequestParameters(parameters)))
  {
    var m := ToUpperAscii(httpMethod);
    var url' := RequestUrl(url);
    var norm := NormalizeRequestParameters(parameters);
    RelaxedWithRfc3986(url');
    RelaxedWithRfc3986(norm);
    Rfc3986HasNoAmpersand(url');
    Rfc3986HasNoAmpersand(norm);
    assert '&' !in m by {
      forall i | 0 <= i < |m| ensures m[i] != '&' {
        assert httpMethod[i] != '&';
      }
    }
    ThreeFields(m, EscapeDataString3986(url'), EscapeDataString3986(norm), '&');
    EscapeDataString3986RoundTrip(url');
    EscapeDataString3986RoundTrip(norm);
  }

  /** Three separator-free fields joined by the separator split back apart. */
  lemma ThreeFields(a: string, b: string, d: string, c: char)
    requires c !in a && c !in b && c !in d
    ensures Split(a + [c] + b + [c] + d, c) == [a, b, d]
  {
    JoinThree(a, b, d, c);
    SplitJoin([a, b, d], c);
  }

  lemma Rfc3986HasNoAmpersand(s: string)
    ensures '&' !in EscapeDataString3986(s)
  {
    var e := EscapeDataString3986(s);
    assert forall i :: 0 <= i < |e| ==> e[i] != '&';
  }

  /* ---------------------------------------------------------------------- */
  /* GetSignature                                                            */
  /* ---------------------------------------------------------------------- */

  /** `IsNullOrBlank`: null, empty, or empty once trimmed; that is, null or
      made only of white space. */
  function IsNullOrBlank(value: Option<string>): (b: bool)
    ensures b <==> value.None? || forall i :: 0 <= i < |value.value| ==> IsWhiteSpace(value.value[i])
  {
    match value
    case None => true
    case Some(s) =>
      TrimEmptyIffWhiteSpace(s);
      |s| == 0 || (|s| != 0 && Trim(s) == "")
  }

  /** The token secret the key is built from: a null or blank one counts as "". */
  function EffectiveTokenSecret(tokenSecret: Option<string>): string {
    if IsNullOrBlank(tokenSecret) then "" else tokenSecret.value
  }

  /** The HMAC-SHA1 key: relaxed consumer secret, `&`, relaxed token secret. */
  function SigningKey(escape: string -> string, consumerSecret: string, tokenSecret: Option<string>): string {
    UrlEncodeRelaxed(escape, consumerSecret) + "&" + UrlEncodeRelaxed(escape, EffectiveTokenSecret(tokenSecret))
  }

  /** `HashWith`: Base64 of the HMAC-SHA1 of the UTF-8 signature base under the
      UTF-8 key. The key is always ASCII when the escaper writes only ASCII, and
      its bytes are then its character codes. */
  function RawSignature(p: Platform, key: string, signatureBase: string): (r: string)
    ensures (forall i :: 0 <= i < |key| ==> key[i] as int < 0x80) ==>
      r == p.toBase64(p.hmacSha1(AsciiCodes(key), Utf8(signatureBase)))
  {
    assert (forall i :: 0 <= i < |key| ==> key[i] as int < 0x80) ==> Utf8(key) == AsciiCodes(key) by {
      if forall i :: 0 <= i < |key| ==> key[i] as int < 0x80 {
        AsciiUtf8(key);
      }
    }
    p.toBase64(p.hmacSha1(Utf8(key), Utf8(signatureBase)))
  }

  /** `GetSignature` (five arguments). Only HMAC-SHA1 is implemented; any other
      method is a `NotImplementedException`. The key joins the relaxed consumer
      and token secrets, a null or blank token secret counting as empty. An
      `Escaped` treatment relaxed-encodes the Base64 result, `Unescaped` does not. */
  function GetSignature(p: Platform, signatureMethod: SignatureMethod, treatment: SignatureTreatment,
                        signatureBase: string, consumerSecret: string,
                        tokenSecret: Option<string>): (r: Result<string, ToolError>)
    ensures r.Failure? <==> signatureMethod != HmacSha1
    ensures r.Failure? ==> r.error == NotImplemented
    ensures r.Success? ==>
      var raw := RawSignature(p, UrlEncodeRelaxed(p.escapeDataString, consumerSecret) + "&" +
                                 UrlEncodeRelaxed(p.escapeDataString, EffectiveTokenSecret(tokenSecret)),
                              signatureBase);
      r.value == (if treatment == Escaped then UrlEncodeRelaxed(p.escapeDataString, raw) else raw)
  {
    var key := SigningKey(p.escapeDataString, consumerSecret, tokenSecret);
    match signatureMethod
    case HmacSha1 =>
      var signature := RawSignature(p, key, signatureBase);
      Success(if treatment == Escaped then UrlEncodeRelaxed(p.escapeDataString, signature) else signature)
    case _ => Failure(NotImplemented)
  }

  /** A null, empty or blank token secret all sign alike. */
  lemma BlankTokenSecretIsEmpty(p: Platform, m: SignatureMethod, t: SignatureTreatment,
                                signatureBase: string, consumerSecret: string, tokenSecret: Option<string>)
    requires IsNullOrBlank(tokenSecret)
    ensures GetSignature(p, m, t, signatureBase, consumerSecret, tokenSecret)
         == GetSignature(p, m, t, signatureBase, consumerSecret, None)
         == GetSignature(p, m, t, signatureBase, consumerSecret, Some(""))
  {
  }

  /** The escaped signature is the relaxed encoding of the unescaped one. */
  lemma EscapedIsRelaxedUnescaped(p: Platform, m: SignatureMethod, signatureBase: string,
                                  consumerSecret: string, tokenSecret: Option<string>)
    requires m == HmacSha1
    ensures GetSignature(p, m, Escaped, signatureBase, consumerSecret, tokenSecret).value
         == UrlEncodeRelaxed(p.escapeDataString, GetSignature(p, m, Unescaped, signatureBase, consumerSecret, tokenSecret).value)
  {
  }

  /** With the RFC 3986 escaper the key has exactly two `&`-separated fields,
      and they decode back to the consumer secret and the effective token secret. */
  lemma SigningKeyFields(consumerSecret: string, tokenSecret: Option<string>)
    ensures var fields := Split(SigningKey(EscapeDataString3986, consumerSecret, tokenSecret), '&');
      && |fields| == 2
      && PercentDecode(fields[0]) == Some(Utf8(consumerSecret))
      && PercentDecode(fields[1]) == Some(Utf8(EffectiveTokenSecret(tokenSecret)))
  {
    var secret := EffectiveTokenSecret(tokenSecret);
    var c := EscapeDataString3986(consumerSecret);
    var t := EscapeDataString3986(secret);
    assert SigningKey(EscapeDataString3986, consumerSecret, tokenSecret) == c + "&" + t by {
      RelaxedWithRfc3986(consumerSecret);
      RelaxedWithRfc3986(secret);
    }
    assert Split(c + "&" + t, '&') == [c, t] by {
      Rfc3986HasNoAmpersand(consumerSecret);
      Rfc3986HasNoAmpersand(secret);
      SplitPair(c, t, '&');
    }
    EscapeDataString3986RoundTrip(consumerSecret);
    EscapeDataString3986RoundTrip(secret);
  }

  /** `GetSignature` (httpMethod, base, consumer secret): signs with no token
      secret and escapes the result. */
  function GetSignatureForConsumer(p: Platform, signatureMethod: SignatureMethod,
                                   signatureBase: string, consumerSecret: string): (r: Result<string, ToolError>)
    ensures r.Failure? <==> signatureMethod != HmacSha1
    ensures r.Failure? ==> r.error == NotImplemented
    ensures r.Success? ==>
      r.value == UrlEncodeRelaxed(p.escapeDataString,
                   RawSignature(p, UrlEncodeRelaxed(p.escapeDataString, consumerSecret) + "&" +
                                   UrlEncodeRelaxed(p.escapeDataString, ""), signatureBase))
  {
    GetSignatureWithTreatment(p, signatureMethod, Escaped, signatureBase, consumerSecret)
  }

  /** `GetSignature` (httpMethod, treatment, base, consumer secret): signs with no
      token secret. */
  function GetSignatureWithTreatment(p: Platform, signatureMethod: SignatureMethod, treatment: SignatureTreatment,
                                     signatureBase: string, consumerSecret: string): (r: Result<string, ToolError>)
    ensures r.Failure? <==> signatureMethod != HmacSha1
    ensures r.Failure? ==> r.error == NotImplemented
    ensures r.Success? ==>
      var raw := RawSignature(p, UrlEncodeRelaxed(p.escapeDataString, consumerSecret) + "&" +
                                 UrlEncodeRelaxed(p.escapeDataString, ""), signatureBase);
      r.value == (if treatment == Escaped then UrlEncodeRelaxed(p.escapeDataString, raw) else raw)
  {
    GetSignature(p, signatureMethod, treatment, signatureBase, consumerSecret, None)
  }

  /** `GetSignature` (httpMethod, base, consumer secret, token secret) as written:
      it passes the consumer secret as the base and the token secret as the
      consumer secret, and drops both the base and the token. */
  function GetSignatureWithTokenAsWritten(p: Platform, signatureMethod: SignatureMethod, signatureBase: string,
                                          consumerSecret: string, tokenSecret: Option<string>): (r: Result<string, ToolError>)
    ensures tokenSecret.None? ==> r == Failure(ArgumentNull)
    ensures tokenSecret.Some? ==> (r.Failure? <==> signatureMethod != HmacSha1)
    ensures tokenSecret.Some? && r.Failure? ==> r.error == NotImplemented
    ensures tokenSecret.Some? && r.Success? ==>
      r.value == UrlEncodeRelaxed(p.escapeDataString,
                   RawSignature(p, SigningKey(p.escapeDataString, tokenSecret.value, None), consumerSecret))
  {
    match tokenSecret
    case None => Failure(ArgumentNull)
    case Some(t) => GetSignatureWithTreatment(p, signatureMethod, Escaped, consumerSecret, t)
  }

  /** The as-written overload signs the consumer secret under a key made from
      the token secret, so its result does not depend on the signature base. */
  lemma AsWrittenIgnoresSignatureBase(p: Platform, m: SignatureMethod, base1: string, base2: string,
                                      consumerSecret: string, tokenSecret: string)
    requires m == HmacSha1
    ensures GetSignatureWithTokenAsWritten(p, m, base1, consumerSecret, Some(tokenSecret))
         == GetSignatureWithTokenAsWritten(p, m, base2, consumerSecret, Some(tokenSecret))
         == Success(UrlEncodeRelaxed(p.escapeDataString,
                      RawSignature(p, UrlEncodeRelaxed(p.escapeDataString, tokenSecret) + "&" +
                                      UrlEncodeRelaxed(p.escapeDataString, ""), consumerSecret)))
  {
  }

  /** The four-argument overload as its documentation describes it: the
      escaped signature of the given base under the consumer and token secrets,
      a null token secret counting as empty. */
  function GetSignatureWithToken(p: Platform, signatureMethod: SignatureMethod, signatureBase: string,
                                 consumerSecret: string, tokenSecret: Option<string>): (r: Result<string, ToolError>)
    ensures r.Failure? <==> signatureMethod != HmacSha1
    ensures r.Failure? ==> r.error == NotImplemented
    ensures r.Success? ==>
      r.value == UrlEncodeRelaxed(p.escapeDataString,
                   RawSignature(p, SigningKey(p.escapeDataString, consumerSecret, tokenSecret), signatureBase))
  {
    GetSignature(p, signatureMethod, Escaped, signatureBase, consumerSecret, tokenSecret)
  }

  /** Without a token secret the corrected overload signs exactly as the
      consumer-only overload. */
  lemma CorrectedOverloadAgrees(p: Platform, m: SignatureMethod, signatureBase: string, consumerSecret: string)
    ensures GetSignatureWithToken(p, m, signatureBase, consumerSecret, None)
         == GetSignatureForConsumer(p, m, signatureBase, consumerSecret)
  {
  }

  /** A platform whose "signature" is as long as the signed text: enough to
      tell two bases apart. */
  function LengthPlatform(): Platform {
    Platform(s => s, (key, data) => data, bytes => seq(|bytes|, i => 'a'))
  }

  /** On that platform the as-written overload signs the bases `a` and `ab`
      alike, while the corrected one does not. */
  lemma AsWrittenDiscrepancy()
    ensures GetSignatureWithTokenAsWritten(LengthPlatform(), HmacSha1, "a", "cs", Some("ts"))
         == GetSignatureWithTokenAsWritten(LengthPlatform(), HmacSha1, "ab", "cs", Some("ts"))
    ensures GetSignatureWithToken(LengthPlatform(), HmacSha1, "a", "cs", Some("ts"))
         != GetSignatureWithToken(LengthPlatform(), HmacSha1, "ab", "cs", Some("ts"))
  {
    AsWrittenIgnoresSignatureBase(LengthPlatform(), HmacSha1, "a", "ab", "cs", "ts");
    CorrectedSignaturesDiffer();
  }

  lemma CorrectedSignaturesDiffer()
    ensures GetSignatureWithToken(LengthPlatform(), HmacSha1, "a", "cs", Some("ts"))
         != GetSignatureWithToken(LengthPlatform(), HmacSha1, "ab", "cs", Some("ts"))
  {
    LengthPlatformSignature("a", "cs", Some("ts"));
    LengthPlatformSignature("ab", "cs", Some("ts"));
    ShortUtf8Lengths();
  }

  lemma ShortUtf8Lengths()
    ensures |Utf8("a")| == 1 && |Utf8("ab")| == 2
  {
    AsciiUtf8("a");
    AsciiUtf8("ab");
  }

  /** On `LengthPlatform` the corrected overload's signature has one character
      per UTF-8 byte of the signed base. */
  lemma LengthPlatformSignature(data: string, consumerSecret: string, tokenSecret: Option<string>)
    ensures var r := GetSignatureWithToken(LengthPlatform(), HmacSha1, data, consumerSecret, tokenSecret);
      r.Success? && |r.value| == |Utf8(data)|
  {
    var p := LengthPlatform();
    var key := SigningKey(p.escapeDataString, consumerSecret, tokenSecret);
    LengthPlatformRaw(key, data);
    LengthPlatformRelaxed(RawSignature(p, key, data));
  }

  /** On `LengthPlatform` the raw signature is one `a` per UTF-8 byte of the data. */
  lemma LengthPlatformRaw(key: string, data: string)
    ensures RawSignature(LengthPlatform(), key, data) == seq(|Utf8(data)|, i => 'a')
  {
    var p := LengthPlatform();
    assert p.hmacSha1(Utf8(key), Utf8(data)) == Utf8(data);
  }

  /** On `LengthPlatform` a run of `a`s passes the relaxed encoder unchanged. */
  lemma LengthPlatformRelaxed(s: string)
    requires forall i :: 0 <= i < |s| ==> s[i] == 'a'
    ensures UrlEncodeRelaxed(LengthPlatform().escapeDataString, s) == s
  {
    var p := LengthPlatform();
    assert p.escapeDataString(s) == s;
    assert '(' !in s && ')' !in s by {
      forall i | 0 <= i < |s| ensures s[i] != '(' && s[i] != ')' {
        assert s[i] == 'a';
      }
    }
  }
}

=== FILE: strings.dfy ===
/** String helpers that stand in for the .NET string API the toolkit and the
    client rely on: `Split(char)`, joining with a separator, ordinal comparison,
    ASCII case mapping, `Trim()` and decimal formatting of an integer.
    A Dafny `char` is a Unicode scalar value; a .NET `char` is a UTF-16 code unit. */
module Strings {

  /* ---------------------------------------------------------------------- */
  /* Searching, splitting and joining                                        */
  /* ---------------------------------------------------------------------- */

  /** Index of the first occurrence of `c` in `s`, or `|s|` when there is none. */
  function FirstIndex(s: string, c: char): (k: nat)
    ensures k <= |s|
    ensures k < |s| ==> s[k] == c
    ensures forall j :: 0 <= j < k ==> s[j] != c
    ensures k == |s| <==> c !in s
  {
    if |s| == 0 then 0
    else if s[0] == c then 0
    else 1 + FirstIndex(s[1..], c)
  }

  /** The text of `s` before its first `c` (all of `s` when there is no `c`). */
  function Before(s: string, c: char): string {
    s[..FirstIndex(s, c)]
  }

  /** The text of `s` after its first `c`. */
  function After(s: string, c: char): string
    requires c in s
  {
    s[FirstIndex(s, c) + 1..]
  }

  /** `parts` with `sep` between consecutive elements. */
  function Join(parts: seq<string>, sep: string): string {
    if |parts| == 0 then ""
    else if |parts| == 1 then parts[0]
    else parts[0] + sep + Join(parts[1..], sep)
  }

  /** .NET `s.Split(c)`: the maximal `c`-free pieces of `s` between occurrences
      of `c`, empty pieces included. There is always one more piece than there
      are separators, so `"".Split(c)` is `[""]`. */
  function Split(s: string, c: char): (r: seq<string>)
    ensures |r| == multiset(s)[c] + 1
    ensures forall i :: 0 <= i < |r| ==> c !in r[i]
    ensures Join(r, [c]) == s
    decreases |s|
  {
    if |s| == 0 then [""]
    else
      var rest := Split(s[1..], c);
      SplitStep(s, c, rest);
      PushChar(s[0], c, rest)
  }

  /** The pieces of `[x] + t` from the pieces `rest` of `t`: a separator opens
      a new empty piece, any other character extends the first one. */
  function PushChar(x: char, c: char, rest: seq<string>): seq<string>
    requires |rest| > 0
  {
    if x == c then [""] + rest else [[x] + rest[0]] + rest[1..]
  }

  /** The three properties of `Split` carry over one step of `PushChar`. */
  lemma SplitStep(s: string, c: char, rest: seq<string>)
    requires |s| > 0
    requires |rest| == multiset(s[1..])[c] + 1
    requires forall i :: 0 <= i < |rest| ==> c !in rest[i]
    requires Join(rest, [c]) == s[1..]
    ensures |PushChar(s[0], c, rest)| == multiset(s)[c] + 1
    ensures forall i :: 0 <= i < |PushChar(s[0], c, rest)| ==> c !in PushChar(s[0], c, rest)[i]
    ensures Join(PushChar(s[0], c, rest), [c]) == s
  {
    HeadCount(s, c);
    var r := PushChar(s[0], c, rest);
    if s[0] == c {
      JoinEmptyHead(rest, [c]);
      forall i | 0 <= i < |r| ensures c !in r[i] {
        if i > 0 { assert r[i] == rest[i - 1]; }
      }
    } else {
      JoinExtendHead(s[0], rest, [c]);
      forall i | 0 <= i < |r| ensures c !in r[i] {
        if i > 0 { assert r[i] == rest[i]; }
      }
    }
  }

  lemma HeadCount(s: string, c: char)
    requires |s| > 0
    ensures s == [s[0]] + s[1..]
    ensures multiset(s)[c] == multiset(s[1..])[c] + (if s[0] == c then 1 else 0)
  {
    assert s == [s[0]] + s[1..];
  }

  lemma JoinEmptyHead(rest: seq<string>, sep: string)
    requires |rest| > 0
    ensures Join([""] + rest, sep) == sep + Join(rest, sep)
  {
    assert ([""] + rest)[1..] == rest;
  }

  lemma JoinExtendHead(x: char, rest: seq<string>, sep: string)
    requires |rest| > 0
    ensures Join([[x] + rest[0]] + rest[1..], sep) == [x] + Join(rest, sep)
  {
    var r := [[x] + rest[0]] + rest[1..];
    assert r[1..] == rest[1..];
    if |rest| > 1 {
      assert Join(rest, sep) == rest[0] + sep + Join(rest[1..], sep);
    }
  }

  lemma SplitWithoutSeparator(s: string, c: char)
    requires c !in s
    ensures Split(s, c) == [s]
  {
    assert multiset(s)[c] == 0;
  }

  /** Splitting at the first separator peels off the piece before it. */
  lemma {:induction false} SplitAtFirst(s: string, c: char)
    requires c in s
    ensures Split(s, c) == [Before(s, c)] + Split(After(s, c), c)
    decreases |s|
  {
    var t := s[1..];
    if s[0] == c {
      assert Before(s, c) == [];
      assert After(s, c) == t;
    } else {
      FirstAfterLetter(s, c);
      SplitAtFirst(t, c);
      SplitConsLetter(s, c);
    }
  }

  /** Dropping a leading letter other than `c` shortens the text before the
      first `c` by that letter and leaves the text after it alone. */
  lemma FirstAfterLetter(s: string, c: char)
    requires c in s && s[0] != c
    ensures c in s[1..]
    ensures Before(s, c) == [s[0]] + Before(s[1..], c)
    ensures After(s[1..], c) == After(s, c)
  {
    var k := FirstIndex(s, c);
    var t := s[1..];
    assert FirstIndex(t, c) == k - 1;
    assert t[k - 1] == s[k];
    assert s[..k] == [s[0]] + t[..k - 1];
    assert t[k..] == s[k + 1..];
  }

  /** One unfolding of `Split` at a first character that is not the separator. */
  lemma SplitConsLetter(s: string, c: char)
    requires |s| > 0 && s[0] != c
    ensures Split(s, c) == [[s[0]] + Split(s[1..], c)[0]] + Split(s[1..], c)[1..]
  {
  }

  /** If `s[m]` is the first `c` in `s`, then `m` is `FirstIndex(s, c)`. */
  lemma FirstIndexIs(s: string, c: char, m: nat)
    requires m < |s| && s[m] == c
    requires forall j :: 0 <= j < m ==> s[j] != c
    ensures FirstIndex(s, c) == m
  {
  }

  /** Round trip: splitting a join of separator-free pieces gives the pieces back. */
  lemma {:induction false} SplitJoin(xs: seq<string>, c: char)
    requires |xs| > 0
    requires forall i :: 0 <= i < |xs| ==> c !in xs[i]
    ensures Split(Join(xs, [c]), c) == xs
    decreases |xs|
  {
    if |xs| == 1 {
      SplitWithoutSeparator(xs[0], c);
    } else {
      SplitJoin(xs[1..], c);
      SplitJoinCons(xs, c);
    }
  }

  /** Two separator-free pieces around one separator split back into the two. */
  lemma SplitPair(a: string, b: string, c: char)
    requires c !in a && c !in b
    ensures Split(a + [c] + b, c) == [a, b]
  {
    assert Join([a, b], [c]) == a + [c] + b by { assert [a, b][1..] == [b]; }
    SplitJoin([a, b], c);
  }

  /** One step of `SplitJoin`: the first piece comes off at the first separator. */
  lemma SplitJoinCons(xs: seq<string>, c: char)
    requires |xs| > 1 && c !in xs[0]
    requires Split(Join(xs[1..], [c]), c) == xs[1..]
    ensures Split(Join(xs, [c]), c) == xs
  {
    JoinFirstPiece(xs, c);
    SplitAtFirst(Join(xs, [c]), c);
    assert xs == [xs[0]] + xs[1..];
  }

  /** In a join of separator-free pieces, the first separator ends the first piece. */
  lemma JoinFirstPiece(xs: seq<string>, c: char)
    requires |xs| > 1
    requires c !in xs[0]
    ensures c in Join(xs, [c])
    ensures Before(Join(xs, [c]), c) == xs[0]
    ensures After(Join(xs, [c]), c) == Join(xs[1..], [c])
  {
    var s := Join(xs, [c]);
    var tail := Join(xs[1..], [c]);
    assert s == xs[0] + [c] + tail;
    assert s[|xs[0]|] == c;
    FirstIndexIs(s, c, |xs[0]|);
    assert s[..|xs[0]|] == xs[0];
    assert s[|xs[0]| + 1..] == tail;
  }

  /** A join begins with its first piece and ends with its last one. */
  lemma {:induction false} JoinEnds(parts: seq<string>, sep: string)
    requires |parts| > 0
    ensures var r := Join(parts, sep);
      && |r| >= |parts[0]| && r[..|parts[0]|] == parts[0]
      && |r| >= |parts[|parts| - 1]| && r[|r| - |parts[|parts| - 1]|..] == parts[|parts| - 1]
    decreases |parts|
  {
    if |parts| > 1 {
      JoinEnds(parts[1..], sep);
      var tail := Join(parts[1..], sep);
      assert Join(parts, sep) == parts[0] + sep + tail;
      assert parts[1..][|parts[1..]| - 1] == parts[|parts| - 1];
    }
  }

  /** Joining two non-empty lists of pieces puts one separator at the seam. */
  lemma {:induction false} JoinAppend(xs: seq<string>, ys: seq<string>, sep: string)
    requires |xs| > 0 && |ys| > 0
    ensures Join(xs + ys, sep) == Join(xs, sep) + sep + Join(ys, sep)
    decreases |xs|
  {
    if |xs| == 1 {
      assert (xs + ys)[1..] == ys;
    } else {
      JoinAppend(xs[1..], ys, sep);
      assert (xs + ys)[1..] == xs[1..] + ys;
    }
  }

  /** Splitting at a separator splices the splits of the two sides. */
  lemma SplitAppend(a: string, b: string, c: char)
    ensures Split(a + [c] + b, c) == Split(a, c) + Split(b, c)
  {
    var xs := Split(a, c);
    var ys := Split(b, c);
    JoinAppend(xs, ys, [c]);
    assert forall i :: 0 <= i < |xs + ys| ==> c !in (xs + ys)[i] by {
      forall i | 0 <= i < |xs + ys| ensures c !in (xs + ys)[i] {
        if i < |xs| { assert (xs + ys)[i] == xs[i]; } else { assert (xs + ys)[i] == ys[i - |xs|]; }
      }
    }
    SplitJoin(xs + ys, c);
  }

  /** A join of three `c`-free pieces contains `c` exactly at the two seams. */
  lemma JoinThree(a: string, b: string, d: string, c: char)
    ensures Join([a, b, d], [c]) == a + [c] + b + [c] + d
  {
    assert [a, b, d][1..] == [b, d];
    assert [b, d][1..] == [d];
    assert Join([b, d], [c]) == b + [c] + d;
    assert Join([a, b, d], [c]) == a + [c] + (b + [c] + d);
  }

  /* ---------------------------------------------------------------------- */
  /* Ordinal comparison                                                      */
  /* ---------------------------------------------------------------------- */

  /** Lexicographic `a <= b` by character value, a proper prefix sorting first.
      This is the ordinal stand-in for .NET `string.CompareTo`, which compares
      under the current culture; the two agree on ASCII letters and digits of
      one case but may differ on punctuation, mixed case and non-ASCII text. */
  predicate StrLe(a: string, b: string)
    decreases |a|
  {
    |a| == 0 || (|b| > 0 && (a[0] < b[0] || (a[0] == b[0] && StrLe(a[1..], b[1..]))))
  }

  /** A common prefix does not change the order. */
  lemma {:induction false} StrLeCommonPrefix(p: string, a: string, b: string)
    requires StrLe(a, b)
    ensures StrLe(p + a, p + b)
    decreases |p|
  {
    if |p| > 0 {
      StrLeCommonPrefix(p[1..], a, b);
      assert (p + a)[1..] == p[1..] + a;
      assert (p + b)[1..] == p[1..] + b;
      assert (p + a)[0] == (p + b)[0];
    } else {
      assert p + a == a && p + b == b;
    }
  }

  lemma StrLeReflexive(a: string)
    ensures StrLe(a, a)
  {
  }

  lemma {:induction false} StrLeTotal(a: string, b: string)
    ensures StrLe(a, b) || StrLe(b, a)
    decreases |a|
  {
    if |a| > 0 && |b| > 0 && a[0] == b[0] {
      StrLeTotal(a[1..], b[1..]);
    }
  }

  lemma {:induction false} StrLeAntisymmetric(a: string, b: string)
    requires StrLe(a, b) && StrLe(b, a)
    ensures a == b
    decreases |a|
  {
    if |a| > 0 {
      StrLeAntisymmetric(a[1..], b[1..]);
      assert a == [a[0]] + a[1..];
      assert b == [b[0]] + b[1..];
    }
  }

  lemma {:induction false} StrLeTransitive(a: string, b: string, d: string)
    requires StrLe(a, b) && StrLe(b, d)
    ensures StrLe(a, d)
    decreases |a|
  {
    if |a| > 0 && a[0] == b[0] && b[0] == d[0] {
      StrLeTransitive(a[1..], b[1..], d[1..]);
    }
  }

  /* ---------------------------------------------------------------------- */
  /* ASCII case mapping                                                      */
  /* ---------------------------------------------------------------------- */

  function AsciiUpper(c: char): char {
    if 'a' <= c <= 'z' then (c as int - 32) as char else c
  }

  function AsciiLower(c: char): char {
    if 'A' <= c <= 'Z' then (c as int + 32) as char else c
  }

  /** `s.ToUpper()` restricted to ASCII letters: .NET upper-cases under the
      current culture, so non-ASCII letters (and, under a Turkish culture, `i`)
      may map differently there; here every other character is kept. */
  function ToUpperAscii(s: string): (r: string)
    ensures |r| == |s|
    ensures forall i :: 0 <= i < |r| ==> !('a' <= r[i] <= 'z')
    ensures forall i :: 0 <= i < |s| && !('a' <= s[i] <= 'z') ==> r[i] == s[i]
    ensures forall i :: 0 <= i < |s| && 'a' <= s[i] <= 'z' ==> r[i] as int == s[i] as int - 32
  {
    seq(|s|, i requires 0 <= i < |s| => AsciiUpper(s[i]))
  }

  /** Case-insensitive equality, folding ASCII letters only: the stand-in for
      `String.Compare(a, b, StringComparison.CurrentCultureIgnoreCase) == 0`,
      whose culture-dependent folding of non-ASCII letters is not modelled. */
  predicate EqualsIgnoreCase(a: string, b: string): (r: bool)
    ensures r <==> ToUpperAscii(a) == ToUpperAscii(b)
    ensures a == b ==> r
  {
    |a| == |b| && forall i :: 0 <= i < |a| ==> AsciiLower(a[i]) == AsciiLower(b[i])
  }

  /* ---------------------------------------------------------------------- */
  /* White space and Trim                                                    */
  /* ---------------------------------------------------------------------- */

  /** .NET `char.IsWhiteSpace`: the Unicode space, line and paragraph
      separators together with U+0009..U+000D and U+0085. */
  predicate IsWhiteSpace(c: char) {
    || '\U{0009}' <= c <= '\U{000D}'
    || c == ' ' || c == '\U{0085}' || c == '\U{00A0}' || c == '\U{1680}'
    || '\U{2000}' <= c <= '\U{200A}'
    || c == '\U{2028}' || c == '\U{2029}' || c == '\U{202F}' || c == '\U{205F}'
    || c == '\U{3000}'
  }

  /** `s` without its leading white space. */
  function TrimStart(s: string): (r: string)
    ensures |r| <= |s| && r == s[|s| - |r|..]
    ensures forall i :: 0 <= i < |s| - |r| ==> IsWhiteSpace(s[i])
    ensures |r| == 0 || !IsWhiteSpace(r[0])
  {
    if |s| > 0 && IsWhiteSpace(s[0]) then TrimStart(s[1..]) else s
  }

  /** `s` without its trailing white space. */
  function TrimEnd(s: string): (r: string)
    ensures |r| <= |s| && r == s[..|r|]
    ensures forall i :: |r| <= i < |s| ==> IsWhiteSpace(s[i])
    ensures |r| == 0 || !IsWhiteSpace(r[|r| - 1])
  {
    if |s| > 0 && IsWhiteSpace(s[|s| - 1]) then TrimEnd(s[..|s| - 1]) else s
  }

  /** .NET `s.Trim()`. */
  function Trim(s: string): string {
    TrimEnd(TrimStart(s))
  }

  /** `Trim` empties exactly the strings made only of white space. */
  lemma TrimEmptyIffWhiteSpace(s: string)
    ensures Trim(s) == "" <==> forall i :: 0 <= i < |s| ==> IsWhiteSpace(s[i])
  {
    var t := TrimStart(s);
    if |t| > 0 {
      assert !IsWhiteSpace(t[0]);
      assert TrimEnd(t) != "";
      assert !IsWhiteSpace(s[|s| - |t|]);
    }
  }

  /* ---------------------------------------------------------------------- */
  /* Decimal formatting                                                      */
  /* ---------------------------------------------------------------------- */

  predicate IsDigit(c: char) {
    '0' <= c <= '9'
  }

  function DigitChar(d: nat): (c: char)
    requires d < 10
    ensures IsDigit(c) && c as int - '0' as int == d
  {
    ('0' as int + d) as char
  }

  /** Shortest decimal numeral of `n`, as `n.ToString()` prints it. */
  function NatToDecimal(n: nat): (r: string)
    ensures |r| >= 1
    ensures forall i :: 0 <= i < |r| ==> IsDigit(r[i])
    decreases n
  {
    if n < 10 then [DigitChar(n)] else NatToDecimal(n / 10) + [DigitChar(n % 10)]
  }

  /** The value a string of decimal digits denotes. */
  function DecimalValue(s: string): nat
    requires forall i :: 0 <= i < |s| ==> IsDigit(s[i])
  {
    if |s| == 0 then 0
    else
      assert IsDigit(s[|s| - 1]);
      DecimalValue(s[..|s| - 1]) * 10 + (s[|s| - 1] as int - '0' as int)
  }

  lemma {:induction false} DecimalRoundTrip(n: nat)
    ensures DecimalValue(NatToDecimal(n)) == n
    decreases n
  {
    if n >= 10 {
      var r := NatToDecimal(n);
      assert r[..|r| - 1] == NatToDecimal(n / 10);
      DecimalRoundTrip(n / 10);
    }
  }

  /** `n.ToString()` for a signed integer, with a leading `-` when negative. */
  function IntToDecimal(n: int): (r: string)
    ensures |r| >= 1
    ensures r[0] == '-' <==> n < 0
  {
    if n < 0 then "-" + NatToDecimal(-n) else NatToDecimal(n)
  }

  /** Distinct integers print differently. */
  lemma IntToDecimalInjective(m: int, n: int)
    requires IntToDecimal(m) == IntToDecimal(n)
    ensures m == n
  {
    if m < 0 {
      assert n < 0;
      var a := "-" + NatToDecimal(-m);
      var b := "-" + NatToDecimal(-n);
      assert a[1..] == NatToDecimal(-m);
      assert b[1..] == NatToDecimal(-n);
      NatToDecimalInjective(-m, -n);
    } else {
      assert n >= 0;
      NatToDecimalInjective(m, n);
    }
  }

  lemma NatToDecimalInjective(a: nat, b: nat)
    requires NatToDecimal(a) == NatToDecimal(b)
    ensures a == b
  {
    DecimalRoundTrip(a);
    DecimalRoundTrip(b);
  }
}

=== FILE: vectors.dfy ===
/** Concrete vectors: the client's token-exchange examples, the request-URL
    port rule, the quirks of the strict percent-encoder, and the parameter
    normalization example of Appendix A.5.1 of OAuth Core 1.0. */
module Vectors {
  import opened Wrappers
  import opened Strings
  import opened Encoding
  import opened Parameters
  import opened Signing
  import opened Client

  const CallbackUrl: string := "http://callback/url"
  const AuthorizeUrl: string := "http://authorize/url"
  const RequestToken: string := "request_token"
  const RequestSecret: string := "request_secret"

  const TestConfig: ResourceConfig := ResourceConfig(
    consumerKey := "consumer_key",
    consumerSecret := "consumer_secret",
    callbackUrl := CallbackUrl,
    requestTokenUrl := "http://request/token/url",
    authorizeUrl := AuthorizeUrl,
    accessTokenUrl := "http://access/token/url")

  /** The request-token response of the client's tests, `key=value` pairs
      joined by `&`. */
  const RequestTokenBody: string :=
    Pair("oauth_token", RequestToken) + "&" +
    Pair("oauth_token_secret", RequestSecret) + "&" +
    Pair("oauth_callback_confirmed", "true")

  /** The access-token response of the client's tests. */
  const AccessTokenBody: string :=
    Pair("oauth_token", RequestToken) + "&" + Pair("oauth_token_secret", RequestSecret)

  function Pair(name: string, value: string): string {
    name + "=" + value
  }

  /** A name or value the parser reads as one piece. */
  predicate Plain(s: string) {
    '&' !in s && '=' !in s
  }

  /** A two-pair body parses to its two values. */
  lemma TwoValues(n1: string, v1: string, n2: string, v2: string)
    requires Plain(n1) && Plain(v1) && Plain(n2) && Plain(v2)
    ensures GetTokenValues(Pair(n1, v1) + "&" + Pair(n2, v2)) == Success([v1, v2])
  {
    var a := Pair(n1, v1);
    var b := Pair(n2, v2);
    var body := a + "&" + b;
    TwoSegments(a, b);
    PairValue(n1, v1);
    PairValue(n2, v2);
    SegmentValuesPair(a, b);
    TokenValuesOfSegments(body, [a, b]);
  }

  lemma TwoSegments(a: string, b: string)
    requires '&' !in a && '&' !in b
    ensures Split(a + "&" + b, '&') == [a, b]
  {
    SplitWithoutSeparator(a, '&');
    SplitWithoutSeparator(b, '&');
    SplitAppend(a, b, '&');
  }

  /** A three-pair body parses to its three values. */
  lemma ThreeValues(n1: string, v1: string, n2: string, v2: string, n3: string, v3: string)
    requires Plain(n1) && Plain(v1) && Plain(n2) && Plain(v2) && Plain(n3) && Plain(v3)
    ensures GetTokenValues(Pair(n1, v1) + "&" + Pair(n2, v2) + "&" + Pair(n3, v3)) == Success([v1, v2, v3])
  {
    var a := Pair(n1, v1);
    var b := Pair(n2, v2);
    var d := Pair(n3, v3);
    var body := a + "&" + b + "&" + d;
    ThreeSegments(a, b, d);
    PairValue(n1, v1);
    PairValue(n2, v2);
    PairValue(n3, v3);
    SegmentValuesTriple(a, b, d);
    TokenValuesOfSegments(body, [a, b, d]);
  }

  lemma ThreeSegments(a: string, b: string, d: string)
    requires '&' !in a && '&' !in b && '&' !in d
    ensures Split(a + "&" + b + "&" + d, '&') == [a, b, d]
  {
    JoinThree(a, b, d, '&');
    SplitJoin([a, b, d], '&');
  }

  lemma SegmentValuesTriple(a: string, b: string, d: string)
    requires '=' in a && '=' in b && '=' in d
    ensures SegmentValues([a, b, d]) == Success([ValueField(a), ValueField(b), ValueField(d)])
  {
    SegmentValuesPair(b, d);
    SegmentValuesCons(a, [b, d]);
    assert [a] + [b, d] == [a, b, d];
    assert [ValueField(a)] + [ValueField(b), ValueField(d)] == [ValueField(a), ValueField(b), ValueField(d)];
  }

  lemma SegmentValuesPair(a: string, b: string)
    requires '=' in a && '=' in b
    ensures SegmentValues([a, b]) == Success([ValueField(a), ValueField(b)])
  {
    var x, y := ValueField(a), ValueField(b);
    assert SegmentValues([]) == Success([]);
    SegmentValuesCons(b, []);
    assert [b] + [] == [b];
    assert [y] + [] == [y];
    assert SegmentValues([b]) == Success([y]);
    SegmentValuesCons(a, [b]);
    assert [a] + [b] == [a, b];
    assert [x] + [y] == [x, y];
  }

  lemma PlainLiterals()
    ensures Plain("oauth_token") && Plain("oauth_token_secret") && Plain("oauth_callback_confirmed")
    ensures Plain(RequestToken) && Plain(RequestSecret) && Plain("true")
  {
    LowerWordIsPlain("oauth_token");
    LowerWordIsPlain("oauth_token_secret");
    LowerWordIsPlain("oauth_callback_confirmed");
    LowerWordIsPlain(RequestToken);
    LowerWordIsPlain(RequestSecret);
    LowerWordIsPlain("true");
  }

  /** Text made of letters and `_` is plain. */
  lemma LowerWordIsPlain(s: string)
    requires forall i :: 0 <= i < |s| ==> 'a' <= s[i] <= 'z' || s[i] == '_'
    ensures Plain(s)
  {
    forall i | 0 <= i < |s| ensures s[i] != '&' && s[i] != '=' { }
  }

  /** With any fetch that answers the request-token body, the record is the
      expected one: token, secret, confirmation, the configured callback and
      the authorize URL carrying the token. */
  lemma RequestTokenVector(query: string, fetch: string -> Result<string, string>)
    requires fetch(FetchUrl(TestConfig.requestTokenUrl, query)) == Success(RequestTokenBody)
    ensures GetRequestTokenInfo(TestConfig, query, fetch)
         == Success(RequestTokenInfo(
              requestToken := RequestToken,
              requestSecret := RequestSecret,
              verifier := None,
              callbackConfirmed := "true",
              callbackUrl := CallbackUrl,
              accessUrl := AuthorizeUrl + "?oauth_token=" + RequestToken))
  {
    RequestTokenBodyRecord();
  }

  /** The record read from the request-token body of the tests. */
  lemma RequestTokenBodyRecord()
    ensures RequestTokenFromResponse(TestConfig, RequestTokenBody)
         == RequestTokenFromValues(TestConfig, [RequestToken, RequestSecret, "true"])
  {
    RequestTokenBodyValues();
    RecordsFromValues(TestConfig, RequestTokenBody, [RequestToken, RequestSecret, "true"]);
  }

  /** The values read from the request-token body of the tests. */
  lemma RequestTokenBodyValues()
    ensures GetTokenValues(RequestTokenBody) == Success([RequestToken, RequestSecret, "true"])
  {
    PlainLiterals();
    ThreeValues("oauth_token", RequestToken, "oauth_token_secret", RequestSecret, "oauth_callback_confirmed", "true");
  }

  /** With any fetch that answers the access-token body, the record carries the
      token and the secret. */
  lemma AccessTokenVector(query: string, fetch: string -> Result<string, string>)
    requires fetch(FetchUrl(TestConfig.accessTokenUrl, query)) == Success(AccessTokenBody)
    ensures GetAccessToken(TestConfig, query, fetch) == Success(AccessTokenInfo(RequestToken, RequestSecret))
  {
    PlainLiterals();
    TwoValues("oauth_token", RequestToken, "oauth_token_secret", RequestSecret);
  }

  /** A body with only two segments is too short for a request-token record. */
  lemma ShortBodyVector()
    ensures RequestTokenFromResponse(TestConfig, AccessTokenBody) == Failure(MissingValue(2))
  {
    PlainLiterals();
    TwoValues("oauth_token", RequestToken, "oauth_token_secret", RequestSecret);
  }

  /** A failed fetch surfaces as a transport error, not as a record. */
  lemma TransportFailureVector(query: string, fetch: string -> Result<string, string>)
    requires fetch(FetchUrl(TestConfig.accessTokenUrl, query)) == Failure("timeout")
    ensures GetAccessToken(TestConfig, query, fetch) == Failure(Transport("timeout"))
  {
  }

  /** A segment without `=` fails, naming that segment. */
  lemma MissingEqualsVector()
    ensures GetTokenValues(Pair("a", "1") + "&" + "b") == Failure(MissingEquals(1))
  {
    var a := Pair("a", "1");
    assert a[1] == '=';
    TwoSegments(a, "b");
    assert SegmentValues(["b"]) == Failure(0);
    assert ["a=1", "b"][1..] == ["b"];
    TokenValuesFailure(a + "&" + "b", [a, "b"]);
  }

  /** A trailing `&` leaves an empty last segment, which fails. */
  lemma TrailingAmpersandVector()
    ensures GetTokenValues(Pair("a", "1") + "&") == Failure(MissingEquals(1))
  {
    var a := Pair("a", "1");
    assert a[1] == '=';
    TwoSegments(a, "");
    assert a + "&" + "" == a + "&";
    assert SegmentValues([""]) == Failure(0);
    assert [a, ""][1..] == [""];
    TokenValuesFailure(a + "&", [a, ""]);
  }

  /* ---------------------------------------------------------------------- */
  /* Request URLs                                                            */
  /* ---------------------------------------------------------------------- */

  /** Port 80 is left out of an `http` URL. */
  lemma HttpDefaultPortVector()
    ensures ConstructRequestUrl(Some(Uri("http", "example.com", 80, "/request"))) == Success("http://example.com/request")
  {
    var u := Uri("http", "example.com", 80, "/request");
    assert IsDefaultPort(u);
    assert RequestUrl(u) == "http" + "://" + "example.com" + "" + "/request";
    assert "http" + "://" + "example.com" + "" + "/request" == "http://example.com/request";
  }

  /** Port 443 is left out of an `https` URL. */
  lemma HttpsDefaultPortVector()
    ensures ConstructRequestUrl(Some(Uri("https", "example.com", 443, "/"))) == Success("https://example.com/")
  {
    var u := Uri("https", "example.com", 443, "/");
    assert IsDefaultPort(u);
    assert RequestUrl(u) == "https" + "://" + "example.com" + "" + "/";
    assert "https" + "://" + "example.com" + "" + "/" == "https://example.com/";
  }

  /** A port other than the scheme's default is kept. */
  lemma OtherPortVector()
    ensures ConstructRequestUrl(Some(Uri("http", "example.com", 8080, "/a"))) == Success("http://example.com:8080/a")
  {
    DecimalVectors();
    assert RequestUrl(Uri("http", "example.com", 8080, "/a")) == "http://example.com" + ":" + "8080" + "/a";
    assert "http://example.com" + ":" + "8080" + "/a" == "http://example.com:8080/a";
  }

  /** The default port of the other scheme is kept too. */
  lemma CrossSchemePortVector()
    ensures ConstructRequestUrl(Some(Uri("https", "example.com", 80, "/a"))) == Success("https://example.com:80/a")
  {
    DecimalVectors();
    assert RequestUrl(Uri("https", "example.com", 80, "/a")) == "https://example.com" + ":" + "80" + "/a";
    assert "https://example.com" + ":" + "80" + "/a" == "https://example.com:80/a";
  }

  lemma DecimalVectors()
    ensures IntToDecimal(8080) == "8080"
    ensures IntToDecimal(80) == "80"
  {
    assert NatToDecimal(8) == "8";
    assert NatToDecimal(80) == "8" + "0";
    assert NatToDecimal(808) == "80" + "8";
    assert NatToDecimal(8080) == "808" + "0";
  }

  /* ---------------------------------------------------------------------- */
  /* Strict encoding                                                         */
  /* ---------------------------------------------------------------------- */

  /** A one-character string encodes as that character. */
  lemma EncodeSingle(c: char)
    ensures EncodeChars([c]) == EncodeChar(c)
  {
    assert [c][1..] == [];
  }

  /** An ASCII character outside the unreserved set, other than `%`, becomes
      the escape of its one byte. */
  lemma AsciiEscape(c: char)
    requires c as int < 0x80 && !IsUnreserved(c) && c != '%'
    ensures EncodeChars([c]) == PercentEncodeByte(c as int)
  {
    EncodeSingle(c);
    assert UnitBytes(c) == [c as int];
    assert PercentEncodeBytes([c as int]) == PercentEncodeByte(c as int) + PercentEncodeBytes([]);
  }

  /** A one-character ASCII string outside the unreserved set, other than `%`,
      is the escape of its byte, untouched by the `%%` rewrite. */
  lemma StrictAscii(c: char)
    requires c as int < 0x80 && !IsUnreserved(c) && c != '%'
    ensures UrlEncodeStrict([c]) == PercentEncodeByte(c as int)
  {
    AsciiEscape(c);
    StrictWithoutPercent([c]);
  }

  /** The escape of a byte from 0x10 up: two upper-case digits. */
  lemma HighEscape(b: Byte, hi: char, lo: char)
    requires b >= 16 && hi == HexDigit(b / 16) && lo == HexDigit(b % 16)
    ensures PercentEncodeByte(b) == ['%', hi, lo]
  {
  }

  /** The escape of a small byte that is not padded: one digit. */
  lemma LowEscape(b: Byte, d: char)
    requires b < 16 && !IsTwoDigit(b) && d == HexDigit(b)
    ensures PercentEncodeByte(b) == ['%', d]
  {
  }

  /** The escape of a padded control byte: a zero, then its digit. */
  lemma PaddedEscape(b: Byte, d: char)
    requires b < 16 && IsTwoDigit(b) && d == HexDigit(b)
    ensures PercentEncodeByte(b) == ['%', '0', d]
  {
  }

  /** Three bytes encode as their three escapes in order. */
  lemma ThreeBytes(a: Byte, b: Byte, c: Byte)
    ensures PercentEncodeBytes([a, b, c]) == PercentEncodeByte(a) + PercentEncodeByte(b) + PercentEncodeByte(c)
  {
    assert [a, b, c][1..] == [b, c];
    assert [b, c][1..] == [c];
    assert [c][1..] == [];
    assert PercentEncodeBytes([c]) == PercentEncodeByte(c) + PercentEncodeBytes([]);
    assert PercentEncodeBytes([b, c]) == PercentEncodeByte(b) + PercentEncodeBytes([c]);
    assert PercentEncodeBytes([a, b, c]) == PercentEncodeByte(a) + PercentEncodeBytes([b, c]);
  }

  /** Control bytes 8, 10 and 13 are padded to two digits. */
  lemma StrictPaddedVectors()
    ensures UrlEncodeStrict("\n") == "%0A"
    ensures UrlEncodeStrict("\U{0008}") == "%08"
    ensures UrlEncodeStrict("\r") == "%0D"
  {
    StrictPadded('\n', 'A');
    StrictPadded('\U{0008}', '8');
    StrictPadded('\r', 'D');
  }

  /** Other bytes below 16 get a single digit. */
  lemma StrictUnpaddedVectors()
    ensures UrlEncodeStrict("\U{0001}") == "%1"
    ensures UrlEncodeStrict("\U{000B}") == "%B"
  {
    StrictUnpadded('\U{0001}', '1');
    StrictUnpadded('\U{000B}', 'B');
  }

  lemma StrictPadded(c: char, d: char)
    requires c as int < 16 && IsTwoDigit(c as int) && d == HexDigit(c as int)
    ensures UrlEncodeStrict([c]) == ['%', '0', d]
  {
    StrictAscii(c);
    PaddedEscape(c as int, d);
  }

  lemma StrictUnpadded(c: char, d: char)
    requires c as int < 16 && !IsTwoDigit(c as int) && d == HexDigit(c as int)
    ensures UrlEncodeStrict([c]) == ['%', d]
  {
    StrictAscii(c);
    LowEscape(c as int, d);
  }

  /** A literal `%` passes through and meets the rewrite: `% ` gives `%25%20`. */
  lemma StrictPercentSpaceVector()
    ensures UrlEncodeStrict("% ") == "%25%20"
  {
    EncodeSingle('%');
    AsciiEscape(' ');
    EncodeCharsAppend("%", " ");
    assert "%" + " " == "% ";
    var e := EncodeChars("% ");
    assert e == "%%20";
    assert e[2..] == "20";
    assert ReplaceDoublePercent("20") == "20";
  }

  /** `%%` becomes `%25%` left to right, so a third `%` is left bare. */
  lemma StrictTriplePercentVector()
    ensures UrlEncodeStrict("%%%") == "%25%%"
  {
    EncodeSingle('%');
    EncodeCharsAppend("%", "%");
    EncodeCharsAppend("%%", "%");
    assert "%" + "%" == "%%" && "%%" + "%" == "%%%";
    var f := EncodeChars("%%%");
    assert f == "%%%";
    assert f[2..] == "%";
  }

  /** Under an escaper that leaves parentheses literal, as `Uri.EscapeDataString`
      does before .NET 4.5, `a(b)` comes out as `a%28b%29`. */
  lemma RelaxedParenthesesVector(escape: string -> string)
    requires escape("a(b)") == "a(b)"
    ensures UrlEncodeRelaxed(escape, "a(b)") == "a%28b%29"
  {
    RelaxedOpenStep();
    RelaxedCloseStep();
  }

  /** The first replacement turns `a(b)` into `a%28b)`. */
  lemma RelaxedOpenStep()
    ensures ReplaceChar("a(b)", '(', OpenParenEscape) == "a%28b)"
  {
    ReplaceCharCons(')', "", '(', OpenParenEscape);
    ReplaceCharCons('b', ")", '(', OpenParenEscape);
    ReplaceCharCons('(', "b)", '(', OpenParenEscape);
    ReplaceCharCons('a', "(b)", '(', OpenParenEscape);
    assert [')'] + "" == ")" && ['b'] + ")" == "b)" && ['('] + "b)" == "(b)" && ['a'] + "(b)" == "a(b)";
  }

  /** The second replacement turns `a%28b)` into `a%28b%29`. */
  lemma RelaxedCloseStep()
    ensures ReplaceChar("a%28b)", ')', CloseParenEscape) == "a%28b%29"
  {
    var u, v := "a%28b", ")";
    ReplaceCharAppend(u, v, ')', CloseParenEscape);
    CloseFreePrefix();
    CloseAlone();
    CloseStepShapes();
  }

  /** The literal concatenations `RelaxedCloseStep` needs, kept out of its body:
      next to the `ReplaceChar` facts there they make the proof too costly. */
  lemma CloseStepShapes()
    ensures "a%28b" + ")" == "a%28b)"
    ensures "a%28b" + CloseParenEscape == "a%28b%29"
  {
  }

  /** `a%28b` holds no `)`, so the second replacement keeps it. */
  lemma CloseFreePrefix()
    ensures ReplaceChar("a%28b", ')', CloseParenEscape) == "a%28b"
  {
    assert ')' !in "a%28b";
  }

  /** A lone `)` becomes `%29`. */
  lemma CloseAlone()
    ensures ReplaceChar(")", ')', CloseParenEscape) == CloseParenEscape
  {
    ReplaceCharCons(')', "", ')', CloseParenEscape);
    assert [')'] + "" == ")";
  }

  /** An escape already in the input is passed through. */
  lemma StrictEscapedInputVector()
    ensures UrlEncodeStrict("%41") == "%41"
  {
    EncodeSingle('%');
    EncodeCharsAppend("%", "41");
    assert "%" + "41" == "%41";
    var g := EncodeChars("%41");
    assert g == "%41";
    assert NoDoublePercent(g);
  }

  /** The strict encoding is not injective: a one-digit escape followed by a
      digit reads like a two-digit escape. */
  lemma StrictDigitCollision()
    ensures UrlEncodeStrict("\U{0001}0") == UrlEncodeStrict("\U{0010}") == "%10"
  {
    StrictOneThenZero();
    StrictAscii('\U{0010}');
    HighEscape(16, '1', '0');
  }

  lemma StrictOneThenZero()
    ensures UrlEncodeStrict("\U{0001}0") == "%10"
  {
    assert EncodeChars("\U{0001}0") == "%1" + "0" by {
      EncodeCharsAppend("\U{0001}", "0");
      assert "\U{0001}" + "0" == "\U{0001}0";
      AsciiEscape('\U{0001}');
      LowEscape(1, '1');
    }
    StrictWithoutPercent("\U{0001}0");
  }

  /** The strict encoding is not injective: an escape in the input reads like
      the escape of the character. */
  lemma StrictEscapeCollision()
    ensures UrlEncodeStrict("%20") == UrlEncodeStrict(" ") == "%20"
  {
    StrictAscii(' ');
    StrictEscapedSpace();
  }

  lemma StrictEscapedSpace()
    ensures UrlEncodeStrict("%20") == "%20"
  {
    EncodeCharsAppend("%", "20");
    EncodeSingle('%');
    assert "%" + "20" == "%20";
    assert NoDoublePercent(EncodeChars("%20"));
  }

  /** The escape of the UTF-8 replacement character. */
  lemma ReplacementEscape()
    ensures PercentEncodeBytes(ReplacementBytes) == "%EF%BF%BD"
  {
    ThreeBytes(0xEF, 0xBF, 0xBD);
    HighEscape(0xEF, 'E', 'F');
    HighEscape(0xBF, 'B', 'F');
    HighEscape(0xBD, 'B', 'D');
  }

  /** A character outside the Basic Multilingual Plane is two UTF-16 units,
      each a lone surrogate that encodes as the replacement character. */
  lemma SupplementaryEscape(c: char)
    requires c as int >= 0x1_0000
    ensures EncodeChar(c) == "%EF%BF%BD%EF%BF%BD"
  {
    SupplementaryUnits(c);
    ReplacementTwice();
  }

  lemma SupplementaryUnits(c: char)
    requires c as int >= 0x1_0000
    ensures EncodeChar(c) == PercentEncodeBytes(ReplacementBytes + ReplacementBytes)
  {
    assert !IsUnreserved(c) && c != '%';
  }

  lemma ReplacementTwice()
    ensures PercentEncodeBytes(ReplacementBytes + ReplacementBytes) == "%EF%BF%BD%EF%BF%BD"
  {
    PercentEncodeBytesAppend(ReplacementBytes, ReplacementBytes);
    ReplacementEscape();
  }

  lemma StrictSupplementaryVector()
    ensures UrlEncodeStrict("\U{1F600}") == "%EF%BF%BD%EF%BF%BD"
  {
    StrictSingle('\U{1F600}');
    SupplementaryEscape('\U{1F600}');
  }

  /** A one-character string other than `%` is strict-encoded as that character. */
  lemma StrictSingle(c: char)
    requires c != '%'
    ensures UrlEncodeStrict([c]) == EncodeChar(c)
  {
    EncodeSingle(c);
    StrictWithoutPercent([c]);
  }

  /* ---------------------------------------------------------------------- */
  /* Appendix A.5.1 of OAuth Core 1.0: the photo request                     */
  /* ---------------------------------------------------------------------- */

  const PhotoFile: WebParameter := WebParameter("file", "vacation.jpg")
  const PhotoSize: WebParameter := WebParameter("size", "original")
  const PhotoConsumerKey: WebParameter := WebParameter("oauth_consumer_key", "dpf43f3p2l4k3l03")
  const PhotoToken: WebParameter := WebParameter("oauth_token", "nnch734d00sl2jdk")
  const PhotoMethod: WebParameter := WebParameter("oauth_signature_method", "HMAC-SHA1")
  const PhotoTimestamp: WebParameter := WebParameter("oauth_timestamp", "1191242096")
  const PhotoNonce: WebParameter := WebParameter("oauth_nonce", "kllo9940pd9333jh")
  const PhotoVersion: WebParameter := WebParameter("oauth_version", "1.0")

  /** The request parameters of the example, in the order they are listed. */
  const PhotoParameters: seq<WebParameter> :=
    [PhotoFile, PhotoSize, PhotoConsumerKey, PhotoToken, PhotoMethod, PhotoTimestamp, PhotoNonce, PhotoVersion]

  /** The same parameters sorted by name. */
  const PhotoSorted: seq<WebParameter> :=
    [PhotoFile, PhotoConsumerKey, PhotoNonce, PhotoMethod, PhotoTimestamp, PhotoToken, PhotoVersion, PhotoSize]

  /** The normalized request parameters of the example: its eight pairs,
      sorted by name and separated by `&`. */
  lemma PhotoNormalizedVector()
    ensures NormalizeRequestParameters(PhotoParameters) ==
      Pair("file", "vacation.jpg") + "&" + (
      Pair("oauth_consumer_key", "dpf43f3p2l4k3l03") + "&" + (
      Pair("oauth_nonce", "kllo9940pd9333jh") + "&" + (
      Pair("oauth_signature_method", "HMAC-SHA1") + "&" + (
      Pair("oauth_timestamp", "1191242096") + "&" + (
      Pair("oauth_token", "nnch734d00sl2jdk") + "&" + (
      Pair("oauth_version", "1.0") + "&" +
      Pair("size", "original")))))))
  {
    PhotoPrepared();
    PhotoSortedInOrder();
    PhotoPermutation();
    SortParametersCharacterized(PhotoParameters, PhotoSorted);
    ConcatenateEight(PhotoFile, PhotoConsumerKey, PhotoNonce, PhotoMethod, PhotoTimestamp, PhotoToken, PhotoVersion, PhotoSize);
  }

  /** Two parameters at distinct places can trade places without changing
      the multiset. */
  lemma SwapApart(s: seq<WebParameter>, x: WebParameter, m: seq<WebParameter>, y: WebParameter, t: seq<WebParameter>)
    ensures multiset(s + [x] + m + [y] + t) == multiset(s + [y] + m + [x] + t)
  {
  }

  /** The second parameter can move to the end without changing the multiset. */
  lemma SecondToLast(x: WebParameter, y: WebParameter, p: seq<WebParameter>, q: seq<WebParameter>)
    requires multiset(p) == multiset(q)
    ensures multiset([x, y] + p) == multiset([x] + q + [y])
  {
    assert [x, y] + p == [x] + [y] + p;
  }

  /** The display shapes `EightPermutation` needs. They are kept out of its
      body: next to the multiset facts there they make the proof too costly. */
  lemma SixShape(c: WebParameter, d: WebParameter, e: WebParameter, f: WebParameter, g: WebParameter, h: WebParameter)
    ensures [c] + [d] + [e, f] + [g] + [h] == [c, d, e, f, g, h]
  {
  }

  lemma EightShape(a: WebParameter, b: WebParameter, c: WebParameter, d: WebParameter,
                   e: WebParameter, f: WebParameter, g: WebParameter, h: WebParameter)
    ensures [a, b] + [c, d, e, f, g, h] == [a, b, c, d, e, f, g, h]
    ensures [a] + [c, g, e, f, d, h] + [b] == [a, c, g, e, f, d, h, b]
  {
  }

  /** The permutation that sorts the example: the second parameter moves to
      the end and the fourth and seventh trade places. */
  lemma EightPermutation(a: WebParameter, b: WebParameter, c: WebParameter, d: WebParameter,
                         e: WebParameter, f: WebParameter, g: WebParameter, h: WebParameter)
    ensures multiset([a, c, g, e, f, d, h, b]) == multiset([a, b, c, d, e, f, g, h])
  {
    SwapApart([c], d, [e, f], g, [h]);
    SixShape(c, d, e, f, g, h);
    SixShape(c, g, e, f, d, h);
    SecondToLast(a, b, [c, d, e, f, g, h], [c, g, e, f, d, h]);
    EightShape(a, b, c, d, e, f, g, h);
  }

  /** The example's order and the sorted order hold the same parameters. */
  lemma PhotoPermutation()
    ensures multiset(PhotoSorted) == multiset(PhotoParameters)
  {
    EightPermutation(PhotoFile, PhotoSize, PhotoConsumerKey, PhotoToken, PhotoMethod, PhotoTimestamp, PhotoNonce, PhotoVersion);
  }

  /** A parameter that `Prepare` keeps as it is. */
  predicate PassesThrough(p: WebParameter) {
    !IsSignatureParameter(p) && forall k :: 0 <= k < |p.value| ==> IsUnreserved(p.value[k])
  }

  /** Eight parameters that each pass through are prepared as they are. */
  lemma PrepareEight(a: WebParameter, b: WebParameter, c: WebParameter, d: WebParameter,
                     e: WebParameter, f: WebParameter, g: WebParameter, h: WebParameter)
    requires PassesThrough(a) && PassesThrough(b) && PassesThrough(c) && PassesThrough(d)
    requires PassesThrough(e) && PassesThrough(f) && PassesThrough(g) && PassesThrough(h)
    ensures Prepare([a, b, c, d, e, f, g, h]) == [a, b, c, d, e, f, g, h]
  {
    var ps := [a, b, c, d, e, f, g, h];
    assert forall i :: 0 <= i < |ps| ==> PassesThrough(ps[i]);
    PrepareUnchanged(ps);
  }

  /** No parameter of the example is a signature parameter, and every value
      is unreserved text, so the preparation step leaves them as they are. */
  lemma PhotoPrepared()
    ensures Prepare(PhotoParameters) == PhotoParameters
  {
    PhotoRequestPassesThrough();
    PhotoProtocolPassesThrough();
    PrepareEight(PhotoFile, PhotoSize, PhotoConsumerKey, PhotoToken, PhotoMethod, PhotoTimestamp, PhotoNonce, PhotoVersion);
  }

  lemma PhotoRequestPassesThrough()
    ensures PassesThrough(PhotoFile) && PassesThrough(PhotoSize)
  {
  }

  lemma PhotoProtocolPassesThrough()
    ensures PassesThrough(PhotoConsumerKey) && PassesThrough(PhotoToken)
    ensures PassesThrough(PhotoMethod) && PassesThrough(PhotoTimestamp)
    ensures PassesThrough(PhotoNonce) && PassesThrough(PhotoVersion)
  {
    ConsumerKeyPassesThrough();
    TokenPassesThrough();
    MethodPassesThrough();
    TimestampPassesThrough();
    NoncePassesThrough();
    VersionPassesThrough();
  }

  lemma ConsumerKeyPassesThrough()
    ensures PassesThrough(PhotoConsumerKey)
  {
  }

  lemma TokenPassesThrough()
    ensures PassesThrough(PhotoToken)
  {
  }

  lemma MethodPassesThrough()
    ensures PassesThrough(PhotoMethod)
  {
  }

  lemma NoncePassesThrough()
    ensures PassesThrough(PhotoNonce)
  {
  }

  lemma VersionPassesThrough()
    ensures PassesThrough(PhotoVersion)
  {
  }

  /** `oauth_timestamp` has the length of `oauth_signature` and differs from
      it at its seventh character. */
  lemma TimestampPassesThrough()
    ensures PassesThrough(PhotoTimestamp)
  {
    assert AsciiLower(PhotoTimestamp.name[6]) != AsciiLower(SignatureName[6]);
  }

  /** Eight parameters whose neighbours are in order are sorted. */
  lemma SortedEight(a: WebParameter, b: WebParameter, c: WebParameter, d: WebParameter,
                    e: WebParameter, f: WebParameter, g: WebParameter, h: WebParameter)
    requires ParamLe(a, b) && ParamLe(b, c) && ParamLe(c, d) && ParamLe(d, e)
    requires ParamLe(e, f) && ParamLe(f, g) && ParamLe(g, h)
    ensures Sorted([a, b, c, d, e, f, g, h])
  {
    var ps := [a, b, c, d, e, f, g, h];
    assert forall i :: 0 <= i < |ps| - 1 ==> ParamLe(ps[i], ps[i + 1]);
    SortedFromAdjacent(ps);
  }

  /** Two parameters whose names differ after a common prefix, at a first
      character in order, are in order. */
  lemma PrefixOrder(x: WebParameter, y: WebParameter, prefix: string, a: string, b: string)
    requires x.name == prefix + a && y.name == prefix + b
    requires |a| > 0 && |b| > 0 && a[0] < b[0]
    ensures ParamLe(x, y)
  {
    StrLeCommonPrefix(prefix, a, b);
    assert x.name[|prefix|] != y.name[|prefix|];
  }

  /** Neighbouring names of the sorted example are in ordinal order. */
  lemma PhotoSortedInOrder()
    ensures Sorted(PhotoSorted)
  {
    assert ParamLe(PhotoFile, PhotoConsumerKey);
    PhotoNamesInOrder();
    assert ParamLe(PhotoVersion, PhotoSize);
    SortedEight(PhotoFile, PhotoConsumerKey, PhotoNonce, PhotoMethod, PhotoTimestamp, PhotoToken, PhotoVersion, PhotoSize);
  }

  lemma PhotoNamesInOrder()
    ensures ParamLe(PhotoConsumerKey, PhotoNonce) && ParamLe(PhotoNonce, PhotoMethod)
    ensures ParamLe(PhotoMethod, PhotoTimestamp) && ParamLe(PhotoTimestamp, PhotoToken)
    ensures ParamLe(PhotoToken, PhotoVersion)
  {
    ConsumerKeyBeforeNonce();
    NonceBeforeMethod();
    MethodBeforeTimestamp();
    TimestampBeforeToken();
    TokenBeforeVersion();
  }

  lemma ConsumerKeyBeforeNonce()
    ensures ParamLe(PhotoConsumerKey, PhotoNonce)
  {
    PrefixOrder(PhotoConsumerKey, PhotoNonce, "oauth_", "consumer_key", "nonce");
  }

  lemma NonceBeforeMethod()
    ensures ParamLe(PhotoNonce, PhotoMethod)
  {
    PrefixOrder(PhotoNonce, PhotoMethod, "oauth_", "nonce", "signature_method");
  }

  lemma MethodBeforeTimestamp()
    ensures ParamLe(PhotoMethod, PhotoTimestamp)
  {
    PrefixOrder(PhotoMethod, PhotoTimestamp, "oauth_", "signature_method", "timestamp");
  }

  lemma TimestampBeforeToken()
    ensures ParamLe(PhotoTimestamp, PhotoToken)
  {
    PrefixOrder(PhotoTimestamp, PhotoToken, "oauth_t", "imestamp", "oken");
  }

  lemma TokenBeforeVersion()
    ensures ParamLe(PhotoToken, PhotoVersion)
  {
    PrefixOrder(PhotoToken, PhotoVersion, "oauth_", "token", "version");
  }

  function PairText(p: WebParameter): string {
    p.name + "=" + p.value
  }

  /** Eight parameters joined as pairs: one `&` between neighbours. */
  lemma ConcatenateEight(a: WebParameter, b: WebParameter, c: WebParameter, d: WebParameter,
                         e: WebParameter, f: WebParameter, g: WebParameter, h: WebParameter)
    ensures Concatenate([a, b, c, d, e, f, g, h], "=", "&") ==
      PairText(a) + "&" + (PairText(b) + "&" + (PairText(c) + "&" + (PairText(d) + "&" + (
      PairText(e) + "&" + (PairText(f) + "&" + (PairText(g) + "&" + PairText(h)))))))
  {
    ConcatenateSingle(h);
    ConsShapes(a, b, c, d, e, f, g, h);
    ConcatenateCons(g, [h], "=", "&");
    ConcatenateCons(f, [g, h], "=", "&");
    ConcatenateCons(e, [f, g, h], "=", "&");
    ConcatenateCons(d, [e, f, g, h], "=", "&");
    ConcatenateCons(c, [d, e, f, g, h], "=", "&");
    ConcatenateCons(b, [c, d, e, f, g, h], "=", "&");
    ConcatenateCons(a, [b, c, d, e, f, g, h], "=", "&");
  }

  /** The display shapes `ConcatenateEight` needs, kept out of its body for
      the same reason as `SixShape`. */
  lemma ConsShapes(a: WebParameter, b: WebParameter, c: WebParameter, d: WebParameter,
                   e: WebParameter, f: WebParameter, g: WebParameter, h: WebParameter)
    ensures [g] + [h] == [g, h]
    ensures [f] + [g, h] == [f, g, h]
    ensures [e] + [f, g, h] == [e, f, g, h]
    ensures [d] + [e, f, g, h] == [d, e, f, g, h]
    ensures [c] + [d, e, f, g, h] == [c, d, e, f, g, h]
    ensures [b] + [c, d, e, f, g, h] == [b, c, d, e, f, g, h]
    ensures [a] + [b, c, d, e, f, g, h] == [a, b, c, d, e, f, g, h]
  {
  }

  lemma ConcatenateSingle(h: WebParameter)
    ensures Concatenate([h], "=", "&") == PairText(h)
  {
    assert Pairs([h], "=") == [PairText(h)];
  }

  /* ---------------------------------------------------------------------- */
  /* The signature base string of Appendix A.5.1                             */
  /* ---------------------------------------------------------------------- */

  /** The request URL of the example, on the default port. */
  const PhotoUri: Uri := Uri("http", "photos.example.net", 80, "/photos")

  /** A pair as it reads once escaped: its `=` becomes `%3D`. */
  function EscapedPair(name: string, value: string): string {
    name + "%3D" + value
  }

  /** The signature base string of the example, with the RFC 3986 escaper:
      `GET`, the escaped URL and the escaped normalized parameters, whose
      separating `&` become `%26`. */
  lemma PhotoBaseStringVector()
    ensures ConcatenateRequestElements(EscapeDataString3986, "GET", PhotoUri, PhotoParameters) ==
      "GET" + "&" + "http%3A%2F%2Fphotos.example.net%2Fphotos" + "&" + (
      EscapedPair("file", "vacation.jpg") + "%26" + (
      EscapedPair("oauth_consumer_key", "dpf43f3p2l4k3l03") + "%26" + (
      EscapedPair("oauth_nonce", "kllo9940pd9333jh") + "%26" + (
      EscapedPair("oauth_signature_method", "HMAC-SHA1") + "%26" + (
      EscapedPair("oauth_timestamp", "1191242096") + "%26" + (
      EscapedPair("oauth_token", "nnch734d00sl2jdk") + "%26" + (
      EscapedPair("oauth_version", "1.0") + "%26" +
      EscapedPair("size", "original"))))))))
  {
    var n := NormalizeRequestParameters(PhotoParameters);
    PhotoNormalizedVector();
    RelaxedWithRfc3986(RequestUrl(PhotoUri));
    RelaxedWithRfc3986(n);
    PhotoUrlEscaped();
    PhotoParametersEscaped();
    GetIsUpper();
  }

  lemma GetIsUpper()
    ensures ToUpperAscii("GET") == "GET"
  {
  }

  /** The escaped request URL: `:` and `/` are escaped, the rest is kept. */
  lemma PhotoUrlEscaped()
    ensures EscapeDataString3986(RequestUrl(PhotoUri)) == "http%3A%2F%2Fphotos.example.net%2Fphotos"
  {
    var a, b, c, d := "http", "://", "photos.example.net", "/photos";
    PhotoRequestUrl();
    EscapeDataString3986Append(a, b);
    EscapeDataString3986Append(a + b, c);
    EscapeDataString3986Append(a + b + c, d);
    PhotoHostKept();
    PhotoSchemeSeparatorEscaped();
    PhotoPathEscaped();
    PhotoUrlLiteral();
  }

  lemma PhotoRequestUrl()
    ensures RequestUrl(PhotoUri) == "http" + "://" + "photos.example.net" + "/photos"
  {
    assert IsDefaultPort(PhotoUri);
    assert "photos.example.net" + "" == "photos.example.net";
  }

  lemma PhotoUrlLiteral()
    ensures "http" + "%3A%2F%2F" + "photos.example.net" + ("%2F" + "photos")
         == "http%3A%2F%2Fphotos.example.net%2Fphotos"
  {
  }

  lemma PhotoHostKept()
    ensures EscapeDataString3986("http") == "http"
    ensures EscapeDataString3986("photos.example.net") == "photos.example.net"
  {
    assert AllUnreserved("http");
    assert AllUnreserved("photos.example.net");
  }

  lemma PhotoSchemeSeparatorEscaped()
    ensures EscapeDataString3986("://") == "%3A%2F%2F"
  {
    ColonEscape();
    SlashEscape();
    EscapeDataString3986Append(":", "/");
    EscapeDataString3986Append(":/", "/");
    assert ":" + "/" == ":/" && ":/" + "/" == "://";
  }

  lemma PhotoPathEscaped()
    ensures EscapeDataString3986("/photos") == "%2F" + "photos"
  {
    assert AllUnreserved("photos");
    SlashEscape();
    EscapeDataString3986Append("/", "photos");
    assert "/" + "photos" == "/photos";
  }

  predicate AllUnreserved(s: string) {
    forall i :: 0 <= i < |s| ==> IsUnreserved(s[i])
  }

  /** An ASCII character outside the unreserved set becomes `%` and the two
      digits of its code. */
  lemma AsciiEscape3986(c: char, hi: char, lo: char)
    requires c as int < 0x80 && !IsUnreserved(c)
    requires HexDigit(c as int / 16) == hi && HexDigit(c as int % 16) == lo
    ensures EscapeDataString3986([c]) == ['%', hi, lo]
  {
    assert [c][1..] == [];
    assert Utf8Char(c) == [c as int];
    assert Pct2All([c as int]) == Pct2(c as int) + Pct2All([]);
  }

  lemma AmpersandEscape()
    ensures EscapeDataString3986("&") == "%26"
  {
    AsciiEscape3986('&', '2', '6');
  }

  lemma EqualsEscape()
    ensures EscapeDataString3986("=") == "%3D"
  {
    AsciiEscape3986('=', '3', 'D');
  }

  lemma ColonEscape()
    ensures EscapeDataString3986(":") == "%3A"
  {
    AsciiEscape3986(':', '3', 'A');
  }

  lemma SlashEscape()
    ensures EscapeDataString3986("/") == "%2F"
  {
    AsciiEscape3986('/', '2', 'F');
  }

  /** One escaped pair followed by `&` and the rest. */
  lemma EscapePairThen(name: string, value: string, rest: string)
    requires AllUnreserved(name) && AllUnreserved(value)
    ensures EscapeDataString3986(Pair(name, value) + "&" + rest)
         == EscapedPair(name, value) + "%26" + EscapeDataString3986(rest)
  {
    var p := Pair(name, value);
    EscapeLastPair(name, value);
    AmpersandEscape();
    EscapeThree(p, "&", rest);
  }

  lemma EscapeThree(x: string, y: string, z: string)
    ensures EscapeDataString3986(x + y + z)
         == EscapeDataString3986(x) + EscapeDataString3986(y) + EscapeDataString3986(z)
  {
    EscapeDataString3986Append(x + y, z);
    EscapeDataString3986Append(x, y);
  }

  /** An escaped pair: the `=` between name and value becomes `%3D`. */
  lemma EscapeLastPair(name: string, value: string)
    requires AllUnreserved(name) && AllUnreserved(value)
    ensures EscapeDataString3986(Pair(name, value)) == EscapedPair(name, value)
  {
    EqualsEscape();
    EscapeDataString3986Append(name + "=", value);
    EscapeDataString3986Append(name, "=");
  }

  /** The names and values of the example hold only unreserved characters. */
  lemma PhotoPiecesUnreserved()
    ensures AllUnreserved("file") && AllUnreserved("vacation.jpg")
    ensures AllUnreserved("oauth_consumer_key") && AllUnreserved("dpf43f3p2l4k3l03")
    ensures AllUnreserved("oauth_nonce") && AllUnreserved("kllo9940pd9333jh")
    ensures AllUnreserved("oauth_signature_method") && AllUnreserved("HMAC-SHA1")
    ensures AllUnreserved("oauth_timestamp") && AllUnreserved("1191242096")
    ensures AllUnreserved("oauth_token") && AllUnreserved("nnch734d00sl2jdk")
    ensures AllUnreserved("oauth_version") && AllUnreserved("1.0")
    ensures AllUnreserved("size") && AllUnreserved("original")
  {
    PhotoNamesUnreserved();
    PhotoValuesUnreserved();
  }

  lemma PhotoNamesUnreserved()
    ensures AllUnreserved("file") && AllUnreserved("oauth_consumer_key")
    ensures AllUnreserved("oauth_nonce") && AllUnreserved("oauth_signature_method")
    ensures AllUnreserved("oauth_timestamp") && AllUnreserved("oauth_token")
    ensures AllUnreserved("oauth_version") && AllUnreserved("size")
  {
    LowerWordUnreserved("file");
    LowerWordUnreserved("oauth_consumer_key");
    LowerWordUnreserved("oauth_nonce");
    LowerWordUnreserved("oauth_signature_method");
    LowerWordUnreserved("oauth_timestamp");
    LowerWordUnreserved("oauth_token");
    LowerWordUnreserved("oauth_version");
    LowerWordUnreserved("size");
  }

  lemma PhotoValuesUnreserved()
    ensures AllUnreserved("vacation.jpg") && AllUnreserved("dpf43f3p2l4k3l03")
    ensures AllUnreserved("kllo9940pd9333jh") && AllUnreserved("HMAC-SHA1")
    ensures AllUnreserved("1191242096") && AllUnreserved("nnch734d00sl2jdk")
    ensures AllUnreserved("1.0") && AllUnreserved("original")
  {
    assert AllUnreserved("vacation.jpg");
    assert AllUnreserved("dpf43f3p2l4k3l03");
    assert AllUnreserved("kllo9940pd9333jh");
    assert AllUnreserved("HMAC-SHA1");
    assert AllUnreserved("1191242096");
    assert AllUnreserved("nnch734d00sl2jdk");
    assert AllUnreserved("1.0");
    assert AllUnreserved("original");
  }

  /** Text made of lower-case letters and `_` is unreserved. */
  lemma LowerWordUnreserved(s: string)
    requires forall i :: 0 <= i < |s| ==> 'a' <= s[i] <= 'z' || s[i] == '_'
    ensures AllUnreserved(s)
  {
  }

  /** The escaped normalized parameters of the example. */
  lemma PhotoParametersEscaped()
    ensures EscapeDataString3986(
      Pair("file", "vacation.jpg") + "&" + (
      Pair("oauth_consumer_key", "dpf43f3p2l4k3l03") + "&" + (
      Pair("oauth_nonce", "kllo9940pd9333jh") + "&" + (
      Pair("oauth_signature_method", "HMAC-SHA1") + "&" + (
      Pair("oauth_timestamp", "1191242096") + "&" + (
      Pair("oauth_token", "nnch734d00sl2jdk") + "&" + (
      Pair("oauth_version", "1.0") + "&" +
      Pair("size", "original")))))))) ==
      EscapedPair("file", "vacation.jpg") + "%26" + (
      EscapedPair("oauth_consumer_key", "dpf43f3p2l4k3l03") + "%26" + (
      EscapedPair("oauth_nonce", "kllo9940pd9333jh") + "%26" + (
      EscapedPair("oauth_signature_method", "HMAC-SHA1") + "%26" + (
      EscapedPair("oauth_timestamp", "1191242096") + "%26" + (
      EscapedPair("oauth_token", "nnch734d00sl2jdk") + "%26" + (
      EscapedPair("oauth_version", "1.0") + "%26" +
      EscapedPair("size", "original")))))))
  {
    PhotoPiecesUnreserved();
    var t7 := Pair("size", "original");
    var t6 := Pair("oauth_version", "1.0") + "&" + t7;
    var t5 := Pair("oauth_token", "nnch734d00sl2jdk") + "&" + t6;
    var t4 := Pair("oauth_timestamp", "1191242096") + "&" + t5;
    var t3 := Pair("oauth_signature_method", "HMAC-SHA1") + "&" + t4;
    var t2 := Pair("oauth_nonce", "kllo9940pd9333jh") + "&" + t3;
    var t1 := Pair("oauth_consumer_key", "dpf43f3p2l4k3l03") + "&" + t2;
    EscapeLastPair("size", "original");
    EscapePairThen("oauth_version", "1.0", t7);
    EscapePairThen("oauth_token", "nnch734d00sl2jdk", t6);
    EscapePairThen("oauth_timestamp", "1191242096", t5);
    EscapePairThen("oauth_signature_method", "HMAC-SHA1", t4);
    EscapePairThen("oauth_nonce", "kllo9940pd9333jh", t3);
    EscapePairThen("oauth_consumer_key", "dpf43f3p2l4k3l03", t2);
    EscapePairThen("file", "vacation.jpg", t1);
  }
}

=== FILE: wrappers.dfy ===
/** Failure-compatible Option and Result datatypes. A C# `null` becomes `None`,
    and a thrown exception becomes a `Failure` carrying an error value. */
module Wrappers {

  datatype Option<+T> = None | Some(value: T) {

    predicate IsFailure() {
      None?
    }

    function PropagateFailure<U>(): Option<U>
      requires None?
    {
      None
    }

    function Extract(): T
      requires Some?
    {
      value
    }
  }

  datatype Result<+T, +E> = Success(value: T) | Failure(error: E) {

    predicate IsFailure() {
      Failure?
    }

    function PropagateFailure<U>(): Result<U, E>
      requires Failure?
    {
      Failure(error)
    }

    function Extract(): T
      requires Success?
    {
      value
    }

    function MapFailure<F>(f: E -> F): (r: Result<T, F>)
      ensures Success? <==> r.Success?
      ensures Success? ==> r.value == value
      ensures Failure? ==> r.error == f(error)
    {
      match this
      case Success(v) => Success(v)
      case Failure(e) => Failure(f(e))
    }
  }
}
